=== FILE: README.md ===
# glib core, modelled in Dafny

This project models the sequential logic of the Go game-server toolkit
`glib` and proves properties about it. Goroutines, channels, MongoDB and
Redis sit around that logic. Here they are explicit state: maps for the
stores, sequences for queues and mailboxes, and boolean or function
parameters for every outcome the model cannot see (a failed request, a
timer firing, a handler's answer, Go's map iteration order).

- **GenServer** (`gen_server.dfy`) is the actor runtime.
  - The registry maps a name to a server with a bounded mailbox of 1024 envelopes.
  - Start, Stop, Cast and the enqueue half of Call and ManualCall are pure steps.
  - Dispatch handles one envelope per step, with different reply rules for CALL, CAST and MCall.
  - The request and response pools are modelled with slot numbers for the one-slot reply channels.
  - An invariant, `Valid`, says that a pooled envelope is reset, has an empty channel and is in no mailbox. Every step keeps it.
- **RecordModel** (`model.dfy`) is the dirty-state machine of a table.
  - It covers the five-state `flowState` table, `status`, `updateState`, and the Create/Update/Delete/Load/Find/CleanStatus operations.
  - It also covers the container of tables and the per-table agent.
  - The table is shown to agree with a reference "ledger": what the database holds, what memory holds, and what was touched since the last write-back.
- **Persist** (`persist.dfy`) is the write-back.
  - `genQuery` and `PersistAll` turn statuses into upserts and deletes.
  - The writer server queues them per table. It flushes batches of at most 100 and removes only what a successful bulk write sent.
- **Pool** (`pool.dfy`) is the worker-pool manager and its workers: an idle list, a pending list and FIFO hand-offs.
- **Broadcast** (`broadcast.dfy`) is a channel's subscriber map: join, leave and publish, and starting the channel on first use.
- **GameData** (`game_data.dfy`) is the player-data hand-off.
  - Take and Return go through the cache.
  - A last-write-wins persist queue is drained by a periodic tick, with a version guard on the database write.
- **TimerTask** (`timertask.dfy`) is the delayed-task scheduler. Contents and run times are stored in Redis; due keys are selected, and a handed-over task is split back into player and task.
- **Excel** (`excel.dfy`) is the spreadsheet-to-Go translator.
  - It covers the type-string parser, value encoding, the record builder, the field filters, and the struct and JSON readers of global and normal sheets.
  - Sheets are given as rows of strings.
- **PbMsg** (`pbmsg.dfy`) is the proto scanner and code generator. It finds `message Name {` lines and generates the registration file.
- **TcpConn** (`tcp_conn.dfy`) is the TCP connection. It covers 4-byte big-endian length-prefixed frames and the receive loop that hands frames to a handler until something stops it.

`wrappers.dfy` (Option, Result), `seqs.dfy` and `strs.dfy` are shared
helpers. `strs.dfy` holds the parts of Go's `strings` package the core
uses: Split, Join, TrimSpace, Trim, TrimPrefix and TrimSuffix.

## Model

| member | source | states |
|---|---|---|
| GenServer.ResetRequest | gen_server/gen_server.go:270-274 | A recycled envelope has category 0 and no message, and keeps its reply channel. |
| GenServer.ResetResponse | gen_server/gen_server.go:280-284 | A recycled response carries neither a result nor an error. |
| GenServer.GetRequest | gen_server/gen_server.go:266-268 | An envelope comes from the pool when it has one; otherwise a new envelope with a fresh reply channel is allocated. |
| GenServer.Start | gen_server/gen_server.go:130-165 | A registered name returns the existing server and Init does not run. Otherwise only a successful Init registers the name, with an empty mailbox. A failed Init returns its error and registers nothing. |
| GenServer.Stop | gen_server/gen_server.go:248-351 | Stopping an unknown name is a no-op that replies nil, as the package-level Stop does at lines 167-174. When Terminate succeeds, the name is deregistered, the mailbox is dropped, and nil comes back. When it fails, its error comes back and the server stays registered with its mailbox. When Terminate panics, the recovery swallows the panic before any reply, so the caller never gets an answer, and the server keeps serving. |
| GenServer.CastTo | gen_server/gen_server.go:236-246 | An unknown name or a mailbox holding 1024 envelopes is an error and changes nothing. Otherwise exactly one CAST envelope with the message is appended at the tail, and no other server changes. |
| GenServer.CallEnqueue | gen_server/gen_server.go:186-216 | An unknown name is ErrNotExist. A full mailbox blocks the caller. Otherwise one CALL or MCall envelope is appended at the tail. |
| GenServer.AwaitReply | gen_server/gen_server.go:223-233 | A timeout returns an error and recycles nothing. A received reply returns its result and error, empties the channel, and puts back both the reset envelope and the reset response. |
| GenServer.Respond | gen_server/gen_server.go:259-264 | Request.Response puts exactly one filled response into the envelope's one-slot channel. A channel that is already full would block. |
| GenServer.Dispatch | gen_server/gen_server.go:311-326 | One step handles the head of the mailbox and nothing else: the mailbox loses exactly that envelope, and the other servers are untouched. |
| GenServer.EmptyValid | gen_server/gen_server.go:38 | The empty registry with empty pools satisfies the pool-safety invariant. |
| GenServer.GetRequestClean | gen_server/gen_server.go:266-268 | The envelope handed out is in no pool and in no mailbox, and its channel is empty. |
| GenServer.CastValid | gen_server/gen_server.go:236-246 | Cast keeps the pool-safety invariant. |
| GenServer.CallEnqueueValid | gen_server/gen_server.go:211-216 | Enqueuing a Call or ManualCall keeps the pool-safety invariant. |
| GenServer.DispatchNeverStuck | gen_server/gen_server.go:311-317 | Under the invariant, a CALL at the head of a mailbox always finds its reply channel empty, so the loop never blocks on it. |
| GenServer.DispatchValid | gen_server/gen_server.go:311-326 | Dispatch keeps the pool-safety invariant for all three categories, including a recovered handler panic. |
| GenServer.RespondValid | gen_server/gen_server.go:259-264 | Answering an envelope that no mailbox or pool holds keeps the invariant. |
| GenServer.RecycleValid | gen_server/gen_server.go:270-274 | Returning an envelope that left its mailbox to the pool keeps the invariant. |
| GenServer.AwaitValid | gen_server/gen_server.go:223-229 | Receiving a reply and recycling the envelope and the response keeps the invariant. |
| GenServer.StartValid | gen_server/gen_server.go:130-144 | Start keeps the invariant. |
| GenServer.StopValid | gen_server/gen_server.go:328-351 | Stop keeps the invariant, whichever way Terminate goes. |
| GenServer.StartIgnoresInitWhenRegistered | gen_server/gen_server.go:130-143 | Start on a registered name does not depend on the Init outcome and returns the registered server. |
| GenServer.StartTwiceSameServer | gen_server/gen_server.go:130-143 | A second Start under the same name returns the first server and changes nothing. |
| GenServer.StartRegistersIffInitOk | gen_server/gen_server.go:133-139 | A new name is registered if and only if Init succeeds; a failed Init returns its error. |
| GenServer.StoppedNameRejectsMessages | gen_server/gen_server.go:167-201 | After a Stop whose Terminate succeeds the name is gone: Call, ManualCall and Cast to it fail without enqueuing. |
| GenServer.FailedStopKeepsServing | gen_server/gen_server.go:328-345 | After a Stop whose Terminate fails or panics, the server still exists and still accepts casts and calls. |
| GenServer.RestartAfterStopRunsInit | gen_server/gen_server.go:130-139 | A stopped name can be started again, and Init's outcome then decides. |
| GenServer.CallDispatchReplies | gen_server/gen_server.go:314-316 | A CALL answered by HandleCall leaves exactly that result and error in the caller's channel and recycles nothing. |
| GenServer.NonCallDispatchSendsNothing | gen_server/gen_server.go:318-324 | CAST and MCall send no reply. Only a CAST whose handler returns recycles its envelope. |
| GenServer.TimeoutRecyclesNothing | gen_server/gen_server.go:230-232 | A timed-out call returns an error, leaves both pools alone and leaves the channel open for the late reply. |
| GenServer.DispatchInOrder | gen_server/gen_server.go:295-300 | n dispatch steps handle exactly the first n envelopes of the mailbox, in enqueue order. |
| RecordModel.FlowState | model/model.go:135-184 | An error is exactly the invalid transition that was asked for. A valid transition never lands on ORIGIN and never targets EMPTY or ORIGIN. |
| RecordModel.FlowStateRefinesLedger | model/model.go:135-184 | For every presence of a uuid, the table refuses exactly a Delete of a record memory does not hold and an Update of a record deleted since the last write-back. Every other transition lands on the status the reference assigns after the write. |
| RecordModel.NewModel | model/model.go:55-63 | A new table has no statuses and no records. |
| RecordModel.Status | model/model.go:106-116 | The stored status wins. Otherwise the status is ORIGIN exactly when the record is held, and EMPTY exactly when it is not. |
| RecordModel.UpdateState | model/model.go:119-132 | updateState fails exactly when flowState rejects the transition. EMPTY drops the entry and any other target is stored. |
| RecordModel.Load | model/model.go:76-78 | Load writes only the record and leaves the statuses alone. |
| RecordModel.Create | model/model.go:81-84 | Create fails exactly when the transition to CREATE is invalid; on success the record is stored. |
| RecordModel.Update | model/model.go:95-98 | Update fails exactly when the transition to UPDATE is invalid; on success the record is stored. |
| RecordModel.Delete | model/model.go:87-92 | Deleting an unheld uuid is a no-op. On success the record is gone. |
| RecordModel.Find | model/model.go:101-103 | Find returns the record exactly when it is held. |
| RecordModel.CleanStatus | model/model.go:71-73 | CleanStatus forgets every status and keeps every record. |
| RecordModel.OperationsKeepConsistent | model/model.go:119-132 | Every successful operation keeps the stored statuses to CREATE, UPDATE or DELETE, and keeps DELETE for exactly the uuids memory no longer holds. |
| RecordModel.OnlyUpdateAfterDeleteFails | model/model.go:123-126 | On a consistent table Create and Delete never panic. Update panics exactly on a pending DELETE. |
| RecordModel.UpdateAfterDeletePanics | model/model.go:175-181 | Delete then Update of a held record panics exactly when the record is not a fresh CREATE. |
| RecordModel.CreateThenDeleteAbsent | model/model.go:157-162 | Create followed by Delete of an absent uuid gives back the original table: no record and no status. |
| RecordModel.FindAfterWrites | model/model.go:81-103 | After Create, Update or Load, Find returns the record. After Delete, Find returns nil. |
| RecordModel.TracksEvery | model/model.go:106-116 | A table that tracks the reference reports the reference's status for every uuid. |
| RecordModel.CreateTracks | model/model.go:81-84 | On a tracking table Create always succeeds and keeps tracking. |
| RecordModel.UpdateTracks | model/model.go:95-98 | On a tracking table Update fails exactly when the database has the record and memory does not; otherwise it keeps tracking. |
| RecordModel.DeleteTracks | model/model.go:87-92 | On a tracking table Delete always succeeds and keeps tracking. |
| RecordModel.LoadTracks | model/model.go:76-78 | Loading a uuid that has no status keeps tracking. |
| RecordModel.CleanTracks | model/model.go:71-73 | After a write-back, CleanStatus tracks the flushed reference. |
| RecordModel.TrackingIsConsistent | model/model.go:119-132 | A tracking table whose stored statuses are real transitions is consistent. |
| RecordModel.NewContainer | model/container.go:36-40 | A new container has no tables. |
| RecordModel.GetModel | model/container.go:42-44 | GetModel returns the table exactly when its name is known, and nil otherwise. |
| RecordModel.AddModel | model/container.go:46-48 | After AddModel(t, m), GetModel(t) is m, whatever was there before, and every other table is unchanged. |
| RecordModel.GetModels | model/container.go:50-52 | GetModels returns exactly the tables GetModel knows. |
| RecordModel.NewContainerEmpty | model/container.go:36-44 | GetModel on a fresh container is nil for every name. |
| RecordModel.NewAgent | model/agent.go:44-51 | An agent gets its table name and loader with no filters, and is appended to the registered loaders. |
| RecordModel.WithTable | model/agent.go:86-88 | An agent whose context lacks its table fails (the nil dereference). Otherwise the operation's error, or its new table, goes back into the context. |
| RecordModel.AgentLoad | model/agent.go:58-63 | Load stores the record under Loader.Uuid(rec), then runs the after-load filter only when one is set. |
| RecordModel.AgentCreate | model/agent.go:66-68 | Create is the table's Create keyed by Loader.Uuid(rec); afterwards Find sees the record. |
| RecordModel.AgentUpdate | model/agent.go:76-78 | Update is the table's Update keyed by Loader.Uuid(rec); afterwards Find sees the record. |
| RecordModel.AgentDelete | model/agent.go:71-73 | Delete passes the uuid unchanged; afterwards Find sees nil. |
| RecordModel.AgentFind | model/agent.go:81-83 | Find reads the record of the agent's own table. |
| RecordModel.AgentWritesStayInTable | model/agent.go:66-78 | The agent's writes leave every other table of the context unchanged. |
| RecordModel.AgentLoadThenFind | model/agent.go:58-83 | Without a filter, loading a record and then finding its uuid returns it. |
| Persist.GenQuery | model/persist.go:79-105 | CREATE and UPDATE of a held record upsert it, filtered on its uuid; a gone record gives no query. A marshal failure is the only error. DELETE, and only DELETE, gives a delete-one. |
| Persist.ModelQueries | model/persist.go:51-60 | A table's queries number at most its statuses. The only possible error is a marshal failure, and it stops the scan. |
| Persist.ApplyModelQueries | model/persist.go:79-105 | Applying a table's queries settles each listed uuid (document present exactly when wanted) and leaves every other document alone. |
| Persist.TrackedStatus | model/model.go:106-116 | On a tracking table, a dirty uuid wants a document exactly when memory holds it, and a clean uuid is in the database exactly when memory holds it. |
| Persist.WriteBackSynchronises | model/persist.go:47-105 | When every record marshals, the write-back of a tracking table leaves the database holding exactly the records in memory, and CleanStatus then tracks the flushed reference. |
| Persist.QueriesSucceed | model/persist.go:85-95 | When every record marshals, query generation cannot fail. |
| Persist.CollectTasks | model/persist.go:47-64 | Every task has at least one query and belongs to a listed table. The only possible error is a marshal failure. |
| Persist.CollectTasksExact | model/persist.go:47-66 | The tasks are the listed tables' non-empty query lists, in table order, each under its table's name: every task is one of them and every table with queries has its task. The scan fails exactly when one table's queries fail. There is no task exactly when every table has no query. |
| Persist.PersistAll | model/persist.go:47-133 | A marshal failure is returned and nothing is cast. With no task nothing is cast and nil comes back. Otherwise one AddTaskParams carrying the collected tasks is cast to the writer: a missing writer returns "not exist", a full mailbox returns "queue full", and a successful cast appends exactly that message to the writer's mailbox. |
| Persist.CleanTablesCastNothing | model/persist.go:47-71 | A context whose tables have no statuses casts nothing and returns nil, leaving every mailbox as it was. |
| Persist.EmptyStatusNoTasks | model/persist.go:50-64 | Tables without statuses contribute no task. |
| Persist.CleanAllStatus | model/persist.go:73-77 | Every table forgets its statuses and keeps its records. |
| Persist.CleanAllThenPersistNothing | model/persist.go:47-77 | After CleanAllStatus, PersistAll casts nothing and returns nil. |
| Persist.IndexOf | model/persist.go:175-182 | A table's queue is found exactly when one exists, and the index found names that table. |
| Persist.AddTaskEffect | model/persist.go:172-187 | Queueing one task appends its queries to the tail of its table's list and records the collection only the first time; the other tables are unchanged. |
| Persist.AddTasksAppends | model/persist.go:172-187 | Queueing tasks appends each task's queries, in task order, to its table's list. The collection a table keeps is the one it got first. |
| Persist.RemainTasks | model/persist.go:257-263 | The count is the total over all lists, and it is 0 exactly when every list is empty. |
| Persist.BatchGet | model/persist.go:238-249 | The batch is the front of the list, min(len, 100) items, in order. |
| Persist.RemoveList | model/persist.go:251-255 | Exactly the counted front is removed; the rest keeps its order. |
| Persist.WriteTables | model/persist.go:213-229 | The loop keeps every table and its collection in place. |
| Persist.WriteTablesEffect | model/persist.go:213-229 | Only a successful bulk write removes items, and exactly the prefix it sent. A failed write stops the loop and leaves that list and every unvisited list intact. |
| Persist.BatchWrite | model/persist.go:213-234 | A flush re-casts itself if and only if it had no error and items remain. |
| Persist.BatchWriteProgress | model/persist.go:213-234 | A clean flush strictly reduces a non-zero remaining count, so repeated flushes drain the queues. |
| Persist.RemainShrinks | model/persist.go:224-228 | Removing each list's batch never increases the total and decreases a non-zero total. |
| Persist.CollectTasksSucceed | model/persist.go:47-64 | When every record marshals, collecting the tasks cannot fail. |
| Persist.PersistAllSucceeds | model/persist.go:47-133 | When every record marshals and the writer is registered with room in its mailbox, PersistAll returns nil. |
| Persist.WriterInit | model/persist.go:143-156 | The writer starts with no tables and nothing pending. |
| Persist.WriterCast | model/persist.go:171-196 | An add queues its tasks and flushes if and only if at least 100 writes are then pending. A tick flushes. Anything else changes nothing. |
| Persist.WriterCall | model/persist.go:160-169 | The ticker call flushes and answers nil. RemainTasksParams answers the pending count. |
| Persist.FlushKeepsTables | model/persist.go:213-234 | A flush keeps the tables, their collections and their order; each list only loses a prefix. |
| Pool.New | pool/pool.go:50-73 | Worker i has index i, all workers are idle in index order, and nothing is pending. |
| Pool.Submit | pool/pool.go:107-114 | With an idle worker, the front idle worker takes the task. Otherwise the task waits at the tail of the pending list. |
| Pool.HandleCall | pool/pool.go:99-117 | A call-path task carries Reply=true and its request. The call itself answers nothing. |
| Pool.HandleCast | pool/pool.go:121-150 | A cast-path task carries Reply=false. A returned worker takes the oldest pending task, or joins the idle tail when none is pending. An out-of-range index panics: with a task pending that task is already off the list and is lost, otherwise nothing changes. Other messages change nothing. |
| Pool.StepsKeepNoIdleWhileQueued | pool/pool.go:107-145 | Every manager step keeps "tasks pending implies no idle worker". |
| Pool.NewHasNoQueue | pool/pool.go:50-73 | A new manager satisfies both pool invariants. |
| Pool.StepsKeepIdleSound | pool/pool.go:137-145 | A valid worker returning while busy keeps the idle list a set of distinct valid indices. |
| Pool.ReturnsServeInOrder | pool/pool.go:137-141 | With every worker busy, returning workers take the pending tasks in submission order. |
| Pool.WorkerCast | pool/worker.go:63-72 | Every worker cast ends with exactly one ReturnWorker of its own index. The handler's result is sent back if and only if the task wants a reply. |
| Pool.WorkerCall | pool/worker.go:59-61 | Worker HandleCall answers (nil, nil). |
| Pool.CallPathAnsweredOnce | pool/pool.go:102-128 | A call-path task served by a worker is answered exactly once, to its request. A cast-path task never is. |
| Pool.Process | pool/pool.go:75-77 | Process enqueues a ManualCall carrying the task on the pool's own server, so the manager's return sends no automatic reply. A full mailbox blocks the caller. |
| Pool.ProcessAsync | pool/pool.go:79-84 | A full mailbox gives the logged "queue full" error and queues nothing. Otherwise exactly one cast carrying the task is appended to the pool server's mailbox. |
| Broadcast.ChannelKey | broadcast/broadcast.go:137-139 | The key is "broadcast:" followed by the channel name. |
| Broadcast.ChannelKeyInjective | broadcast/broadcast.go:137-139 | Distinct channels never share a server name. |
| Broadcast.Init | broadcast/broadcast.go:77-81 | The channel is the first start argument and nobody has joined. |
| Broadcast.Join | broadcast/broadcast.go:116-119 | The player is subscribed with this handler, replacing an earlier one; nobody else changes. |
| Broadcast.Leave | broadcast/broadcast.go:123-127 | The player is removed if present and it is a no-op otherwise; nobody else changes. |
| Broadcast.Publish | broadcast/broadcast.go:131-135 | Each subscriber's own handler is invoked with (subscriber, message), in map order. |
| Broadcast.PublishReachesEachOnce | broadcast/broadcast.go:131-135 | A publish reaches every current subscriber exactly once and nobody else. |
| Broadcast.HandleCast | broadcast/broadcast.go:83-95 | Join and leave act as above. A publish leaves the channel unchanged and makes exactly the deliveries Publish makes, one per subscriber. Any other payload is ignored. Only publishing invokes handlers. |
| Broadcast.PublishCount | broadcast/broadcast.go:131-135 | A publish makes as many handler calls as there are subscribers. |
| Broadcast.HandleCall | broadcast/broadcast.go:97-99 | A call answers (nil, nil) and changes nothing. |
| Broadcast.Terminate | broadcast/broadcast.go:101-104 | Terminate drops every subscriber and succeeds. |
| Broadcast.JoinThenLeave | broadcast/broadcast.go:116-127 | Joining and then leaving restores a channel the player was not in. |
| Broadcast.PublishAfterJoin | broadcast/broadcast.go:116-135 | A publish after a join reaches the player with the handler it joined with. |
| Broadcast.PublishAfterLeave | broadcast/broadcast.go:123-135 | A publish after a leave does not reach the player who left. |
| Broadcast.CastChannel | broadcast/broadcast.go:62-72 | A missing channel is started first. If that start fails, the error comes back and nothing is cast. Otherwise the cast's own result comes back. |
| Broadcast.CastCommand | broadcast/broadcast.go:40-72 | Join, Leave and Publish fail only on a full mailbox, and otherwise land in the channel's mailbox. |
| Broadcast.PublishChannel | broadcast/broadcast.go:53-60 | Publish wraps the payload with its channel and sender before casting. |
| GameData.CacheKey | game_data/game_data.go:105-107 | The cache key is "player_data:" followed by the player id. |
| GameData.CacheKeyInjective | game_data/game_data.go:105-107 | Distinct players never share a cache key. |
| GameData.WriteDoc | game_data/persister.go:139-158 | The upsert succeeds exactly when there is no outage and no stored document at least as new. A success overwrites or inserts only that player's document, and no stored version ever decreases. |
| GameData.TickOne | game_data/persister.go:126-135 | A task either leaves the queue or stays in it, and the cache content is untouched. |
| GameData.ExpireKey | game_data/persister.go:129-133 | EXPIRE marks the player's cache key only when that key is cached, and leaves every other key's expiry as it was. |
| GameData.TickOneEffect | game_data/persister.go:126-135 | A landing write removes the task and stores its document. It sets the expiry only with NeedExpire, and only on a cached key. A write that does not land changes nothing. |
| GameData.TickIsOrderFree | game_data/persister.go:125-137 | tickerPersist's result does not depend on Go's map order. It equals the order-free reference over the whole queue. |
| GameData.TickRemovesExactlyLanded | game_data/persister.go:125-137 | After a tick a player stays queued exactly when its write failed. A landed player's document is its task, and the expiry is set exactly for landed tasks with NeedExpire whose cache key exists. |
| GameData.HandleCast | game_data/persister.go:97-103 | The newest task for a player replaces any queued one, and nothing else changes. |
| GameData.LastWriteWins | game_data/persister.go:97-103 | A second task for the same player erases the first. |
| GameData.HandleCall | game_data/persister.go:107-137 | RemainTasksParams answers the queue size. A tick runs tickerPersist as written, whose result is the order-free reference over the whole queue, and answers nil. |
| GameData.HandleCallFixed | game_data/persister.go:107-137 | Corrected: a tick keeps exactly the players an outage hit, so a tick with no outage empties the queue. |
| GameData.EnsurePersistered | game_data/persister.go:59-67 | The wait ends at the first poll that answers 0 without error, and only then. |
| GameData.Take | game_data/game_data.go:62-87 | A cache hit hands out the cached content and deletes exactly that key and its expiry; a failed delete is only logged and changes nothing. A miss falls back to the database, giving "" when there is no document. Other errors return "" and the error without reading further. |
| GameData.Return | game_data/game_data.go:89-97 | A failed cache write returns false and queues nothing. Otherwise the content is cached with no expiry and queued with NeedExpire, and the answer is true. |
| GameData.Persist | game_data/game_data.go:99-103 | Persist queues the content without NeedExpire and answers true. |
| GameData.ReturnThenTake | game_data/game_data.go:62-97 | Taking back returned data hands out exactly that content and clears the cached copy. |
| GameData.PersistTickTake | game_data/game_data.go:62-103 | As written: once a persisted task newer than the stored document has been through a tick with no outage, and the cache has no copy, Take reads that content from the database. |
| GameData.PersistTickFixedTake | game_data/game_data.go:62-103 | The same under the corrected tick. |
| GameData.StaleTaskStaysQueued | game_data/persister.go:139-158 | As written, a queued task whose version is not newer than the stored document stays queued through every tick, and its document is untouched. |
| GameData.ExpiryStaysOnCached | game_data/game_data.go:62-103 | Take, Return, Persist and a tick each keep every expiring key a cached key. |
| GameData.SameVersionReturnIsStuck | game_data/persister.go:59-67 | A concrete queue whose remaining count no tick ever brings to 0, so ensurePersistered never returns. |
| GameData.TickOneFixed | game_data/persister.go:125-137 | Corrected tick step: only an outage keeps a task queued. |
| GameData.TickFixed | game_data/persister.go:125-137 | The corrected tick leaves the cache content alone. |
| GameData.TickFixedClears | game_data/persister.go:125-137 | The corrected tick clears every queued player that no outage hit. |
| GameData.TickFixedDrains | game_data/persister.go:59-67 | With no outage one corrected tick drains the queue, so ensurePersistered returns. |
| GameData.TickFixedNeverRegresses | game_data/persister.go:143-153 | The corrected tick still never lets an older version overwrite a newer document. |
| GameData.TickFixedLands | game_data/persister.go:143-153 | Under the corrected tick a newer task's document lands. |
| GameData.TickFixedKeeps | game_data/persister.go:125-137 | Players outside the tick keep their documents. |
| TimerTask.StartOptions | timertask/timertask.go:58-76 | The first option given wins; with none, the check interval is 1 second and the batch limit is 100. |
| TimerTask.MfaKey | timertask/timertask.go:210-212 | The content key is "timer_task:" followed by the task key. |
| TimerTask.MfaKeyInjective | timertask/timertask.go:210-212 | Distinct task keys never share a content key. |
| TimerTask.Content | timertask/timertask.go:92-95 | The content is the player id, one ':', then the task. |
| TimerTask.MfaExpire | timertask/timertask.go:214-217 | The content lives max(runAt - now, 0) + 3600 seconds, so always at least an hour and past the run time. |
| TimerTask.DoAdd | timertask/timertask.go:216-229 | The content is stored first. If storing fails, nothing is scheduled. Otherwise the key's score becomes runAt. |
| TimerTask.DoUpdate | timertask/timertask.go:231-248 | Only a scheduled key with a positive score is moved to runAt. An absent key is not an error. A failed ZSCORE or ZADD returns the error and changes nothing. Contents never change. |
| TimerTask.UpdateThenGet | timertask/timertask.go:231-256 | After a successful update, get reads the new run time for a scheduled key with a positive score, and reads as before otherwise. A failed update changes no read. Other keys always read as before. |
| TimerTask.AddThenUpdate | timertask/timertask.go:216-248 | Updating a freshly added key with a positive run time succeeds, and get then reads the new run time. |
| TimerTask.DoGet | timertask/timertask.go:250-256 | get returns the score of a scheduled key and Nil for an unscheduled one. |
| TimerTask.Get | timertask/timertask.go:109-115 | Any error, of the call or of Redis, reads as 0. |
| TimerTask.DoDel | timertask/timertask.go:258-265 | The content is removed, then the score. A failed first removal skips the second. |
| TimerTask.AddThenDel | timertask/timertask.go:216-265 | Adding and then deleting a new key leaves Redis as it was. |
| TimerTask.BatchSize | timertask/timertask.go:272-278 | A range query returns at most the due keys and, with a positive limit, at most the limit. |
| TimerTask.TickerTask | timertask/timertask.go:270-289 | Every key of the batch is unscheduled and handed to the pool, in order; contents stay. A failed range query does nothing. |
| TimerTask.TickerTaskSelection | timertask/timertask.go:270-289 | A check hands over at most BatchLimit keys, only due ones, and leaves every other key scheduled. When everything due fits, nothing due is left. |
| TimerTask.HandleTask | timertask/timertask.go:291-305 | With no stored content nothing runs. Otherwise the content is deleted. Content without ':' is the indexing panic. Content with one runs the handler with the first chunk as player and the second as task, so "a:b:c" runs ("a", "b"). |
| TimerTask.ColonSplits | timertask/timertask.go:301-303 | Splitting on ':' gives at least two chunks exactly when the content has a ':'. |
| TimerTask.AddThenRun | timertask/timertask.go:92-305 | handleTask inverts Add: a task added for a player, neither containing ':', runs the handler with that player and task and clears the content. |
| TimerTask.AddMsg | timertask/timertask.go:92-95 | Add casts the key, the run time and the joined content. |
| TimerTask.Handle | timertask/timertask.go:159-176 | Finish hands the key to the pool. A tick hands over the due batch. StopTicker stops the ticker. Get and unknown messages do nothing. Only Finish and the tick hand anything over. |
| TimerTask.HandleCall | timertask/timertask.go:144-150 | Get answers the score as get does. Anything else answers nil and the handling error. |
| TimerTask.Terminate | timertask/timertask.go:178-181 | Terminate stops the ticker, leaves Redis alone and succeeds. |
| Excel.Configure | excel/excelToGo.go:63-75 | Only the first option counts. Its non-empty separators replace the current ones, and plurality can only be switched off. |
| Excel.GlobalSheetsAreValid | excel/excelToGo.go:132-148 | Every sheet name isGlobal accepts is also accepted by IsSheetValid. |
| Excel.ParseBaseType | excel/excelToGo.go:299-316 | Exactly the base type names map to a Go type, one of int32, int64, float32, float64, string or bool; anything else maps to "". |
| Excel.ListElem | excel/excelToGo.go:244-250 | A list's element type is a strictly shorter prefix: the text before the first "[]". |
| Excel.ObjectName | excel/excelToGo.go:260-276 | A named object's name is the text right before its first '{'. |
| Excel.FieldDefines | excel/excelToGo.go:286-297 | An object's fields are read in order, one (type, name) per part, and the whole fails exactly when one part fails. |
| Excel.AnonymousObjectDefines | excel/excelToGo.go:286-297 | Names and types come in equal numbers, and every field type is shorter than its object type. |
| Excel.AnonymousObjectDefinesRoundTrip | excel/excelToGo.go:286-297 | Reading "{type name:type name:...}" gives back exactly the names and types written. |
| Excel.TypeToDefine | excel/excelToGo.go:231-242 | A base type is its Go type. A name that is no base type, list or object panics. The collected structs only grow, by sub-structs. |
| Excel.ParseList | excel/excelToGo.go:244-250 | A list is "[]" followed by its element's definition, and fails exactly when the element does. |
| Excel.ParseNamedObject | excel/excelToGo.go:260-276 | "Name{...}" is the pointer type "*"+ToCamel(Name). One sub-struct named Name is appended after any it contains. |
| Excel.ParseAnonymousObject | excel/excelToGo.go:278-284 | "{...}" gives a struct body with matching field names and types; anything else gives "". |
| Excel.GenStruct | excel/excelToGo.go:219-229 | The struct text is "struct {", one tagged line per field with the definition typeToDefine gives that field (seeing the structs the earlier fields collected), and "}". The first field whose type does not define fails it, and only sub-structs are ever added. |
| Excel.GenFieldsLines | excel/excelToGo.go:219-229 | genStruct's loop writes exactly the lines of the definitions threaded field by field, and fails exactly when one of them does. |
| Excel.GenFieldsOfBase | excel/excelToGo.go:219-229 | Base-type fields give one line each with their Go type and collect no struct. |
| Excel.GenStructOfBase | excel/excelToGo.go:219-229 | A struct of base-type fields is "struct {", one line per field, then "}". |
| Excel.ListOfBase | excel/excelToGo.go:231-250 | A list of a base type defines as a slice of its Go type. |
| Excel.ParseBaseValue | excel/excelToGo.go:435-470 | A bool is true exactly for the trimmed words 1, true, yes and on. A string loses one trailing ".0" and is quoted. An empty number is "0". Any other type panics. |
| Excel.KeptFields | excel/excelToGo.go:382-402 | parseRecord writes exactly the fields the filter keeps, in field order. |
| Excel.JsonValue | excel/excelToGo.go:410-433 | Base types go through parseBaseValue. Objects and lists are split on their separators. Any other type panics. |
| Excel.ListValues | excel/excelToGo.go:423-430 | A list that succeeds has one value per element, in order, each the element's own encoding. |
| Excel.ListValuesErr | excel/excelToGo.go:423-430 | A list fails exactly when at least one of its elements fails. |
| Excel.ParseRecord | excel/excelToGo.go:382-402 | A record is wrapped in braces. |
| Excel.ParseRecordItems | excel/excelToGo.go:382-402 | A record is its written fields' key/value items, one per written field in field order, joined by ",\n" inside braces. |
| Excel.RecordItemsExact | excel/excelToGo.go:382-402 | A record holds exactly one item per written field, in field order. |
| Excel.HashIsBlankFirstValue | excel/excelToGo.go:387-389 | A "#" first cell comments out the first field, as an empty cell would. |
| Excel.BoolListValues | excel/excelToGo.go:423-430 | A bool list cell encodes each element as true exactly for the true words, and never fails. |
| Excel.NormalColumns | excel/excelToGo.go:183-213 | Exactly the columns with a name, a type and the sign are exported, in order. |
| Excel.GlobalRows | excel/excelToGo.go:150-181 | Exactly the rows after the header that carry the sign are exported, in order. |
| Excel.LastPart | excel/excelToGo.go:483-491 | The struct name comes from the text after the last '|'. |
| Excel.GetStructName | excel/excelToGo.go:483-491 | The name is ToCamel of the last '|' part, plus "s" unless plurality is off. |
| Excel.ParseNormalSheet | excel/excelToGo.go:183-213 | The struct holds the exported columns with trimmed names and types, or nothing when none is exported. A sheet without a type row panics. |
| Excel.ParseGlobalSheet | excel/excelToGo.go:150-181 | One field per exported row, with the name from column 0 and the type from column 2, or nothing when no row is exported. |
| Excel.ParseSheetToStruct | excel/excelToGo.go:137-143 | A sheet's struct is global exactly when its name says so, and is never a sub-struct. |
| Excel.ParseGlobalJson | excel/excelToGo.go:326-344 | A sheet without rows, or with a row that stops before the sign column, panics. Otherwise the result is empty exactly when no row is exported, and else it is parseRecord of the exported rows' untrimmed names (column 0), types (column 2) and values (column 1), in row order. |
| Excel.JsonColumns | excel/excelToGo.go:346-380 | A data row exports exactly the cells with a name, a type, a value and the sign, in order. |
| Excel.RowRecord | excel/excelToGo.go:346-380 | A row longer than the sign row panics, and a row with no exported cell has no record. A row with exported cells has the record parseRecord makes of them: trimmed names and types from the name and type rows, untrimmed values from the row. |
| Excel.NormalRecords | excel/excelToGo.go:346-380 | Records come at most one per data row, and the sheet fails exactly when one row does. |
| Excel.NormalRecordsExact | excel/excelToGo.go:346-380 | The k-th record is the record of the k-th data row that has one. |
| Excel.ParseNormalJson | excel/excelToGo.go:346-380 | A sheet without its header rows panics, and otherwise it fails exactly when a data row does. The result is "" exactly when no data row has a record, and else the JSON array of the records of the data rows that have one, in row order. |
| Excel.HeaderOnlySheetHasNoJson | excel/excelToGo.go:346-380 | A sheet with only its header rows has no values. |
| Excel.ParseToJson | excel/excelToGo.go:318-324 | Global sheets are read by parseGlobalJson and the others by parseNormalJson. |
| Excel.ExportSheets | excel/excelToGo.go:92-130 | Exported structs only extend what was there. |
| Excel.Export | excel/excelToGo.go:63-91 | The options adjust the shared settings, and the sign is the caller's. |
| Excel.InvalidSheetsExportNothing | excel/excelToGo.go:92-135 | A workbook with no matching sheet exports nothing and cannot panic. |
| Excel.ExportedTopLevelFromValidSheets | excel/excelToGo.go:92-148 | Every top-level struct exported comes from a matching sheet and carries that sheet's global flag. |
| PbMsg.Span | pbmsg/tool.go:47-48 | A run of one character class is maximal: every character in it matches and the next one does not. |
| PbMsg.MatchLen | pbmsg/tool.go:47-48 | A match of `^message\s+Ident\s+{$` has a positive length within the text. |
| PbMsg.MatchShape | pbmsg/tool.go:47-48 | A match is the keyword, whitespace, a name, whitespace, then '{' at a line end. |
| PbMsg.FindAll | pbmsg/tool.go:46-56 | Every piece found is itself a complete match. |
| PbMsg.FindAllSearches | pbmsg/tool.go:46-56 | The scan is the leftmost, non-overlapping line-start search for the line pattern. |
| PbMsg.FindAllSound | pbmsg/tool.go:46-56 | Each piece found is a match of the pattern starting at a line start, at the start position recorded for it, and the pieces come in increasing, non-overlapping order. |
| PbMsg.FindAllComplete | pbmsg/tool.go:46-56 | Every line start where the pattern matches and that no piece found covers is the start of a piece found. |
| PbMsg.FirstNonEmpty | pbmsg/tool.go:58-67 | The result is the first non-empty piece, and there is none exactly when all pieces are empty. |
| PbMsg.ParseMessage | pbmsg/tool.go:58-67 | As written: the first non-empty space-separated piece after the keyword, with a panic when there is none. |
| PbMsg.ParseMessageFixed | pbmsg/tool.go:58-67 | Corrected: every regex match yields a non-empty identifier name. |
| PbMsg.DeclRoundTrip | pbmsg/tool.go:46-67 | The corrected reader gives back the name of any well-formed declaration, whatever whitespace it uses. |
| PbMsg.DeclsFound | pbmsg/tool.go:46-56 | Scanning declarations joined by newlines finds each of them, in order. |
| PbMsg.ParseMessages | pbmsg/tool.go:46-67 | As written: one name per match, in order, each read by parseMessage as written. |
| PbMsg.ParseEachErr | pbmsg/tool.go:51-55 | parseMessages panics exactly when a match has no second word, and the panic comes from the first such match. |
| PbMsg.ParseMessagesFixed | pbmsg/tool.go:46-67 | Corrected: one name per match, in order, each the identifier the pattern matched, and no panic. |
| PbMsg.DeclsScanned | pbmsg/tool.go:46-67 | As written: declarations with plain spaces around the name, on consecutive lines, are read back as their names in source order. |
| PbMsg.DeclsScannedFixed | pbmsg/tool.go:46-67 | Corrected: declarations with any whitespace around the name are read back as their names in source order. |
| PbMsg.SpacedDeclParses | pbmsg/tool.go:58-67 | With plain spaces, the as-written reader returns the declared name. |
| PbMsg.TabBeforeNameReadsBrace | pbmsg/tool.go:46-67 | For every identifier name, a line with a tab before the name and a space before the brace (such as "message\tFoo {") matches the line pattern, but parseMessage as written reads "{" as the message name, while the corrected reader gives the name. |
| PbMsg.TabsOnlyPanics | pbmsg/tool.go:46-67 | For every identifier name, a line with tabs on both sides of the name (such as "message\tFoo\t{") matches the line pattern, but parseMessage as written finds no second word and panics, while the corrected reader gives the name. |
| PbMsg.GenPbMsg | pbmsg/tool.go:41-44 | The line is "pbmsg.Register(func() proto.Message { return new(", then the message, then ") })" and a newline. |
| PbMsg.GenRegister | pbmsg/tool.go:27-39 | The file starts with the package header and import block, holds the init body, and ends in "}". |
| PbMsg.RegisterLinesRoundTrip | pbmsg/tool.go:27-44 | The init body splits into one line per message, in order, and each line names its message. |
| PbMsg.InitBodyLines | pbmsg/tool.go:27-39 | The init body is the register lines joined by newlines. |
| PbMsg.Generate | pbmsg/tool.go:11-25 | Generation succeeds exactly when parseMessages succeeds on every file. |
| PbMsg.AllMessages | pbmsg/tool.go:11-25 | The messages of all files fail exactly when some file fails. |
| PbMsg.GenerateRegistersDeclared | pbmsg/tool.go:11-67 | As written: files of declarations with plain spaces around their names register exactly the declared messages, file by file, in order. |
| PbMsg.GenerateFixedRegistersDeclared | pbmsg/tool.go:11-67 | Corrected: the same for declarations with any whitespace around their names. |
| PbMsg.TabbedFilePanics | pbmsg/tool.go:11-67 | As written, a file holding one declaration with tabs on both sides of the name makes the whole generation panic; the corrected generator registers the name. |
| PbMsg.TabbedFileRegistersBrace | pbmsg/tool.go:11-67 | As written, a file holding "message\tName {" registers a message named "{". |
| TcpConn.ReadFull | gnet/tcp_conn.go:114-135 | A read succeeds exactly when enough bytes remain and takes them from the front. A stream ending first gives EOF when empty and ErrUnexpectedEOF otherwise. |
| TcpConn.DecodeEncode | gnet/tcp_conn.go:122 | Decoding the big-endian bytes of a 32-bit value gives the value back. |
| TcpConn.EncodeDecode | gnet/tcp_conn.go:122 | Encoding a decoded header gives back its four bytes. |
| TcpConn.Receive | gnet/tcp_conn.go:106-136 | A deadline that cannot be set, or that expires before the frame is in (a peer silent for ReadTimeout), is an error. A short header is EOF or ErrUnexpectedEOF. A length above 32767 is an error and the body is not read. Otherwise exactly that many body bytes come back, and a short body is an error. |
| TcpConn.SendData | gnet/tcp_conn.go:92-98 | A frame is the payload behind its length wrapped to 32 bits. |
| TcpConn.FrameRoundTrip | gnet/tcp_conn.go:92-136 | A frame sent with SendData is received as its payload, and the stream continues right after it. |
| TcpConn.OversizeFrameRefused | gnet/tcp_conn.go:123-127 | A payload longer than 32767 bytes is refused by the receiving side. |
| TcpConn.Run | gnet/tcp_conn.go:62-89 | The loop stops at the first receive error, handler error, or when messages are no longer accepted. OnClose gets that error, or nil in the last case. Every delivered frame was received while accepting. |
| TcpConn.ReceiveLoop | gnet/tcp_conn.go:71-88 | The loop as written ends with the deliveries and close error the recursive description gives. |
| TcpConn.FramesDelivered | gnet/tcp_conn.go:62-89 | While accepting and with nothing failing, every frame the peer sent is delivered in order, and the loop ends with EOF. |

## Left out

- Concurrency is not modelled.
  - Goroutines, `select` fairness, blocking sends and `time.After` are replaced by sequential steps with the scheduler's choices as parameters.
  - `sync.Map` and `sync.Pool` are modelled as plain state, and a pool never drops its objects.
- The ticker goroutines of persist.go, persister.go and timertask.go are not modelled; each tick is a message.
- The caller's polling loop in model/persist.go Stop is left out. It is a wait loop around RemainTasks.
- A panic recovered by `misc.RecoverPanic` is a "fault" outcome after which dispatch continues. The recovery helper itself is not part of this model.
- MongoDB and Redis are maps plus failure flags. The following are left out:
  - BSON, cursors and context timeouts;
  - model/loader.go's LoadAll and BatchLoad. Loading is `Load`, one record at a time;
  - results the source ignores, which are taken to succeed: the ZRem in tickerTask, the Del in handleTask, and the Expire in tickerPersist.
- Marshalling a record into a document is a parameter that may fail.
- Unseen library helpers are function parameters: `misc.ToCamel`, `strconv.Quote`, and the pretty-printer of Export.
- Excel floating-point handling is left out: ParseFloat, int truncation and `%f` formatting. A non-empty number cell is formatted by an opaque function or panics.
- Excel file handling is left out: xlsx file reading, the directory walk and the templates. Sheets are rows of strings, and a missing cell reads as "".
- Excel.ExportSheets: when a sheet panics, Export recovers and returns the structs appended so far with a nil error. The model also ends the export there, but it drops any sub-structs the failing sheet had already appended. Its contract says only that the struct list grows; the lemmas about it carry the rest.
- Excel.ExportSheets: the xlsx library's Sheet.Cell, which the struct pass reads through (excel/excelToGo.go:159-161, 189-191, 496), is not part of this model. That library may append missing rows and cells to the sheet. If it does, a sheet whose struct was read can no longer make the JSON pass fail on a missing row or cell. The model keeps the rows as given, so there it reports MissingRow or ShortRow and ends the export.
- In gnet, the following are not part of this model:
  - the acceptors and websocket code;
  - gnet.go's manager, including the OnlinePlayers counter;
  - the `packet` writer. Its big-endian order is assumed from the reader's `binary.BigEndian`.
- The logger is not modelled.
- Broadcast: the channel server's Init never fails. `StartChannel` is not part of this model, so `CastCommand` assumes Init receives the channel name.
- TimerTask.Get: the source returns a float64 score. The model keeps integer scores.
- TimerTask: Exist, Stop and Finish's cast wrapper are left out. Finish is modelled as the FinishParams message.
- Pool: the handler's deferred recovery is the `Panicked` outcome. The result's error value is passed through unchanged.
- Pool: the pool holds its manager server directly and never registers a name for it (pool.go:58, 75-84). The model keeps that server in the runtime under the pool's own name, so Process and ProcessAsync require that entry, which every pool has.
- Persist.GenQuery: the upsert and delete filter is the loader's `UpdateFilter(ctx, uuid)` (model/model.go:33, model/persist.go:93, 99), which is not part of this model. The model filters on the uuid itself, so WriteBackSynchronises holds for loaders whose filter selects exactly the document of that uuid.
- pbmsg/pbmsg.go (the runtime registry and the `packet` codec) is not part of this model.
- pbmsg: file reading and writing in Generate are left out. The model maps proto texts to the generated text.
- TcpConn.Run: frames are received from a finite byte stream. A peer that goes silent is the deadline failure of that receive (gnet/tcp_conn.go:108, gnet/gnet.go:73). A peer that keeps sending forever is outside the model.
- TcpConn.Receive: its one Deadline error stands for both SetReadDeadline's error and the read's timeout error, since the loop hands either to OnClose alike.
- TcpConn.SendData: the connection's Write (gnet/tcp_conn.go:96-97) and the error it returns are left out. The model gives the bytes of the frame. A failed or partial write is not modelled.

## Findings

| source | as written | input that shows it | evidently intended | confidence | as-written member | corrected member |
|---|---|---|---|---|---|---|
| game_data/persister.go:139-158 | The upsert filters on `UpdatedAt < version`. When the stored document is as new or newer, no document matches, the upsert inserts a duplicate `_id`, and the write fails. The task stays queued, so ensurePersistered never returns. | stored `{_id: "p", UpdatedAt: 5}` with queued `Task("c", 5, true)`, from returning unchanged data | a write refused because the stored copy is already as new counts as done, and the task leaves the queue | medium, not executed; depends on MongoDB's duplicate-key error for a non-matching upsert | GameData.StaleTaskStaysQueued | GameData.TickFixedDrains |
| pbmsg/tool.go:11-25 | Generate reads every proto file with parseMessages, so one tab-separated declaration anywhere ends the whole generation in a panic. | a file holding only `message\tFoo\t{` | every declared message is registered | high, not executed | PbMsg.TabbedFilePanics | PbMsg.GenerateFixedRegistersDeclared |
| pbmsg/tool.go:46-67 | The line regex allows any whitespace (`\s+`) around the name, but parseMessage splits the match on single spaces only. | `message\tFoo {` is read as message `{`; `message\tFoo\t{` panics | the name is the identifier the regex matched | high, not executed | PbMsg.TabBeforeNameReadsBrace | PbMsg.DeclRoundTrip |

=== FILE: broadcast.dfy ===
/**
 * The publish/subscribe channels of broadcast/broadcast.go.
 *
 * Each channel is a server registered under "broadcast:" + channel whose
 * state is the subscriber map from player id to message handler. A handler
 * is an opaque value here; publishing returns the list of handler
 * invocations instead of running them. Go's map iteration order is a
 * parameter: any order listing every subscriber once.
 */
module Broadcast {
  import opened Wrappers
  import opened Seqs
  import Strs
  import GenServer

  const KeyPrefix: string := "broadcast:"

  datatype BroadcastMsg<X> = BroadcastMsg(channel: string, senderId: string, msg: X)

  datatype Broadcast<H> = Broadcast(channel: string, subscribers: map<string, H>)

  /** The cast payloads a channel understands, and anything else. */
  datatype Command<H, X> =
    | JoinParams(playerId: string, handler: H)
    | LeaveParams(playerId: string)
    | PublishParams(message: BroadcastMsg<X>)
    | OtherCommand

  /** One handler invocation `handler(subscriber, msg)`. */
  datatype Delivery<H, X> = Delivery(subscriber: string, handler: H, message: BroadcastMsg<X>)

  /** The registry name of a channel's server; distinct channels never share one. */
  function ChannelKey(channel: string): (k: string)
    ensures Strs.HasPrefix(k, KeyPrefix) && k[|KeyPrefix|..] == channel
  {
    KeyPrefix + channel
  }

  lemma ChannelKeyInjective(c1: string, c2: string)
    ensures ChannelKey(c1) == ChannelKey(c2) <==> c1 == c2
  {
    if ChannelKey(c1) == ChannelKey(c2) {
      assert c1 == ChannelKey(c1)[|KeyPrefix|..];
    }
  }

  /** Init: the channel name is the first start argument (a missing one panics); nobody has joined yet. */
  function Init<H>(args: seq<string>): (b: Broadcast<H>)
    requires |args| > 0
    ensures b.channel == args[0] && |b.subscribers| == 0
  {
    Broadcast(args[0], map[])
  }

  /** handleJoin: the player is subscribed with this handler, replacing an earlier one; nobody else changes. */
  function Join<H>(b: Broadcast<H>, playerId: string, handler: H): (r: Broadcast<H>)
    ensures r.channel == b.channel
    ensures r.subscribers.Keys == b.subscribers.Keys + {playerId}
    ensures r.subscribers[playerId] == handler
    ensures forall p | p in b.subscribers && p != playerId :: r.subscribers[p] == b.subscribers[p]
  {
    b.(subscribers := b.subscribers[playerId := handler])
  }

  /** handleLeave: the player is unsubscribed if present; nobody else changes. */
  function Leave<H>(b: Broadcast<H>, playerId: string): (r: Broadcast<H>)
    ensures r.channel == b.channel
    ensures r.subscribers.Keys == b.subscribers.Keys - {playerId}
    ensures forall p | p in r.subscribers :: r.subscribers[p] == b.subscribers[p]
    ensures playerId !in b.subscribers ==> r == b
  {
    if playerId in b.subscribers then b.(subscribers := b.subscribers - {playerId}) else b
  }

  /** The subscriber named by each delivery. */
  function Recipients<H, X>(ds: seq<Delivery<H, X>>): (ps: seq<string>)
    ensures |ps| == |ds| && forall k | 0 <= k < |ds| :: ps[k] == ds[k].subscriber
  {
    if |ds| == 0 then [] else [ds[0].subscriber] + Recipients(ds[1..])
  }

  /** handlePublish: every subscriber's handler is invoked, in the given map order, with the message. */
  function Publish<H, X>(b: Broadcast<H>, m: BroadcastMsg<X>, order: seq<string>): (ds: seq<Delivery<H, X>>)
    requires Enumerates(order, b.subscribers.Keys)
    ensures |ds| == |order|
    ensures forall k | 0 <= k < |ds| ::
      (ds[k].subscriber in b.subscribers && ds[k].handler == b.subscribers[ds[k].subscriber] && ds[k].message == m)
  {
    EnumeratesMembers(order, b.subscribers.Keys);
    seq(|order|, k requires 0 <= k < |order| => Delivery(order[k], b.subscribers[order[k]], m))
  }

  /** Publishing reaches each current subscriber exactly once and nobody else. */
  lemma PublishReachesEachOnce<H, X>(b: Broadcast<H>, m: BroadcastMsg<X>, order: seq<string>)
    requires Enumerates(order, b.subscribers.Keys)
    ensures Enumerates(Recipients(Publish(b, m, order)), b.subscribers.Keys)
  {
    var ds := Publish(b, m, order);
    assert Recipients(ds) == order;
  }

  /**
   * HandleCast: join, leave or publish; any other payload is ignored. Only
   * publishing invokes handlers.
   */
  function HandleCast<H, X>(b: Broadcast<H>, cmd: Command<H, X>, order: seq<string>)
    : (r: (Broadcast<H>, seq<Delivery<H, X>>))
    requires cmd.PublishParams? ==> Enumerates(order, b.subscribers.Keys)
    ensures cmd.JoinParams? ==> r == (Join(b, cmd.playerId, cmd.handler), [])
    ensures cmd.LeaveParams? ==> r == (Leave(b, cmd.playerId), [])
    ensures cmd.PublishParams? ==> r == (b, Publish(b, cmd.message, order)) && |r.1| == |b.subscribers|
    ensures cmd.OtherCommand? ==> r == (b, [])
  {
    match cmd
    case JoinParams(p, h) => (Join(b, p, h), [])
    case LeaveParams(p) => (Leave(b, p), [])
    case PublishParams(m) =>
      PublishCount(b, m, order);
      (b, Publish(b, m, order))
    case OtherCommand => (b, [])
  }

  lemma PublishCount<H, X>(b: Broadcast<H>, m: BroadcastMsg<X>, order: seq<string>)
    requires Enumerates(order, b.subscribers.Keys)
    ensures |Publish(b, m, order)| == |b.subscribers|
  {
    DistinctCardinality(order, b.subscribers.Keys);
  }

  /** HandleCall answers (nil, nil) and changes nothing. */
  function HandleCall<H>(b: Broadcast<H>): (r: (Broadcast<H>, Option<int>, Option<GenServer.Error>))
    ensures r.0 == b && r.1.None? && r.2.None?
  {
    (b, None, None)
  }

  /** Terminate drops every subscriber and always succeeds. */
  function Terminate<H>(b: Broadcast<H>, reason: string): (r: (Broadcast<H>, Option<GenServer.Error>))
    ensures r.0.channel == b.channel && r.0.subscribers == map[] && r.1.None?
  {
    (b.(subscribers := map[]), None)
  }

  /** Joining and then leaving restores a channel the player was not in. */
  lemma JoinThenLeave<H>(b: Broadcast<H>, playerId: string, handler: H)
    requires playerId !in b.subscribers
    ensures Leave(Join(b, playerId, handler), playerId) == b
  {
    assert b.subscribers[playerId := handler] - {playerId} == b.subscribers;
  }

  /** A publish after a join reaches the joined player with the handler it joined with. */
  lemma PublishAfterJoin<H, X>(b: Broadcast<H>, playerId: string, handler: H, m: BroadcastMsg<X>, order: seq<string>)
    requires Enumerates(order, Join(b, playerId, handler).subscribers.Keys)
    ensures Delivery(playerId, handler, m) in Publish(Join(b, playerId, handler), m, order)
  {
    var b' := Join(b, playerId, handler);
    EnumeratesMembers(order, b'.subscribers.Keys);
    var k :| 0 <= k < |order| && order[k] == playerId;
    assert Publish(b', m, order)[k] == Delivery(playerId, handler, m);
  }

  /** A publish after a leave does not reach the player who left. */
  lemma PublishAfterLeave<H, X>(b: Broadcast<H>, playerId: string, m: BroadcastMsg<X>, order: seq<string>)
    requires Enumerates(order, Leave(b, playerId).subscribers.Keys)
    ensures playerId !in Recipients(Publish(Leave(b, playerId), m, order))
  {
    var b' := Leave(b, playerId);
    var ds := Publish(b', m, order);
    forall k | 0 <= k < |ds|
      ensures Recipients(ds)[k] != playerId
    {
      assert ds[k].subscriber in b'.subscribers;
    }
  }

  /* ---------------- the client side ---------------- */

  /**
   * castChannel: a missing channel is started first (its Init outcome is
   * `init`); when that start fails the error is returned and nothing is
   * cast. Otherwise the cast's own result is returned.
   */
  function CastChannel<H, X, R>(
    rt: GenServer.Runtime<Broadcast<H>, Command<H, X>, R>, key: string, cmd: Command<H, X>,
    init: Result<Broadcast<H>, GenServer.Error>)
    : (r: (GenServer.Runtime<Broadcast<H>, Command<H, X>, R>, Option<GenServer.Error>))
    ensures key !in rt.registry && init.Err? ==> r == (rt, Some(init.error))
    ensures key in rt.registry ==> r == GenServer.CastTo(rt, key, cmd)
    ensures key !in rt.registry && init.Ok? ==>
      && r.1 == None
      && key in r.0.registry
      && r.0.registry[key].state == init.value
      && |r.0.registry[key].mailbox| == 1
      && r.0.registry[key].mailbox[0].category == GenServer.Cast
      && r.0.registry[key].mailbox[0].msg == Some(cmd)
  {
    if !GenServer.Exists(rt, key) then
      var (rt1, started) := GenServer.Start(rt, key, init);
      match started
      case Err(e) => (rt, Some(e))
      case Ok(_) => GenServer.CastTo(rt1, key, cmd)
    else GenServer.CastTo(rt, key, cmd)
  }

  /**
   * Join, Leave and Publish are castChannel on the channel's key with the
   * matching payload; a channel's Init cannot fail, so the only error left
   * is a full mailbox.
   */
  function CastCommand<H, X, R>(
    rt: GenServer.Runtime<Broadcast<H>, Command<H, X>, R>, channel: string, cmd: Command<H, X>)
    : (r: (GenServer.Runtime<Broadcast<H>, Command<H, X>, R>, Option<GenServer.Error>))
    ensures r.1.Some? <==>
      ChannelKey(channel) in rt.registry && |rt.registry[ChannelKey(channel)].mailbox| == GenServer.MailboxCapacity
    ensures r.1.None? ==>
      && ChannelKey(channel) in r.0.registry
      && var box := r.0.registry[ChannelKey(channel)].mailbox;
         |box| > 0 && box[|box| - 1].category == GenServer.Cast && box[|box| - 1].msg == Some(cmd)
  {
    CastChannel(rt, ChannelKey(channel), cmd, Ok(Init([channel])))
  }

  function JoinChannel<H, X, R>(
    rt: GenServer.Runtime<Broadcast<H>, Command<H, X>, R>, channel: string, playerId: string, handler: H)
    : (r: (GenServer.Runtime<Broadcast<H>, Command<H, X>, R>, Option<GenServer.Error>))
  {
    CastCommand(rt, channel, JoinParams(playerId, handler))
  }

  function LeaveChannel<H, X, R>(
    rt: GenServer.Runtime<Broadcast<H>, Command<H, X>, R>, channel: string, playerId: string)
    : (r: (GenServer.Runtime<Broadcast<H>, Command<H, X>, R>, Option<GenServer.Error>))
  {
    CastCommand(rt, channel, LeaveParams(playerId))
  }

  /** Publish wraps the payload with its channel and sender before casting it. */
  function PublishChannel<H, X, R>(
    rt: GenServer.Runtime<Broadcast<H>, Command<H, X>, R>, channel: string, playerId: string, msg: X)
    : (r: (GenServer.Runtime<Broadcast<H>, Command<H, X>, R>, Option<GenServer.Error>))
    ensures r.1.None? ==>
      && ChannelKey(channel) in r.0.registry
      && var box := r.0.registry[ChannelKey(channel)].mailbox;
         |box| > 0 && box[|box| - 1].msg == Some(PublishParams(BroadcastMsg(channel, playerId, msg)))
  {
    CastCommand(rt, channel, PublishParams(BroadcastMsg(channel, playerId, msg)))
  }
}

=== FILE: excel.dfy ===
/**
 * The spreadsheet-to-Go translator of excel/excelToGo.go: sheet selection,
 * field filtering, the recursive type-string parser that produces Go type
 * definitions (collecting the named sub-structs it meets), and the value
 * encoder that produces JSON records.
 *
 * A sheet is its name and its rows of cell strings (a missing cell reads as
 * ""). The regular expressions of the source are written out as predicates.
 * misc.ToCamel, strconv.Quote and the number formatting (which goes through
 * floating point) are parameters of the configuration. A panic is an `Err`.
 */
module Excel {
  import opened Wrappers
  import opened Seqs
  import opened Strs

  /** Row indices of a normal sheet: types, names, export signs; data starts at row 4. */
  const RowType: nat := 1
  const RowName: nat := 2
  const RowExportSign: nat := 3

  datatype Config = Config(
    arraySep: string,
    structValuesSep: string,
    plurality: bool,
    sign: string,
    camel: string -> string,
    quote: string -> string,
    formatNumber: (string, string) -> Option<string>,
    pretty: string -> string)

  /** The separators are never empty: options only replace them with non-empty ones. */
  predicate ValidConfig(c: Config) {
    |c.arraySep| > 0 && |c.structValuesSep| > 0
  }

  datatype ExportOptions = ExportOptions(arraySep: string, structValuesSep: string, disablePlurality: bool)

  /** Export's option handling: non-empty separators replace the current ones; plurality can only be switched off. */
  function Configure(c: Config, options: seq<ExportOptions>): (r: Config)
    requires ValidConfig(c)
    ensures ValidConfig(r)
    ensures |options| == 0 ==> r == c
    ensures r.sign == c.sign && r.camel == c.camel && r.quote == c.quote
    ensures r.plurality ==> c.plurality
    ensures |options| > 0 ==>
      && r.arraySep == (if options[0].arraySep != "" then options[0].arraySep else c.arraySep)
      && r.structValuesSep == (if options[0].structValuesSep != "" then options[0].structValuesSep else c.structValuesSep)
      && r.plurality == (c.plurality && !options[0].disablePlurality)
  {
    if |options| == 0 then c
    else
      var o := options[0];
      c.(arraySep := if o.arraySep != "" then o.arraySep else c.arraySep,
         structValuesSep := if o.structValuesSep != "" then o.structValuesSep else c.structValuesSep,
         plurality := if o.disablePlurality then false else c.plurality)
  }

  datatype ExcelError =
    | InvalidType(name: string)          // typeToDefine found no reading of the type
    | MissingFieldName(part: string)     // an object field without "type name"
    | InvalidFieldType(fieldType: string)
    | BadNumber(value: string)           // ParseFloat rejected the cell
    | MissingRow(row: nat)               // a row the sheet must have is absent
    | ShortRow                           // a row read past its last cell

  datatype SheetObject = SheetObject(
    name: string, fieldNames: seq<string>, fieldTypes: seq<string>,
    isSub: bool, isGlobal: bool, define: string, json: string)

  /* ---------------- the patterns ---------------- */

  predicate IsAlnum(ch: char) {
    ('a' <= ch <= 'z') || ('A' <= ch <= 'Z') || ('0' <= ch <= '9')
  }

  /** `.` matches anything but a newline. */
  predicate NoNewline(s: string) {
    forall k | 0 <= k < |s| :: s[k] != '\n'
  }

  /** listPattern `.+(\[])$`: ends in "[]" with a character other than a newline just before. */
  predicate IsList(name: string) {
    |name| >= 3 && name[|name| - 2..] == "[]" && name[|name| - 3] != '\n'
  }

  /** structPattern `^{.+}$`: one line inside braces, not empty. */
  predicate IsStruct(name: string) {
    |name| >= 3 && name[0] == '{' && name[|name| - 1] == '}' && NoNewline(name[1..|name| - 1])
  }

  /** namedPattern `[a-zA-Z0-9]+{.+}$`: a letter or digit, then a brace group running to the end. */
  predicate IsNamed(name: string) {
    exists j | 1 <= j < |name| - 2 ::
      IsAlnum(name[j - 1]) && name[j] == '{' && name[|name| - 1] == '}' && NoNewline(name[j + 1..|name| - 1])
  }

  /** IsSheetValid `.+\|[a-zA-Z0-9]+`: some '|' with a character before it and a letter or digit after. */
  predicate IsSheetValid(name: string) {
    exists i | 1 <= i < |name| - 1 :: name[i - 1] != '\n' && name[i] == '|' && IsAlnum(name[i + 1])
  }

  /** "|Global" starts at index i, with a character other than a newline before it. */
  predicate GlobalAt(name: string, i: int) {
    1 <= i <= |name| - 7 && name[i - 1] != '\n' && name[i..i + 7] == "|Global"
  }

  /** isGlobal `.+\|Global.*` */
  predicate IsGlobal(name: string) {
    exists i | 1 <= i <= |name| - 7 :: GlobalAt(name, i)
  }

  lemma GlobalSheetsAreValid(name: string)
    requires IsGlobal(name)
    ensures IsSheetValid(name)
  {
    var i :| 1 <= i <= |name| - 7 && GlobalAt(name, i);
    var word := name[i..i + 7];
    assert word == "|Global";
    assert name[i] == word[0] == '|' && name[i + 1] == word[1] == 'G';
    assert IsAlnum(name[i + 1]);
  }

  /* ---------------- base types ---------------- */

  const BaseTypeNames: set<string> := {"int", "int32", "int64", "double", "float32", "float64", "string", "bool"}

  /** parseBaseType: the Go type of a base type name, or "" for anything else. */
  function ParseBaseType(name: string): (r: string)
    ensures r != "" <==> name in BaseTypeNames
    ensures r in {"", "int32", "int64", "float32", "float64", "string", "bool"}
  {
    match name
    case "int" => "int32"
    case "int32" => "int32"
    case "int64" => "int64"
    case "double" => "float32"
    case "float32" => "float32"
    case "float64" => "float64"
    case "string" => "string"
    case "bool" => "bool"
    case _ => ""
  }

  /* ---------------- splitting type strings ---------------- */

  /** The element type of a list type: the text before the first "[]". */
  function ListElem(name: string): (e: string)
    requires IsList(name)
    ensures |e| < |name| - 1 && HasPrefix(name, e)
  {
    SplitFirst(name, "[]", |name| - 2);
    Split(name, "[]")[0]
  }

  /** The name of a named object: the text before the first '{'. */
  function ObjectName(name: string): (n: string)
    requires IsNamed(name)
    ensures HasPrefix(name, n) && |n| < |name| && name[|n|] == '{'
  {
    var j :| 1 <= j < |name| - 2 && IsAlnum(name[j - 1]) && name[j] == '{' && name[|name| - 1] == '}'
      && NoNewline(name[j + 1..|name| - 1]);
    assert OccursAt(name, "{", j);
    SplitFirst(name, "{", j);
    var n := Split(name, "{")[0];
    NameBeforeBrace(name, n);
    n
  }

  lemma NameBeforeBrace(name: string, n: string)
    requires n == Split(name, "{")[0] && |n| < |name|
    ensures name[|n|] == '{'
  {
    var i := IndexFrom(name, "{", 0);
    assert name[i..i + 1] == "{";
  }

  /** One field of an object type: "type name", split on its first space. */
  function FieldDefine(part: string): (r: Result<(string, string), ExcelError>)
    ensures r.Ok? ==> |r.value.0| <= |part|
  {
    var nameAndType := Split(TrimSpace(part), " ");
    SplitPieceShorter(TrimSpace(part), " ");
    TrimSpaceShorter(part);
    if |nameAndType| < 2 then Err(MissingFieldName(part)) else Ok((nameAndType[0], nameAndType[1]))
  }

  /** The fields of an object type, in order. */
  function FieldDefines(parts: seq<string>): (r: Result<(seq<string>, seq<string>), ExcelError>)
    ensures r.Ok? ==> |r.value.0| == |parts| && |r.value.1| == |parts|
    ensures r.Ok? ==> forall k | 0 <= k < |parts| ::
      FieldDefine(parts[k]).Ok? && r.value.0[k] == FieldDefine(parts[k]).value.1
      && r.value.1[k] == FieldDefine(parts[k]).value.0
    ensures r.Err? <==> exists k | 0 <= k < |parts| :: FieldDefine(parts[k]).Err?
  {
    if |parts| == 0 then Ok(([], []))
    else match FieldDefine(parts[0])
      case Err(e) => Err(e)
      case Ok((t, n)) =>
        match FieldDefines(parts[1..])
        case Err(e) => Err(e)
        case Ok((names, types)) => Ok(([n] + names, [t] + types))
  }

  /**
   * anonymousObjectDefines: strip the braces, split on ':', and read each
   * trimmed part as "type name". Every field type is shorter than the
   * object type it came from.
   */
  function AnonymousObjectDefines(fieldType: string): (r: Result<(seq<string>, seq<string>), ExcelError>)
    ensures r.Ok? ==> |r.value.0| == |r.value.1|
    ensures r.Ok? && |fieldType| > 0 && fieldType[0] == '{' ==>
      forall k | 0 <= k < |r.value.1| :: |r.value.1[k]| < |fieldType|
  {
    var define := Trim(fieldType, "{}");
    var parts := Split(define, ":");
    TrimShorter(fieldType, "{}");
    SplitPieceShorter(define, ":");
    FieldDefines(parts)
  }

  /** anonymousObjectDefines inverts writing the fields out as "{type name:type name:...}". */
  lemma AnonymousObjectDefinesRoundTrip(types: seq<string>, names: seq<string>)
    requires |types| == |names| >= 1
    requires forall k | 0 <= k < |types| :: PlainWord(types[k]) && PlainWord(names[k])
    ensures AnonymousObjectDefines("{" + Join(FieldTexts(types, names), ":") + "}") == Ok((names, types))
  {
    var parts := FieldTexts(types, names);
    var body := Join(parts, ":");
    forall k | 0 <= k < |parts|
      ensures ':' !in parts[k]
      ensures FieldDefine(parts[k]) == Ok((types[k], names[k]))
    {
      FieldTextDefine(types[k], names[k]);
    }
    BodyEdges(types, names);
    TrimEnclosed('{', body, '}', "{}");
    SplitJoin(parts, ':');
    FieldDefinesOf(parts, types, names);
  }

  /** A word with no separator, brace, space or newline in it. */
  predicate PlainWord(w: string) {
    |w| > 0 && forall k | 0 <= k < |w| :: w[k] !in {':', ' ', '{', '}', '\n'} && !IsSpace(w[k])
  }

  function FieldTexts(types: seq<string>, names: seq<string>): (r: seq<string>)
    requires |types| == |names|
    ensures |r| == |types| && forall k | 0 <= k < |r| :: r[k] == types[k] + " " + names[k]
  {
    seq(|types|, k requires 0 <= k < |types| => types[k] + " " + names[k])
  }

  lemma FieldTextDefine(t: string, n: string)
    requires PlainWord(t) && PlainWord(n)
    ensures ':' !in t + " " + n
    ensures FieldDefine(t + " " + n) == Ok((t, n))
  {
    var s := t + " " + n;
    TrimSpaceUnchanged(s);
    assert t + [' '] + n == s;
    SplitCons(t, ' ', n);
    SplitNoSep(n, ' ');
  }

  /** TrimSpace leaves a string alone when it neither starts nor ends with a space. */
  lemma TrimSpaceUnchanged(s: string)
    requires |s| > 0 && !IsSpace(s[0]) && !IsSpace(s[|s| - 1])
    ensures TrimSpace(s) == s
  {
  }

  lemma BodyEdges(types: seq<string>, names: seq<string>)
    requires |types| == |names| >= 1
    requires forall k | 0 <= k < |types| :: PlainWord(types[k]) && PlainWord(names[k])
    ensures var body := Join(FieldTexts(types, names), ":");
      |body| > 0 && body[0] !in "{}" && body[|body| - 1] !in "{}"
  {
    var parts := FieldTexts(types, names);
    JoinEdges(parts, ":");
    assert parts[0][0] == types[0][0];
    var last := parts[|parts| - 1];
    assert last[|last| - 1] == names[|names| - 1][|names[|names| - 1]| - 1];
  }

  /** A join of non-empty parts starts with the first part's first character and ends with the last's last. */
  lemma {:induction false} JoinEdges(parts: seq<string>, sep: string)
    requires |parts| >= 1 && forall k | 0 <= k < |parts| :: |parts[k]| > 0
    ensures var j := Join(parts, sep);
      |j| > 0 && j[0] == parts[0][0] && j[|j| - 1] == parts[|parts| - 1][|parts[|parts| - 1]| - 1]
    decreases |parts|
  {
    if |parts| > 1 {
      JoinEdges(parts[1..], sep);
    }
  }

  lemma {:induction false} FieldDefinesOf(parts: seq<string>, types: seq<string>, names: seq<string>)
    requires |parts| == |types| == |names|
    requires forall k | 0 <= k < |parts| :: FieldDefine(parts[k]) == Ok((types[k], names[k]))
    ensures FieldDefines(parts) == Ok((names, types))
    decreases |parts|
  {
    if |parts| > 0 {
      assert FieldDefine(parts[0]) == Ok((types[0], names[0]));
      forall k | 0 <= k < |parts| - 1
        ensures FieldDefine(parts[1..][k]) == Ok((types[1..][k], names[1..][k]))
      {
        assert parts[1..][k] == parts[k + 1];
      }
      FieldDefinesOf(parts[1..], types[1..], names[1..]);
      assert FieldDefines(parts) == Ok(([names[0]] + names[1..], [types[0]] + types[1..]));
      assert [names[0]] + names[1..] == names;
      assert [types[0]] + types[1..] == types;
    }
  }

  /* ---------------- type definitions ---------------- */

  /** `after` extends `before` with sub-structs only. */
  predicate SubsAdded(before: seq<SheetObject>, after: seq<SheetObject>) {
    before <= after && forall k | |before| <= k < |after| :: after[k].isSub
  }

  /** A Go type text and the structs collected so far. */
  datatype Defined = Defined(define: string, structs: seq<SheetObject>)

  /** An object's struct body, its fields, and the structs collected so far ("" when it is not an object). */
  datatype Anonymous = Anonymous(st: string, fieldNames: seq<string>, fieldTypes: seq<string>, structs: seq<SheetObject>)

  /** structWithName */
  function StructWithName(c: Config, name: string, content: string): string {
    "type " + c.camel(name) + " " + content
  }

  /** One line of a generated struct. */
  function FieldLine(c: Config, fieldName: string, define: string): string {
    "    " + c.camel(fieldName) + " " + define + " `json:\"" + fieldName + "\"`" + "\n"
  }

  /**
   * typeToDefine: a base type, else a list, else an object; anything else
   * panics. Nested named objects are appended to the collected structs,
   * which only ever grow.
   */
  function TypeToDefine(c: Config, name: string, structs: seq<SheetObject>): (r: Result<Defined, ExcelError>)
    ensures r.Ok? ==> SubsAdded(structs, r.value.structs) && r.value.define != ""
    ensures ParseBaseType(name) != "" ==> r == Ok(Defined(ParseBaseType(name), structs))
    ensures ParseBaseType(name) == "" && !IsList(name) && !IsNamed(name) && !IsStruct(name) ==>
      r == Err(InvalidType(name))
    decreases |name|, 4, 0
  {
    var base := ParseBaseType(name);
    if base != "" then Ok(Defined(base, structs))
    else if IsList(name) then ParseList(c, name, structs)
    else if IsNamed(name) then ParseNamedObject(c, name, structs)
    else match ParseAnonymousObject(c, name, structs)
      case Err(e) => Err(e)
      case Ok(a) => if a.st != "" then Ok(Defined(a.st, a.structs)) else Err(InvalidType(name))
  }

  /** parseList: "[]" and the element type's definition. */
  function ParseList(c: Config, name: string, structs: seq<SheetObject>): (r: Result<Defined, ExcelError>)
    requires IsList(name)
    ensures r.Ok? ==> SubsAdded(structs, r.value.structs) && HasPrefix(r.value.define, "[]")
    ensures r.Ok? <==> TypeToDefine(c, ListElem(name), structs).Ok?
    ensures r.Ok? ==> r.value.define == "[]" + TypeToDefine(c, ListElem(name), structs).value.define
    decreases |name|, 3, 0
  {
    match TypeToDefine(c, ListElem(name), structs)
    case Err(e) => Err(e)
    case Ok(d) => Ok(Defined("[]" + d.define, d.structs))
  }

  /**
   * parseNamedObject: "Name{...}" is the pointer type "*"+ToCamel(Name);
   * its struct (a sub-struct named Name) is appended after any it contains.
   */
  function ParseNamedObject(c: Config, name: string, structs: seq<SheetObject>): (r: Result<Defined, ExcelError>)
    requires IsNamed(name)
    ensures r.Ok? ==> r.value.define == "*" + c.camel(ObjectName(name))
    ensures r.Ok? ==> |r.value.structs| > |structs| && SubsAdded(structs, r.value.structs)
    ensures r.Ok? ==> var last := r.value.structs[|r.value.structs| - 1];
      last.name == ObjectName(name) && last.isSub && !last.isGlobal
    decreases |name|, 2, 0
  {
    var objName := ObjectName(name);
    match ParseAnonymousObject(c, name[|objName|..], structs)
    case Err(e) => Err(e)
    case Ok(a) =>
      var obj := SheetObject(objName, a.fieldNames, a.fieldTypes, true, false, StructWithName(c, objName, a.st), "");
      SubsAddedSnoc(structs, a.structs, obj);
      Ok(Defined("*" + c.camel(objName), a.structs + [obj]))
  }

  /** Appending a sub-struct keeps "only sub-structs were added". */
  lemma SubsAddedSnoc(before: seq<SheetObject>, after: seq<SheetObject>, obj: SheetObject)
    requires SubsAdded(before, after) && obj.isSub
    ensures SubsAdded(before, after + [obj]) && (after + [obj])[|after|] == obj
  {
  }

  /** parseAnonymousObject: a struct body for "{type name:...}", or "" for anything else. */
  function ParseAnonymousObject(c: Config, name: string, structs: seq<SheetObject>): (r: Result<Anonymous, ExcelError>)
    ensures r.Ok? ==> SubsAdded(structs, r.value.structs)
    ensures !IsStruct(name) ==> r == Ok(Anonymous("", [], [], structs))
    ensures r.Ok? && IsStruct(name) ==> HasPrefix(r.value.st, "struct {\n") && |r.value.fieldNames| == |r.value.fieldTypes|
    decreases |name|, 1, 0
  {
    if !IsStruct(name) then Ok(Anonymous("", [], [], structs))
    else match AnonymousObjectDefines(name)
      case Err(e) => Err(e)
      case Ok((names, types)) => AnonymousStruct(c, |name|, names, types, structs)
  }

  /** An object's struct body once its fields are read: one line per field between the braces. */
  function AnonymousStruct(c: Config, bound: nat, names: seq<string>, types: seq<string>, structs: seq<SheetObject>)
    : (r: Result<Anonymous, ExcelError>)
    requires |names| == |types| && forall k | 0 <= k < |types| :: |types[k]| < bound
    ensures r.Ok? ==> SubsAdded(structs, r.value.structs) && HasPrefix(r.value.st, "struct {\n")
    ensures r.Ok? ==> r.value.fieldNames == names && r.value.fieldTypes == types
    decreases bound, 0, |types| + 1
  {
    match GenFields(c, bound, names, types, structs)
    case Err(e) => Err(e)
    case Ok(d) => Ok(Anonymous("struct {\n" + d.define + "}", names, types, d.structs))
  }

  /** genStruct's loop: one line per field, with the field type's definition. */
  function GenFields(c: Config, bound: nat, names: seq<string>, types: seq<string>, structs: seq<SheetObject>)
    : (r: Result<Defined, ExcelError>)
    requires |names| == |types| && forall k | 0 <= k < |types| :: |types[k]| < bound
    ensures r.Ok? ==> SubsAdded(structs, r.value.structs)
    decreases bound, 0, |types|
  {
    if |types| == 0 then Ok(Defined("", structs))
    else match TypeToDefine(c, types[0], structs)
      case Err(e) => Err(e)
      case Ok(d) =>
        match GenFields(c, bound, names[1..], types[1..], d.structs)
        case Err(e) => Err(e)
        case Ok(rest) => Ok(Defined(FieldLine(c, names[0], d.define) + rest.define, rest.structs))
  }

  function MaxLen(xs: seq<string>): (m: nat)
    ensures forall k | 0 <= k < |xs| :: |xs[k]| <= m
  {
    if |xs| == 0 then 0 else var m := MaxLen(xs[1..]); if |xs[0]| > m then |xs[0]| else m
  }

  /**
   * genStruct for a sheet's fields: "struct {", one line per field with the
   * type definition typeToDefine gives it (each field's definition seeing the
   * structs collected by the fields before it), and "}"; the first field
   * whose type does not define fails the struct.
   */
  function GenStruct(c: Config, names: seq<string>, types: seq<string>, structs: seq<SheetObject>)
    : (r: Result<Defined, ExcelError>)
    requires |names| == |types|
    ensures r.Ok? ==> SubsAdded(structs, r.value.structs) && HasPrefix(r.value.define, "struct {\n")
    ensures var f := FieldDefs(c, types, structs);
      && (f.Err? ==> r == Err(f.error))
      && (f.Ok? ==> r == Ok(Defined("struct {\n" + Lines(c, names, f.value.0) + "}", f.value.1)))
  {
    GenFieldsLines(c, MaxLen(types) + 1, names, types, structs);
    match GenFields(c, MaxLen(types) + 1, names, types, structs)
    case Err(e) => Err(e)
    case Ok(d) => Ok(Defined("struct {\n" + d.define + "}", d.structs))
  }

  /**
   * The fields' type definitions in order, each read by typeToDefine with
   * the structs collected by the fields before it, and the structs collected
   * at the end; the first type that does not define fails.
   */
  function FieldDefs(c: Config, types: seq<string>, structs: seq<SheetObject>)
    : (r: Result<(seq<string>, seq<SheetObject>), ExcelError>)
    ensures r.Ok? ==> |r.value.0| == |types|
  {
    if |types| == 0 then Ok(([], structs))
    else match TypeToDefine(c, types[0], structs)
      case Err(e) => Err(e)
      case Ok(d) =>
        match FieldDefs(c, types[1..], d.structs)
        case Err(e) => Err(e)
        case Ok((defs, after)) => Ok(([d.define] + defs, after))
  }

  /** genStruct's loop writes the lines of the definitions FieldDefs threads through the fields. */
  lemma {:induction false} GenFieldsLines(
    c: Config, bound: nat, names: seq<string>, types: seq<string>, structs: seq<SheetObject>)
    requires |names| == |types| && forall k | 0 <= k < |types| :: |types[k]| < bound
    ensures var f := FieldDefs(c, types, structs);
      && (f.Err? ==> GenFields(c, bound, names, types, structs) == Err(f.error))
      && (f.Ok? ==> GenFields(c, bound, names, types, structs) == Ok(Defined(Lines(c, names, f.value.0), f.value.1)))
    decreases |types|
  {
    if |types| > 0 {
      match TypeToDefine(c, types[0], structs)
      case Err(e) =>
      case Ok(d) =>
        GenFieldsLines(c, bound, names[1..], types[1..], d.structs);
        match FieldDefs(c, types[1..], d.structs)
        case Err(e) =>
        case Ok((defs, after)) =>
          assert ([d.define] + defs)[1..] == defs;
    }
  }

  /** The lines of a struct whose field types define as `defs`. */
  function Lines(c: Config, names: seq<string>, defs: seq<string>): string
    requires |names| == |defs|
  {
    if |names| == 0 then "" else FieldLine(c, names[0], defs[0]) + Lines(c, names[1..], defs[1..])
  }

  function BaseDefs(types: seq<string>): (defs: seq<string>)
    ensures |defs| == |types| && forall k | 0 <= k < |types| :: defs[k] == ParseBaseType(types[k])
  {
    seq(|types|, k requires 0 <= k < |types| => ParseBaseType(types[k]))
  }

  /** Fields of base types define as their Go types, one line each, and collect no struct. */
  lemma {:induction false} GenFieldsOfBase(
    c: Config, bound: nat, names: seq<string>, types: seq<string>, structs: seq<SheetObject>)
    requires |names| == |types| && forall k | 0 <= k < |types| :: |types[k]| < bound && types[k] in BaseTypeNames
    ensures GenFields(c, bound, names, types, structs) == Ok(Defined(Lines(c, names, BaseDefs(types)), structs))
    decreases |types|
  {
    if |types| > 0 {
      GenFieldsOfBase(c, bound, names[1..], types[1..], structs);
      assert BaseDefs(types)[1..] == BaseDefs(types[1..]);
    }
  }

  /** A struct of base-type fields is "struct {", one tagged line per field, and "}". */
  lemma GenStructOfBase(c: Config, names: seq<string>, types: seq<string>, structs: seq<SheetObject>)
    requires |names| == |types| && forall k | 0 <= k < |types| :: types[k] in BaseTypeNames
    ensures GenStruct(c, names, types, structs) == Ok(Defined("struct {\n" + Lines(c, names, BaseDefs(types)) + "}", structs))
  {
    GenFieldsOfBase(c, MaxLen(types) + 1, names, types, structs);
  }

  /** A list of a base type defines as a slice of the base type's Go type. */
  lemma ListOfBase(c: Config, t: string, structs: seq<SheetObject>)
    requires t in BaseTypeNames
    ensures TypeToDefine(c, t + "[]", structs) == Ok(Defined("[]" + ParseBaseType(t), structs))
  {
    var name := t + "[]";
    ListElemOf(t);
    assert name !in BaseTypeNames by {
      forall u | u in BaseTypeNames
        ensures ']' !in u
      {
        BaseNamePlain(u);
      }
      assert name[|name| - 1] == ']';
    }
    assert TypeToDefine(c, t, structs) == Ok(Defined(ParseBaseType(t), structs));
    assert ParseList(c, name, structs) == Ok(Defined("[]" + ParseBaseType(t), structs));
  }

  lemma ListElemOf(t: string)
    requires t in BaseTypeNames
    ensures IsList(t + "[]") && ListElem(t + "[]") == t
  {
    assert '[' !in t && '\n' !in t && |t| > 0 by {
      BaseNamePlain(t);
    }
    var name := t + "[]";
    assert OccursAt(name, "[]", |t|);
    forall j | 0 <= j < |t|
      ensures !OccursAt(name, "[]", j)
    {
      assert name[j] == t[j];
      assert name[j..j + 2][0] == t[j];
    }
    assert name[|name| - 3] == t[|t| - 1];
  }

  /** A base type name is a plain word: no bracket, no line break. */
  lemma BaseNamePlain(t: string)
    requires t in BaseTypeNames
    ensures '[' !in t && ']' !in t && '\n' !in t && |t| > 0
  {
    if t == "int" {} else if t == "int32" {} else if t == "int64" {} else if t == "double" {}
    else if t == "float32" {} else if t == "float64" {} else if t == "string" {} else {}
  }

  /* ---------------- values ---------------- */

  const TrueWords: set<string> := {"1", "true", "yes", "on"}

  /**
   * parseBaseValue on the trimmed cell: a bool is true exactly for the
   * four true words; a string loses one trailing ".0" and is quoted; an
   * empty number is "0"; other numbers are formatted (a cell that is not a
   * number panics).
   */
  function ParseBaseValue(c: Config, fieldType: string, value: string): (r: Result<string, ExcelError>)
    ensures fieldType == "bool" ==> r == Ok(if TrimSpace(value) in TrueWords then "true" else "false")
    ensures fieldType == "string" ==> r == Ok(c.quote(TrimSuffix(TrimSpace(value), ".0")))
    ensures fieldType in BaseTypeNames - {"bool", "string"} && TrimSpace(value) == "" ==> r == Ok("0")
    ensures fieldType in BaseTypeNames - {"bool", "string"} && TrimSpace(value) != "" ==>
      (r.Ok? <==> c.formatNumber(fieldType, TrimSpace(value)).Some?)
    ensures fieldType !in BaseTypeNames ==> r == Err(InvalidFieldType(fieldType))
  {
    var v := TrimSpace(value);
    if fieldType == "string" then Ok(c.quote(TrimSuffix(v, ".0")))
    else if fieldType in {"int", "int32", "int64", "double", "float32", "float64"} then
      if v == "" then Ok("0")
      else match c.formatNumber(fieldType, v)
        case None => Err(BadNumber(v))
        case Some(s) => Ok(s)
    else if fieldType == "bool" then Ok(if v in TrueWords then "true" else "false")
    else Err(InvalidFieldType(fieldType))
  }

  /**
   * parseRecord's field filter: a field is written unless the values ran
   * out, it is the first field and its value is "#", or its name, type or
   * value is empty.
   */
  predicate Kept(names: seq<string>, types: seq<string>, values: seq<string>, i: nat) {
    && i < |names| && i < |types| && i < |values|
    && !(i == 0 && values[0] == "#")
    && names[i] != "" && types[i] != "" && values[i] != ""
  }

  function KeepField(names: seq<string>, types: seq<string>, values: seq<string>): nat -> bool {
    (i: nat) => Kept(names, types, values, i)
  }

  /** The fields parseRecord writes from index i on, in order. */
  function KeptFields(names: seq<string>, types: seq<string>, values: seq<string>, i: nat): (ks: seq<nat>)
    ensures forall k | 0 <= k < |ks| :: i <= ks[k] && Kept(names, types, values, ks[k])
    ensures forall j | i <= j && Kept(names, types, values, j) :: j in ks
    ensures forall a, b | 0 <= a < b < |ks| :: ks[a] < ks[b]
  {
    Indices(KeepField(names, types, values), i, Min(|names|, |values|))
  }

  /** parseJsonKV */
  function JsonKV(c: Config, bound: nat, fieldName: string, fieldType: string, value: string)
    : (r: Result<string, ExcelError>)
    requires ValidConfig(c) && |fieldType| < bound
    decreases bound, 0, 0
  {
    match JsonValue(c, fieldType, value)
    case Err(e) => Err(e)
    case Ok(v) => Ok("\"" + fieldName + "\": " + v)
  }

  /**
   * parseJsonValue: base types by parseBaseValue; an object (anonymous or
   * named) by splitting the cell on the struct separator into a record of
   * its fields; a list by splitting the bracket-trimmed cell on the array
   * separator; any other type panics.
   */
  function JsonValue(c: Config, fieldType: string, value: string): (r: Result<string, ExcelError>)
    requires ValidConfig(c)
    ensures ParseBaseType(fieldType) != "" ==> r == ParseBaseValue(c, fieldType, value)
    ensures ParseBaseType(fieldType) == "" && !IsStruct(fieldType) && !IsNamed(fieldType) && !IsList(fieldType) ==>
      r == Err(InvalidFieldType(fieldType))
    decreases |fieldType|, 4, 0
  {
    if ParseBaseType(fieldType) != "" then ParseBaseValue(c, fieldType, value)
    else if IsStruct(fieldType) then ObjectValue(c, fieldType, value)
    else if IsNamed(fieldType) then ObjectValue(c, fieldType[|ObjectName(fieldType)|..], value)
    else if IsList(fieldType) then
      match ListValues(c, |fieldType|, ListElem(fieldType), Split(Trim(value, "[]"), c.arraySep))
      case Err(e) => Err(e)
      case Ok(vs) => Ok("[" + Join(vs, ",") + "]")
    else Err(InvalidFieldType(fieldType))
  }

  /** An object value: the cell split on the struct separator, read as a record of the object's fields. */
  function ObjectValue(c: Config, objectType: string, value: string): (r: Result<string, ExcelError>)
    requires ValidConfig(c) && |objectType| > 0 && objectType[0] == '{'
    decreases |objectType|, 3, 0
  {
    match AnonymousObjectDefines(objectType)
    case Err(e) => Err(e)
    case Ok((names, types)) => ParseRecord(c, |objectType|, names, types, Split(value, c.structValuesSep))
  }

  /** The list elements' values, in order; the first failing element fails the list. */
  function ListValues(c: Config, bound: nat, elem: string, vs: seq<string>): (r: Result<seq<string>, ExcelError>)
    requires ValidConfig(c) && |elem| < bound
    ensures r.Ok? ==> |r.value| == |vs| && forall k | 0 <= k < |vs| :: JsonValue(c, elem, vs[k]) == Ok(r.value[k])
    decreases bound, 1, |vs|
  {
    if |vs| == 0 then Ok([])
    else
      match JsonValue(c, elem, vs[0])
      case Err(e) => Err(e)
      case Ok(v) =>
        match ListValues(c, bound, elem, vs[1..])
        case Err(e) => Err(e)
        case Ok(rest) =>
          assert forall k | 0 <= k < |vs| :: JsonValue(c, elem, vs[k]) == Ok(([v] + rest)[k]) by {
            forall k | 0 <= k < |vs| ensures JsonValue(c, elem, vs[k]) == Ok(([v] + rest)[k]) {
              if k > 0 { assert vs[k] == vs[1..][k - 1]; }
            }
          }
          Ok([v] + rest)
  }

  /** A list fails exactly when one of its elements fails. */
  lemma {:induction false} ListValuesErr(c: Config, bound: nat, elem: string, vs: seq<string>)
    requires ValidConfig(c) && |elem| < bound
    ensures ListValues(c, bound, elem, vs).Err? <==> exists k | 0 <= k < |vs| :: JsonValue(c, elem, vs[k]).Err?
    decreases |vs|
  {
    if |vs| > 0 {
      ListValuesErr(c, bound, elem, vs[1..]);
      ListValuesStep(c, bound, elem, vs);
      ElementErrShift(c, elem, vs);
    }
  }

  /** One step of the list loop: the list fails when its head or its tail does. */
  lemma ListValuesStep(c: Config, bound: nat, elem: string, vs: seq<string>)
    requires ValidConfig(c) && |elem| < bound && |vs| > 0
    ensures ListValues(c, bound, elem, vs).Err? <==>
      JsonValue(c, elem, vs[0]).Err? || ListValues(c, bound, elem, vs[1..]).Err?
  {
  }

  /** Some element fails exactly when the head or some element of the tail fails. */
  lemma ElementErrShift(c: Config, elem: string, vs: seq<string>)
    requires ValidConfig(c) && |vs| > 0
    ensures (exists k | 0 <= k < |vs| :: JsonValue(c, elem, vs[k]).Err?) <==>
      JsonValue(c, elem, vs[0]).Err? || exists k | 0 <= k < |vs| - 1 :: JsonValue(c, elem, vs[1..][k]).Err?
  {
    forall k | 0 <= k < |vs| - 1 ensures vs[1..][k] == vs[k + 1] { }
    if exists k | 0 <= k < |vs| :: JsonValue(c, elem, vs[k]).Err? {
      var k :| 0 <= k < |vs| && JsonValue(c, elem, vs[k]).Err?;
      if k > 0 { assert JsonValue(c, elem, vs[1..][k - 1]).Err?; }
    }
    if exists k | 0 <= k < |vs| - 1 :: JsonValue(c, elem, vs[1..][k]).Err? {
      var k :| 0 <= k < |vs| - 1 && JsonValue(c, elem, vs[1..][k]).Err?;
      assert JsonValue(c, elem, vs[k + 1]).Err?;
    }
  }

  /** parseRecord: the written fields' key/value items, joined by ",\n", in braces. */
  function ParseRecord(c: Config, bound: nat, names: seq<string>, types: seq<string>, values: seq<string>)
    : (r: Result<string, ExcelError>)
    requires ValidConfig(c) && |names| == |types| && forall k | 0 <= k < |types| :: |types[k]| < bound
    ensures r.Ok? ==> HasPrefix(r.value, "{") && HasSuffix(r.value, "}")
    decreases bound, 2, 0
  {
    match RecordItems(c, bound, names, types, values, 0)
    case Err(e) => Err(e)
    case Ok(items) => Ok("{" + Join(items, ",\n") + "}")
  }

  /** parseRecord's loop from field i on. */
  function RecordItems(c: Config, bound: nat, names: seq<string>, types: seq<string>, values: seq<string>, i: nat)
    : (r: Result<seq<string>, ExcelError>)
    requires ValidConfig(c) && |names| == |types| && forall k | 0 <= k < |types| :: |types[k]| < bound
    decreases bound, 1, |names| - i
  {
    if i >= |names| || i >= |values| then Ok([])
    else if !Kept(names, types, values, i) then RecordItems(c, bound, names, types, values, i + 1)
    else match JsonKV(c, bound, names[i], types[i], values[i])
      case Err(e) => Err(e)
      case Ok(item) =>
        match RecordItems(c, bound, names, types, values, i + 1)
        case Err(e) => Err(e)
        case Ok(rest) => Ok([item] + rest)
  }

  /** A record holds exactly one item per written field, in field order. */
  lemma {:induction false} RecordItemsExact(
    c: Config, bound: nat, names: seq<string>, types: seq<string>, values: seq<string>, i: nat)
    requires ValidConfig(c) && |names| == |types| && forall k | 0 <= k < |types| :: |types[k]| < bound
    requires RecordItems(c, bound, names, types, values, i).Ok?
    ensures var items := RecordItems(c, bound, names, types, values, i).value;
      var ks := KeptFields(names, types, values, i);
      && |items| == |ks|
      && forall k | 0 <= k < |ks| :: JsonKV(c, bound, names[ks[k]], types[ks[k]], values[ks[k]]) == Ok(items[k])
    decreases |names| - i
  {
    var keep := KeepField(names, types, values);
    var n := Min(|names|, |values|);
    if i >= |names| || i >= |values| {
      assert KeptFields(names, types, values, i) == Indices(keep, i, n) == [];
    } else {
      RecordItemsExact(c, bound, names, types, values, i + 1);
      var ks := KeptFields(names, types, values, i + 1);
      var rest := RecordItems(c, bound, names, types, values, i + 1).value;
      if Kept(names, types, values, i) {
        assert KeptFields(names, types, values, i) == [i] + ks;
        var item := JsonKV(c, bound, names[i], types[i], values[i]).value;
        assert RecordItems(c, bound, names, types, values, i).value == [item] + rest;
      } else {
        assert KeptFields(names, types, values, i) == ks;
        assert RecordItems(c, bound, names, types, values, i).value == rest;
      }
    }
  }

  /** A record is the key/value items of its written fields, one per field in field order, joined in braces. */
  lemma ParseRecordItems(c: Config, bound: nat, names: seq<string>, types: seq<string>, values: seq<string>)
    requires ValidConfig(c) && |names| == |types| && forall k | 0 <= k < |types| :: |types[k]| < bound
    requires ParseRecord(c, bound, names, types, values).Ok?
    ensures var ks := KeptFields(names, types, values, 0);
      exists items: seq<string> ::
        && |items| == |ks|
        && (forall k | 0 <= k < |ks| :: JsonKV(c, bound, names[ks[k]], types[ks[k]], values[ks[k]]) == Ok(items[k]))
        && ParseRecord(c, bound, names, types, values).value == "{" + Join(items, ",\n") + "}"
  {
    RecordItemsExact(c, bound, names, types, values, 0);
    var items := RecordItems(c, bound, names, types, values, 0).value;
    assert ParseRecord(c, bound, names, types, values).value == "{" + Join(items, ",\n") + "}";
  }

  /** The loop from field i on reads only the values from i on (for i past the first field). */
  lemma {:induction false} RecordItemsFrom(
    c: Config, bound: nat, names: seq<string>, types: seq<string>, values: seq<string>, values': seq<string>, i: nat)
    requires ValidConfig(c) && |names| == |types| && forall k | 0 <= k < |types| :: |types[k]| < bound
    requires 1 <= i <= |values| == |values'| && values[i..] == values'[i..]
    ensures RecordItems(c, bound, names, types, values, i) == RecordItems(c, bound, names, types, values', i)
    decreases |names| - i
  {
    if i < |names| && i < |values| {
      assert values[i] == values[i..][0] == values'[i];
      assert values[i + 1..] == values[i..][1..];
      assert values'[i + 1..] == values'[i..][1..];
      RecordItemsFrom(c, bound, names, types, values, values', i + 1);
    }
  }

  /** A leading "#" cell marks a commented first field: the record is the one an empty first cell gives. */
  lemma HashIsBlankFirstValue(c: Config, bound: nat, names: seq<string>, types: seq<string>, rest: seq<string>)
    requires ValidConfig(c) && |names| == |types| && forall k | 0 <= k < |types| :: |types[k]| < bound
    ensures ParseRecord(c, bound, names, types, ["#"] + rest) == ParseRecord(c, bound, names, types, [""] + rest)
  {
    var hashed := ["#"] + rest;
    var blank := [""] + rest;
    assert hashed[1..] == rest == blank[1..];
    RecordItemsFrom(c, bound, names, types, hashed, blank, 1);
  }

  /** The JSON of a bool list cell: each element is true exactly when it is one of the true words; it never fails. */
  function BoolWords(vs: seq<string>): (ws: seq<string>)
    ensures |ws| == |vs|
  {
    seq(|vs|, k requires 0 <= k < |vs| => if TrimSpace(vs[k]) in TrueWords then "true" else "false")
  }

  lemma BoolListValues(c: Config, value: string)
    requires ValidConfig(c)
    ensures JsonValue(c, "bool[]", value) == Ok("[" + Join(BoolWords(Split(Trim(value, "[]"), c.arraySep)), ",") + "]")
  {
    ListElemOf("bool");
    BoolListOf(c, "bool[]", value);
  }

  lemma BoolListOf(c: Config, name: string, value: string)
    requires ValidConfig(c) && IsList(name) && ListElem(name) == "bool" && |name| == 6 && name[5] == ']'
    requires ParseBaseType(name) == ""
    ensures JsonValue(c, name, value) == Ok("[" + Join(BoolWords(Split(Trim(value, "[]"), c.arraySep)), ",") + "]")
  {
    var vs := Split(Trim(value, "[]"), c.arraySep);
    NotAnObject(name);
    BoolElements(c, |name|, vs);
  }

  /** A type not ending in '}' is no object type. */
  lemma NotAnObject(name: string)
    requires |name| > 0 && name[|name| - 1] != '}'
    ensures !IsStruct(name) && !IsNamed(name)
  {
  }

  lemma BoolElements(c: Config, bound: nat, vs: seq<string>)
    requires ValidConfig(c) && bound > 4
    ensures ListValues(c, bound, "bool", vs) == Ok(BoolWords(vs))
  {
    var ws := BoolWords(vs);
    forall k | 0 <= k < |vs|
      ensures JsonValue(c, "bool", vs[k]) == Ok(ws[k])
    {
    }
    var r := ListValues(c, bound, "bool", vs);
    ListValuesErr(c, bound, "bool", vs);
    assert r.Ok?;
    assert r.value == ws;
  }

  /* ---------------- sheets ---------------- */

  /** A cell, "" when the row or column is missing. */
  function Cell(rows: seq<seq<string>>, row: nat, col: nat): string {
    if row < |rows| && col < |rows[row]| then rows[row][col] else ""
  }

  /** The trimmed cells of one row at the given columns. */
  function RowCells(rows: seq<seq<string>>, row: nat, cols: seq<nat>): (cells: seq<string>)
    ensures |cells| == |cols| && forall k | 0 <= k < |cols| :: cells[k] == TrimSpace(Cell(rows, row, cols[k]))
  {
    seq(|cols|, k requires 0 <= k < |cols| => TrimSpace(Cell(rows, row, cols[k])))
  }

  /** The trimmed cells of one column at the given rows. */
  function ColumnCells(rows: seq<seq<string>>, rs: seq<nat>, col: nat): (cells: seq<string>)
    ensures |cells| == |rs| && forall k | 0 <= k < |rs| :: cells[k] == TrimSpace(Cell(rows, rs[k], col))
  {
    seq(|rs|, k requires 0 <= k < |rs| => TrimSpace(Cell(rows, rs[k], col)))
  }

  /** The untrimmed cells of one row at the given columns. */
  function RawRowCells(rows: seq<seq<string>>, row: nat, cols: seq<nat>): (cells: seq<string>)
    ensures |cells| == |cols| && forall k | 0 <= k < |cols| :: cells[k] == Cell(rows, row, cols[k])
  {
    seq(|cols|, k requires 0 <= k < |cols| => Cell(rows, row, cols[k]))
  }

  /** The untrimmed cells of one column at the given rows. */
  function RawColumnCells(rows: seq<seq<string>>, rs: seq<nat>, col: nat): (cells: seq<string>)
    ensures |cells| == |rs| && forall k | 0 <= k < |rs| :: cells[k] == Cell(rows, rs[k], col)
  {
    seq(|rs|, k requires 0 <= k < |rs| => Cell(rows, rs[k], col))
  }

  /** The sign filter: with a sign set, a field is exported only if its sign cell contains it. */
  predicate SignAllows(c: Config, signCell: string) {
    c.sign == "" || Contains(signCell, c.sign)
  }

  /** parseNormalSheet's column filter: a name, a type, and the sign. */
  predicate NormalColumnKept(c: Config, rows: seq<seq<string>>, col: nat) {
    && TrimSpace(Cell(rows, RowName, col)) != ""
    && TrimSpace(Cell(rows, RowType, col)) != ""
    && SignAllows(c, Cell(rows, RowExportSign, col))
  }

  /** The exported columns of a normal sheet below `n`, in order. */
  function NormalColumns(c: Config, rows: seq<seq<string>>, n: nat): (cs: seq<nat>)
    ensures forall k | 0 <= k < |cs| :: cs[k] < n && NormalColumnKept(c, rows, cs[k])
    ensures forall j: nat | j < n && NormalColumnKept(c, rows, j) :: j in cs
    ensures forall a, b | 0 <= a < b < |cs| :: cs[a] < cs[b]
  {
    Indices((j: nat) => NormalColumnKept(c, rows, j), 0, n)
  }

  /** parseGlobalSheet's row filter: only the sign (an empty name or type is kept). */
  predicate GlobalRowKept(c: Config, rows: seq<seq<string>>, row: nat) {
    SignAllows(c, Cell(rows, row, 3))
  }

  /** The exported rows of a global sheet after the header row, in order. */
  function GlobalRows(c: Config, rows: seq<seq<string>>): (rs: seq<nat>)
    ensures forall k | 0 <= k < |rs| :: 1 <= rs[k] < |rows| && GlobalRowKept(c, rows, rs[k])
    ensures forall j | 1 <= j < |rows| && GlobalRowKept(c, rows, j) :: j in rs
    ensures forall a, b | 0 <= a < b < |rs| :: rs[a] < rs[b]
  {
    Indices((j: nat) => GlobalRowKept(c, rows, j), 1, |rows|)
  }

  /** The text after the last '|' of a sheet name. */
  function LastPart(sheetName: string): (p: string)
    ensures HasSuffix(sheetName, p) && '|' !in p
  {
    var parts := Split(sheetName, "|");
    SplitLastSuffix(sheetName, "|");
    SplitPiecesFree(sheetName, "|");
    NoBarInPiece(parts[|parts| - 1]);
    parts[|parts| - 1]
  }

  lemma NoBarInPiece(p: string)
    requires !Contains(p, "|")
    ensures '|' !in p
  {
    forall k | 0 <= k < |p|
      ensures p[k] != '|'
    {
      assert p[k..k + 1] == [p[k]];
      assert !OccursAt(p, "|", k);
    }
  }

  /** GetStructName: ToCamel of the last '|' part, with a plural "s" unless plurality is off. */
  function GetStructName(c: Config, sheetName: string): (n: string)
    ensures c.plurality ==> n == c.camel(LastPart(sheetName)) + "s"
    ensures !c.plurality ==> n == c.camel(LastPart(sheetName))
  {
    var structName := c.camel(LastPart(sheetName));
    if c.plurality then structName + "s" else structName
  }

  /**
   * parseNormalSheet: the struct of the exported columns (names and types
   * trimmed), or None when no column is exported. A sheet without a type
   * row panics.
   */
  function ParseNormalSheet(c: Config, sheetName: string, rows: seq<seq<string>>, structs: seq<SheetObject>)
    : (r: Result<(Option<SheetObject>, seq<SheetObject>), ExcelError>)
    ensures |rows| <= RowType ==> r == Err(MissingRow(RowType))
    ensures r.Ok? ==> SubsAdded(structs, r.value.1)
    ensures r.Ok? && r.value.0.Some? ==>
      var cols := NormalColumns(c, rows, |rows[RowType]|);
      && |cols| > 0
      && r.value.0.value.name == GetStructName(c, sheetName)
      && r.value.0.value.fieldNames == RowCells(rows, RowName, cols)
      && r.value.0.value.fieldTypes == RowCells(rows, RowType, cols)
      && !r.value.0.value.isGlobal && !r.value.0.value.isSub
    ensures r.Ok? && r.value.0.None? ==> NormalColumns(c, rows, |rows[RowType]|) == [] && r.value.1 == structs
  {
    if |rows| <= RowType then Err(MissingRow(RowType))
    else
      var cols := NormalColumns(c, rows, |rows[RowType]|);
      var names := RowCells(rows, RowName, cols);
      var types := RowCells(rows, RowType, cols);
      if |names| == 0 then Ok((None, structs))
      else
        var structName := GetStructName(c, sheetName);
        match GenStruct(c, names, types, structs)
        case Err(e) => Err(e)
        case Ok(d) =>
          var obj := SheetObject(structName, names, types, false, false, StructWithName(c, structName, d.define), "");
          Ok((Some(obj), d.structs))
  }

  /**
   * parseGlobalSheet: one field per exported row after the header (name in
   * column 0, type in column 2, both trimmed), or None when no row is
   * exported; the struct is named after the last '|' part, without plural.
   */
  function ParseGlobalSheet(c: Config, sheetName: string, rows: seq<seq<string>>, structs: seq<SheetObject>)
    : (r: Result<(Option<SheetObject>, seq<SheetObject>), ExcelError>)
    ensures r.Ok? ==> SubsAdded(structs, r.value.1)
    ensures r.Ok? && r.value.0.Some? ==>
      var rs := GlobalRows(c, rows);
      && |rs| > 0
      && r.value.0.value.name == c.camel(LastPart(sheetName))
      && r.value.0.value.fieldNames == ColumnCells(rows, rs, 0)
      && r.value.0.value.fieldTypes == ColumnCells(rows, rs, 2)
      && r.value.0.value.isGlobal && !r.value.0.value.isSub
    ensures r.Ok? && r.value.0.None? ==> GlobalRows(c, rows) == [] && r.value.1 == structs
  {
    var rs := GlobalRows(c, rows);
    var names := ColumnCells(rows, rs, 0);
    var types := ColumnCells(rows, rs, 2);
    if |names| == 0 then Ok((None, structs))
    else
      var structName := c.camel(LastPart(sheetName));
      match GenStruct(c, names, types, structs)
      case Err(e) => Err(e)
      case Ok(d) =>
        var obj := SheetObject(structName, names, types, false, true, StructWithName(c, structName, d.define), "");
        Ok((Some(obj), d.structs))
  }

  /** parseSheetToStruct: global sheets and normal sheets are read differently. */
  function ParseSheetToStruct(c: Config, sheetName: string, rows: seq<seq<string>>, structs: seq<SheetObject>)
    : (r: Result<(Option<SheetObject>, seq<SheetObject>), ExcelError>)
    ensures r.Ok? && r.value.0.Some? ==> r.value.0.value.isGlobal == IsGlobal(sheetName) && !r.value.0.value.isSub
    ensures r.Ok? ==> SubsAdded(structs, r.value.1)
  {
    if IsGlobal(sheetName) then ParseGlobalSheet(c, sheetName, rows, structs)
    else ParseNormalSheet(c, sheetName, rows, structs)
  }

  /* ---------------- sheet values ---------------- */

  /** Every row after the header of a global sheet reaches column 3. */
  predicate GlobalRowsComplete(rows: seq<seq<string>>) {
    forall j | 1 <= j < |rows| :: |rows[j]| > 3
  }

  /**
   * parseGlobalJson: one record of the exported rows (name, value, type in
   * columns 0, 1, 2, untrimmed), or "" when no row is exported. A sheet
   * without rows, or a row that stops before the sign column, panics.
   */
  function ParseGlobalJson(c: Config, rows: seq<seq<string>>): (r: Result<string, ExcelError>)
    requires ValidConfig(c)
    ensures |rows| == 0 ==> r == Err(MissingRow(0))
    ensures |rows| > 0 && !GlobalRowsComplete(rows) ==> r.Err?
    ensures |rows| > 0 && GlobalRowsComplete(rows) ==> (r == Ok("") <==> GlobalRows(c, rows) == [])
    ensures |rows| > 0 && GlobalRowsComplete(rows) && GlobalRows(c, rows) != [] ==>
      var rs := GlobalRows(c, rows);
      var types := RawColumnCells(rows, rs, 2);
      r == ParseRecord(c, MaxLen(types) + 1, RawColumnCells(rows, rs, 0), types, RawColumnCells(rows, rs, 1))
  {
    if |rows| == 0 then Err(MissingRow(0))
    else if !GlobalRowsComplete(rows) then Err(ShortRow)
    else
      var rs := GlobalRows(c, rows);
      if |rs| == 0 then Ok("")
      else
        var types := RawColumnCells(rows, rs, 2);
        ParseRecord(c, MaxLen(types) + 1, RawColumnCells(rows, rs, 0), types, RawColumnCells(rows, rs, 1))
  }

  /** parseNormalJson's column filter for data row `row`: a trimmed name and type, a value, and the sign. */
  predicate JsonColumnKept(c: Config, rows: seq<seq<string>>, row: nat, col: nat) {
    && RowExportSign < |rows| && row < |rows|
    && col < |rows[RowType]| && col < |rows[RowName]| && col < |rows[row]| && col < |rows[RowExportSign]|
    && TrimSpace(rows[RowName][col]) != "" && TrimSpace(rows[RowType][col]) != "" && rows[row][col] != ""
    && SignAllows(c, rows[RowExportSign][col])
  }

  /** How far parseNormalJson reads data row `row`: to the end of the shortest of it, the name row and the type row. */
  function RowWidth(rows: seq<seq<string>>, row: nat): nat
    requires RowType < |rows| && RowName < |rows| && row < |rows|
  {
    Min(Min(|rows[RowType]|, |rows[RowName]|), |rows[row]|)
  }

  /** The exported columns of data row `row`, in order. */
  function JsonColumns(c: Config, rows: seq<seq<string>>, row: nat): (cs: seq<nat>)
    requires RowExportSign < |rows| && row < |rows|
    ensures forall k | 0 <= k < |cs| :: cs[k] < RowWidth(rows, row) && JsonColumnKept(c, rows, row, cs[k])
    ensures forall j: nat | j < RowWidth(rows, row) && JsonColumnKept(c, rows, row, j) :: j in cs
    ensures forall a, b | 0 <= a < b < |cs| :: cs[a] < cs[b]
  {
    Indices((col: nat) => JsonColumnKept(c, rows, row, col), 0, RowWidth(rows, row))
  }

  /**
   * One data row of a normal sheet: a record of its exported cells, None
   * when it has none. Reading past the end of the sign row panics.
   */
  function RowRecord(c: Config, rows: seq<seq<string>>, row: nat): (r: Result<Option<string>, ExcelError>)
    requires ValidConfig(c) && RowExportSign < |rows| && row < |rows|
    ensures RowWidth(rows, row) > |rows[RowExportSign]| ==> r == Err(ShortRow)
    ensures r == Ok(None) <==>
      RowWidth(rows, row) <= |rows[RowExportSign]| && forall col: nat | col < RowWidth(rows, row) :: !JsonColumnKept(c, rows, row, col)
    ensures RowWidth(rows, row) <= |rows[RowExportSign]| && JsonColumns(c, rows, row) != [] ==>
      var cols := JsonColumns(c, rows, row);
      var record := CellsRecord(c, RowCells(rows, RowName, cols), RowCells(rows, RowType, cols), RawRowCells(rows, row, cols));
      && (record.Err? ==> r == Err(record.error))
      && (record.Ok? ==> r == Ok(Some(record.value)))
  {
    var n := RowWidth(rows, row);
    if n > |rows[RowExportSign]| then Err(ShortRow)
    else
      var cols := JsonColumns(c, rows, row);
      if |cols| == 0 then Ok(None)
      else
        match CellsRecord(c, RowCells(rows, RowName, cols), RowCells(rows, RowType, cols), RawRowCells(rows, row, cols))
        case Err(e) => Err(e)
        case Ok(record) => Ok(Some(record))
  }

  /** parseRecord of a row's cells, bounded by its longest type. */
  function CellsRecord(c: Config, names: seq<string>, types: seq<string>, values: seq<string>): (r: Result<string, ExcelError>)
    requires ValidConfig(c) && |names| == |types|
    ensures r == ParseRecord(c, MaxLen(types) + 1, names, types, values)
  {
    ParseRecord(c, MaxLen(types) + 1, names, types, values)
  }

  /** Data row `row` has a record. */
  predicate HasRecord(c: Config, rows: seq<seq<string>>, row: nat)
    requires ValidConfig(c) && RowExportSign < |rows|
  {
    row < |rows| && RowRecord(c, rows, row).Ok? && RowRecord(c, rows, row).value.Some?
  }

  function HasRecordAt(c: Config, rows: seq<seq<string>>): nat -> bool
    requires ValidConfig(c) && RowExportSign < |rows|
  {
    (row: nat) => HasRecord(c, rows, row)
  }

  /** The data rows from `row` on that have a record, in order. */
  function RecordRows(c: Config, rows: seq<seq<string>>, row: nat): (rs: seq<nat>)
    requires ValidConfig(c) && RowExportSign < |rows|
    ensures forall k | 0 <= k < |rs| :: row <= rs[k] < |rows| && HasRecord(c, rows, rs[k])
    ensures forall j | row <= j < |rows| && HasRecord(c, rows, j) :: j in rs
    ensures forall a, b | 0 <= a < b < |rs| :: rs[a] < rs[b]
  {
    Indices(HasRecordAt(c, rows), row, |rows|)
  }

  /** The records of the data rows from `row` on, skipping rows without one. */
  function NormalRecords(c: Config, rows: seq<seq<string>>, row: nat): (r: Result<seq<string>, ExcelError>)
    requires ValidConfig(c) && RowExportSign < |rows|
    ensures r.Ok? && row <= |rows| ==> |r.value| <= |rows| - row
    ensures r.Err? <==> exists j | row <= j < |rows| :: RowRecord(c, rows, j).Err?
    decreases |rows| - row
  {
    if row >= |rows| then Ok([])
    else match RowRecord(c, rows, row)
      case Err(e) => Err(e)
      case Ok(record) =>
        match NormalRecords(c, rows, row + 1)
        case Err(e) => Err(e)
        case Ok(rest) => Ok((if record.Some? then [record.value] else []) + rest)
  }

  /** The k-th record is the record of the k-th data row that has one. */
  lemma {:induction false} NormalRecordsExact(c: Config, rows: seq<seq<string>>, row: nat)
    requires ValidConfig(c) && RowExportSign < |rows| && NormalRecords(c, rows, row).Ok?
    ensures var records := NormalRecords(c, rows, row).value;
      var rs := RecordRows(c, rows, row);
      |records| == |rs| && forall k | 0 <= k < |rs| :: RowRecord(c, rows, rs[k]) == Ok(Some(records[k]))
    decreases |rows| - row
  {
    if row >= |rows| {
      assert RecordRows(c, rows, row) == [];
    } else {
      var record := RowRecord(c, rows, row).value;
      NormalRecordsExact(c, rows, row + 1);
      var rest := NormalRecords(c, rows, row + 1).value;
      var rs := RecordRows(c, rows, row + 1);
      var records := NormalRecords(c, rows, row).value;
      RecordRowsStep(c, rows, row);
      if record.Some? {
        assert records == [record.value] + rest;
        forall k | 0 <= k < |rs| + 1
          ensures RowRecord(c, rows, ([row] + rs)[k]) == Ok(Some(records[k]))
        {
          if k > 0 {
            assert ([row] + rs)[k] == rs[k - 1] && records[k] == rest[k - 1];
          }
        }
      } else {
        assert records == rest;
      }
    }
  }

  /** One step of RecordRows: data row `row` comes first exactly when it has a record. */
  lemma RecordRowsStep(c: Config, rows: seq<seq<string>>, row: nat)
    requires ValidConfig(c) && RowExportSign < |rows| && row < |rows| && RowRecord(c, rows, row).Ok?
    ensures RecordRows(c, rows, row) ==
      (if RowRecord(c, rows, row).value.Some? then [row] else []) + RecordRows(c, rows, row + 1)
  {
  }

  /**
   * parseNormalJson: a JSON array of the data rows' records, or "" when no
   * data row has one. A sheet without its three header rows panics.
   */
  function ParseNormalJson(c: Config, rows: seq<seq<string>>): (r: Result<string, ExcelError>)
    requires ValidConfig(c)
    ensures |rows| <= RowExportSign ==> r == Err(MissingRow(|rows|))
    ensures r.Ok? && r.value != "" ==> HasPrefix(r.value, "[") && HasSuffix(r.value, "]")
    ensures RowExportSign < |rows| ==> (r.Err? <==> exists j | RowExportSign < j < |rows| :: RowRecord(c, rows, j).Err?)
    ensures RowExportSign < |rows| && r.Ok? ==>
      var rs := RecordRows(c, rows, RowExportSign + 1);
      && (r.value == "" <==> rs == [])
      && (rs != [] ==> r.value == "[" + Join(RecordsOf(c, rows, rs), ",\n") + "]")
  {
    if |rows| <= RowExportSign then Err(MissingRow(|rows|))
    else match NormalRecords(c, rows, RowExportSign + 1)
      case Err(e) => Err(e)
      case Ok(records) =>
        NormalRecordsExact(c, rows, RowExportSign + 1);
        assert records == RecordsOf(c, rows, RecordRows(c, rows, RowExportSign + 1));
        Ok(if |records| == 0 then "" else "[" + Join(records, ",\n") + "]")
  }

  /** The records of the given data rows, each of which has one. */
  function RecordsOf(c: Config, rows: seq<seq<string>>, rs: seq<nat>): (records: seq<string>)
    requires ValidConfig(c) && RowExportSign < |rows| && forall k | 0 <= k < |rs| :: rs[k] < |rows| && HasRecord(c, rows, rs[k])
    ensures |records| == |rs| && forall k | 0 <= k < |rs| :: RowRecord(c, rows, rs[k]) == Ok(Some(records[k]))
  {
    seq(|rs|, k requires 0 <= k < |rs| && rs[k] < |rows| && HasRecord(c, rows, rs[k]) => RowRecord(c, rows, rs[k]).value.value)
  }

  /** A normal sheet with only its header rows has no values. */
  lemma HeaderOnlySheetHasNoJson(c: Config, rows: seq<seq<string>>)
    requires ValidConfig(c) && |rows| == RowExportSign + 1
    ensures ParseNormalJson(c, rows) == Ok("")
  {
  }

  /** parseToJson */
  function ParseToJson(c: Config, sheetName: string, rows: seq<seq<string>>): (r: Result<string, ExcelError>)
    requires ValidConfig(c)
    ensures IsGlobal(sheetName) ==> r == ParseGlobalJson(c, rows)
    ensures !IsGlobal(sheetName) ==> r == ParseNormalJson(c, rows)
  {
    if IsGlobal(sheetName) then ParseGlobalJson(c, rows) else ParseNormalJson(c, rows)
  }

  /* ---------------- export ---------------- */

  datatype Sheet = Sheet(name: string, rows: seq<seq<string>>)

  /** The structs exported, and whether a panic cut the export short. */
  datatype Exported = Exported(structs: seq<SheetObject>, panicked: bool)

  /**
   * Export's sheet loop: sheets whose names do not match are skipped; a
   * sheet's struct (after the sub-structs it names) is appended before its
   * values are read, and non-empty values are attached pretty-printed. A
   * panic ends the export with what was appended so far.
   */
  function ExportSheets(c: Config, sheets: seq<Sheet>, structs: seq<SheetObject>): (r: Exported)
    requires ValidConfig(c)
    ensures structs <= r.structs
    decreases |sheets|
  {
    if |sheets| == 0 then Exported(structs, false)
    else
      var sheet := sheets[0];
      if !IsSheetValid(sheet.name) then ExportSheets(c, sheets[1..], structs)
      else match ParseSheetToStruct(c, sheet.name, sheet.rows, structs)
        case Err(_) => Exported(structs, true)
        case Ok((None, structs')) => ExportSheets(c, sheets[1..], structs')
        case Ok((Some(obj), structs')) =>
          match ParseToJson(c, sheet.name, sheet.rows)
          case Err(_) => Exported(structs' + [obj], true)
          case Ok(json) =>
            var obj' := if json != "" then obj.(json := c.pretty(json)) else obj;
            ExportSheets(c, sheets[1..], structs' + [obj'])
  }

  /** Export: the options adjust the shared settings, the sign comes from the caller. */
  function Export(c: Config, sign: string, options: seq<ExportOptions>, sheets: seq<Sheet>): (r: (Config, Exported))
    requires ValidConfig(c)
    ensures ValidConfig(r.0) && r.0.sign == sign
    ensures r.1 == ExportSheets(r.0, sheets, [])
  {
    var c' := Configure(c, options).(sign := sign);
    (c', ExportSheets(c', sheets, []))
  }

  /** Only sheets whose names match contribute: a workbook without one exports nothing and cannot panic. */
  lemma {:induction false} InvalidSheetsExportNothing(c: Config, sheets: seq<Sheet>, structs: seq<SheetObject>)
    requires ValidConfig(c)
    requires forall k | 0 <= k < |sheets| :: !IsSheetValid(sheets[k].name)
    ensures ExportSheets(c, sheets, structs) == Exported(structs, false)
    decreases |sheets|
  {
    if |sheets| > 0 {
      InvalidSheetsExportNothing(c, sheets[1..], structs);
    }
  }

  /** The struct comes from a sheet in the workbook whose name matches, and is global exactly when that name says so. */
  ghost predicate FromValidSheet(obj: SheetObject, sheets: seq<Sheet>) {
    exists s | s in sheets :: IsSheetValid(s.name) && obj.isGlobal == IsGlobal(s.name)
  }

  /** Every top-level struct of `rs` from index `from` on comes from a matching sheet. */
  ghost predicate TopLevelTraced(rs: seq<SheetObject>, from: nat, sheets: seq<Sheet>) {
    forall k | from <= k < |rs| && !rs[k].isSub :: FromValidSheet(rs[k], sheets)
  }

  /** Top-level structs traced to the later sheets are traced to the workbook. */
  lemma FromValidSheetTail(rs: seq<SheetObject>, from: nat, sheets: seq<Sheet>)
    requires |sheets| > 0 && TopLevelTraced(rs, from, sheets[1..])
    ensures TopLevelTraced(rs, from, sheets)
  {
    forall k | from <= k < |rs| && !rs[k].isSub
      ensures FromValidSheet(rs[k], sheets)
    {
      var s :| s in sheets[1..] && IsSheetValid(s.name) && rs[k].isGlobal == IsGlobal(s.name);
      assert s in sheets;
    }
  }

  /** Every top-level struct an export appends comes from a matching sheet and carries its global flag. */
  lemma {:induction false} ExportedTopLevelFromValidSheets(c: Config, sheets: seq<Sheet>, structs: seq<SheetObject>)
    requires ValidConfig(c)
    ensures TopLevelTraced(ExportSheets(c, sheets, structs).structs, |structs|, sheets)
    decreases |sheets|, 2
  {
    if |sheets| > 0 {
      var sheet := sheets[0];
      var rest := sheets[1..];
      if !IsSheetValid(sheet.name) {
        ExportedTopLevelFromValidSheets(c, rest, structs);
        FromValidSheetTail(ExportSheets(c, rest, structs).structs, |structs|, sheets);
      } else {
        match ParseSheetToStruct(c, sheet.name, sheet.rows, structs)
        case Err(_) =>
        case Ok((None, structs')) =>
          var rs := ExportSheets(c, rest, structs').structs;
          ExportedTopLevelFromValidSheets(c, rest, structs');
          FromValidSheetTail(rs, |structs'|, sheets);
          SubsStayFirst(structs, structs', rs);
        case Ok((Some(obj), structs')) =>
          ExportedTopLevelFromSheetStruct(c, sheets, structs, obj, structs');
      }
    }
  }

  /** ExportedTopLevelFromValidSheets for a first sheet that yields a struct. */
  lemma {:induction false} ExportedTopLevelFromSheetStruct(
    c: Config, sheets: seq<Sheet>, structs: seq<SheetObject>, obj: SheetObject, structs': seq<SheetObject>)
    requires ValidConfig(c) && |sheets| > 0 && IsSheetValid(sheets[0].name)
    requires ParseSheetToStruct(c, sheets[0].name, sheets[0].rows, structs) == Ok((Some(obj), structs'))
    ensures TopLevelTraced(ExportSheets(c, sheets, structs).structs, |structs|, sheets)
    decreases |sheets|, 1
  {
    var sheet := sheets[0];
    assert obj.isGlobal == IsGlobal(sheet.name) && SubsAdded(structs, structs');
    match ParseToJson(c, sheet.name, sheet.rows)
    case Err(_) =>
      ExportPanicStep(c, sheets, structs, obj, structs');
      TracedStep(sheets, structs, structs', obj, structs' + [obj]);
    case Ok(json) =>
      var obj' := if json != "" then obj.(json := c.pretty(json)) else obj;
      ExportStructStep(c, sheets, structs, obj, structs', json);
      ExportedTopLevelAfterStruct(c, sheets, structs, structs', obj');
  }

  /** The export past a first sheet whose struct and values were read: it goes on with the struct appended. */
  lemma ExportStructStep(
    c: Config, sheets: seq<Sheet>, structs: seq<SheetObject>, obj: SheetObject, structs': seq<SheetObject>, json: string)
    requires ValidConfig(c) && |sheets| > 0 && IsSheetValid(sheets[0].name)
    requires ParseSheetToStruct(c, sheets[0].name, sheets[0].rows, structs) == Ok((Some(obj), structs'))
    requires ParseToJson(c, sheets[0].name, sheets[0].rows) == Ok(json)
    ensures var obj' := if json != "" then obj.(json := c.pretty(json)) else obj;
      ExportSheets(c, sheets, structs) == ExportSheets(c, sheets[1..], structs' + [obj'])
  {
  }

  /** A first sheet whose struct was read but whose values panic ends the export with that struct appended. */
  lemma ExportPanicStep(c: Config, sheets: seq<Sheet>, structs: seq<SheetObject>, obj: SheetObject, structs': seq<SheetObject>)
    requires ValidConfig(c) && |sheets| > 0 && IsSheetValid(sheets[0].name)
    requires ParseSheetToStruct(c, sheets[0].name, sheets[0].rows, structs) == Ok((Some(obj), structs'))
    requires ParseToJson(c, sheets[0].name, sheets[0].rows).Err?
    ensures ExportSheets(c, sheets, structs) == Exported(structs' + [obj], true)
  {
  }

  /** ExportedTopLevelFromValidSheets once the first sheet's struct is appended and the export goes on. */
  lemma {:induction false} ExportedTopLevelAfterStruct(
    c: Config, sheets: seq<Sheet>, structs: seq<SheetObject>, structs': seq<SheetObject>, obj: SheetObject)
    requires ValidConfig(c) && |sheets| > 0 && IsSheetValid(sheets[0].name) && obj.isGlobal == IsGlobal(sheets[0].name)
    requires SubsAdded(structs, structs')
    requires ExportSheets(c, sheets, structs) == ExportSheets(c, sheets[1..], structs' + [obj])
    ensures TopLevelTraced(ExportSheets(c, sheets, structs).structs, |structs|, sheets)
    decreases |sheets|, 0
  {
    var rs := ExportSheets(c, sheets[1..], structs' + [obj]).structs;
    ExportedTopLevelFromValidSheets(c, sheets[1..], structs' + [obj]);
    FromValidSheetTail(rs, |structs'| + 1, sheets);
    TracedStep(sheets, structs, structs', obj, rs);
  }

  /** A sheet's sub-structs, then its own struct, then structs traced to the later sheets. */
  lemma TracedStep(sheets: seq<Sheet>, structs: seq<SheetObject>, structs': seq<SheetObject>, obj: SheetObject,
                   rs: seq<SheetObject>)
    requires |sheets| > 0 && IsSheetValid(sheets[0].name) && obj.isGlobal == IsGlobal(sheets[0].name)
    requires SubsAdded(structs, structs') && structs' + [obj] <= rs
    requires TopLevelTraced(rs, |structs'| + 1, sheets)
    ensures TopLevelTraced(rs, |structs|, sheets)
  {
    assert rs[|structs'|] == (structs' + [obj])[|structs'|] == obj;
    assert sheets[0] in sheets;
    SubsStayFirst(structs, structs', rs);
  }

  /** Below the end of `mid`, an extension of `mid` holds only what `mid` holds. */
  lemma SubsStayFirst(before: seq<SheetObject>, mid: seq<SheetObject>, after: seq<SheetObject>)
    requires SubsAdded(before, mid) && mid <= after
    ensures forall k | |before| <= k < |mid| :: after[k].isSub
  {
  }
}

=== FILE: game_data.dfy ===
/**
 * The player-data cache hand-off and its write-behind persister
 * (game_data/game_data.go, game_data/persister.go).
 *
 * Redis is a map from key to content plus the set of keys carrying the
 * one-hour expiry; MongoDB is a map from player id to document. Whether a
 * single Redis or MongoDB request fails, and the outcome of the cast to the
 * persister server, are parameters. The persister's queue is a map from
 * player id to the latest task; Go's map order is a parameter listing each
 * queued player once.
 */
module GameData {
  import opened Wrappers
  import opened Seqs
  import Strs
  import GenServer

  /** CacheExpire, one hour, in seconds. */
  const CacheExpireSeconds: nat := 3600

  datatype Task = Task(content: string, version: int, needExpire: bool)

  /** A stored document: its content and the version that wrote it. */
  datatype Doc = Doc(content: string, updatedAt: int)

  datatype StoreError = RedisFailed | DbUnavailable | DuplicateKey | CastFailed(cause: GenServer.Error)

  datatype GameData = GameData(
    cache: map<string, string>,
    expiring: set<string>,
    db: map<string, Doc>,
    queue: map<string, Task>)

  /** cacheKey: "player_data" and the player id joined by ':'. */
  function CacheKey(playerId: string): (k: string)
    ensures k == "player_data:" + playerId
  {
    Strs.JoinCons("player_data", [playerId], ":");
    Strs.Join(["player_data", playerId], ":")
  }

  lemma CacheKeyInjective(p1: string, p2: string)
    ensures CacheKey(p1) == CacheKey(p2) <==> p1 == p2
  {
    if CacheKey(p1) == CacheKey(p2) {
      assert p1 == CacheKey(p1)[12..];
    }
  }

  /* ---------------- the persister's database write ---------------- */

  /**
   * persist: an upsert filtered on {_id: player, UpdatedAt < version}. A
   * matching document is overwritten; with no document at all one is
   * inserted; a document that is as new or newer matches nothing, so the
   * upsert's insert collides on _id and the write fails.
   */
  function WriteDoc(db: map<string, Doc>, playerId: string, t: Task, outage: bool)
    : (r: Result<map<string, Doc>, StoreError>)
    ensures r.Err? <==> outage || (playerId in db && db[playerId].updatedAt >= t.version)
    ensures r.Err? && !outage ==> r.error == DuplicateKey
    ensures r.Ok? ==>
      && r.value.Keys == db.Keys + {playerId}
      && r.value[playerId] == Doc(t.content, t.version)
      && (forall q | q in db && q != playerId :: r.value[q] == db[q])
    ensures r.Ok? ==> forall q | q in db :: r.value[q].updatedAt >= db[q].updatedAt
  {
    if outage then Err(DbUnavailable)
    else if playerId !in db || db[playerId].updatedAt < t.version then Ok(db[playerId := Doc(t.content, t.version)])
    else Err(DuplicateKey)
  }

  /** A queued task's write goes through: no outage and no newer stored version. */
  ghost predicate Lands(g: GameData, playerId: string, outages: set<string>) {
    && playerId in g.queue && playerId !in outages
    && (playerId !in g.db || g.db[playerId].updatedAt < g.queue[playerId].version)
  }

  /**
   * The expiry set after EXPIRE on a player's cache key. Redis sets an
   * expiry only on a key that exists: on an uncached player it does nothing.
   */
  function ExpireKey(g: GameData, playerId: string): (e: set<string>)
    ensures CacheKey(playerId) in e <==> CacheKey(playerId) in g.expiring || CacheKey(playerId) in g.cache
    ensures e - {CacheKey(playerId)} == g.expiring - {CacheKey(playerId)}
  {
    if CacheKey(playerId) in g.cache then g.expiring + {CacheKey(playerId)} else g.expiring
  }

  /** One iteration of tickerPersist's loop: on success the task leaves the queue and the expiry is set if asked. */
  function TickOne(g: GameData, playerId: string, outages: set<string>): (r: GameData)
    requires playerId in g.queue
    ensures r.cache == g.cache
    ensures r.queue == g.queue - {playerId} || r.queue == g.queue
  {
    var t := g.queue[playerId];
    match WriteDoc(g.db, playerId, t, playerId in outages)
    case Ok(db') =>
      GameData(g.cache, if t.needExpire then ExpireKey(g, playerId) else g.expiring, db', g.queue - {playerId})
    case Err(_) => g
  }

  /** tickerPersist as written: every queued player in map order, failures stay queued. */
  function Tick(g: GameData, order: seq<string>, outages: set<string>): (r: GameData)
    requires Distinct(order) && forall k | 0 <= k < |order| :: order[k] in g.queue
    ensures r.cache == g.cache
    decreases |order|
  {
    if |order| == 0 then g
    else
      DistinctTail(order);
      Tick(TickOne(g, order[0], outages), order[1..], outages)
  }

  /**
   * The order-free reference for a tick over `keys`: exactly the landing
   * tasks leave the queue and are written, and only they set an expiry.
   */
  ghost function TickAll(g: GameData, keys: set<string>, outages: set<string>): GameData {
    var landed := set p | p in keys && Lands(g, p, outages);
    GameData(
      g.cache,
      g.expiring + (set p | p in landed && g.queue[p].needExpire && CacheKey(p) in g.cache :: CacheKey(p)),
      map p | p in g.db.Keys + landed :: if p in landed then Doc(g.queue[p].content, g.queue[p].version) else g.db[p],
      map p | p in g.queue && p !in landed :: g.queue[p])
  }

  lemma TickAllNone(g: GameData, outages: set<string>)
    ensures TickAll(g, {}, outages) == g
  {
    var r := TickAll(g, {}, outages);
    assert r.db == g.db;
    assert r.queue == g.queue;
  }

  /** What one loop iteration does, in terms of whether the player's write lands. */
  lemma TickOneEffect(g: GameData, p: string, outages: set<string>)
    requires p in g.queue
    ensures Lands(g, p, outages) ==> TickOne(g, p, outages) == GameData(
      g.cache,
      if g.queue[p].needExpire then ExpireKey(g, p) else g.expiring,
      g.db[p := Doc(g.queue[p].content, g.queue[p].version)],
      g.queue - {p})
    ensures !Lands(g, p, outages) ==> TickOne(g, p, outages) == g
  {
  }

  /** One iteration leaves the other players' tasks, documents and landing unchanged. */
  lemma TickOneOthers(g: GameData, p: string, rest: set<string>, outages: set<string>)
    requires p in g.queue && p !in rest
    requires forall q | q in rest :: q in g.queue
    ensures var g1 := TickOne(g, p, outages);
      (set q | q in rest && Lands(g1, q, outages)) == (set q | q in rest && Lands(g, q, outages))
  {
    var g1 := TickOne(g, p, outages);
    TickOneEffect(g, p, outages);
    forall q | q in rest
      ensures Lands(g1, q, outages) <==> Lands(g, q, outages)
    {
      assert q != p;
    }
  }

  /** Processing one player and then the rest is the reference over all of them. */
  lemma TickAllStep(g: GameData, p: string, rest: set<string>, outages: set<string>)
    requires p in g.queue && p !in rest
    requires forall q | q in rest :: q in g.queue
    ensures TickAll(TickOne(g, p, outages), rest, outages) == TickAll(g, rest + {p}, outages)
  {
    var g1 := TickOne(g, p, outages);
    TickOneEffect(g, p, outages);
    TickOneOthers(g, p, rest, outages);
    var l := set q | q in rest && Lands(g, q, outages);
    var lp := set q | q in rest + {p} && Lands(g, q, outages);
    if Lands(g, p, outages) {
      assert lp == l + {p};
      TickAllStepLanded(g, p, rest, outages, l);
    } else {
      assert lp == l;
    }
  }

  lemma TickAllStepLanded(g: GameData, p: string, rest: set<string>, outages: set<string>, l: set<string>)
    requires p in g.queue && p !in rest && Lands(g, p, outages)
    requires forall q | q in rest :: q in g.queue
    requires l == set q | q in rest && Lands(g, q, outages)
    requires (set q | q in rest && Lands(TickOne(g, p, outages), q, outages)) == l
    requires (set q | q in rest + {p} && Lands(g, q, outages)) == l + {p}
    ensures TickAll(TickOne(g, p, outages), rest, outages) == TickAll(g, rest + {p}, outages)
  {
    var g1 := TickOne(g, p, outages);
    TickOneEffect(g, p, outages);
    var a := TickAll(g1, rest, outages);
    var b := TickAll(g, rest + {p}, outages);
    assert a.queue == b.queue by {
      LandedQueue(g, g1, p, l);
    }
    assert a.db == b.db by {
      LandedDb(g, g1, p, l);
    }
    assert a.expiring == b.expiring by {
      LandedExpiring(g, g1, p, l);
    }
  }

  /** The queue part of TickAllStepLanded. */
  lemma LandedQueue(g: GameData, g1: GameData, p: string, l: set<string>)
    requires p in g.queue && p !in l
    requires g1.queue == g.queue - {p}
    ensures (map q | q in g1.queue && q !in l :: g1.queue[q]) == (map q | q in g.queue && q !in l + {p} :: g.queue[q])
  {
  }

  /** The database part of TickAllStepLanded. */
  lemma LandedDb(g: GameData, g1: GameData, p: string, l: set<string>)
    requires p in g.queue && p !in l && forall q | q in l :: q in g.queue
    requires g1.queue == g.queue - {p}
    requires g1.db == g.db[p := Doc(g.queue[p].content, g.queue[p].version)]
    ensures (map q | q in g1.db.Keys + l :: if q in l then Doc(g1.queue[q].content, g1.queue[q].version) else g1.db[q])
         == (map q | q in g.db.Keys + (l + {p}) :: if q in l + {p} then Doc(g.queue[q].content, g.queue[q].version) else g.db[q])
  {
  }

  /** The expiry part of TickAllStepLanded. */
  lemma LandedExpiring(g: GameData, g1: GameData, p: string, l: set<string>)
    requires p in g.queue && p !in l && forall q | q in l :: q in g.queue
    requires g1.queue == g.queue - {p}
    requires g1.cache == g.cache
    requires g1.expiring == if g.queue[p].needExpire then ExpireKey(g, p) else g.expiring
    ensures g1.expiring + (set q | q in l && g1.queue[q].needExpire && CacheKey(q) in g1.cache :: CacheKey(q))
         == g.expiring + (set q | q in l + {p} && g.queue[q].needExpire && CacheKey(q) in g.cache :: CacheKey(q))
  {
    assert (set q | q in l + {p} && g.queue[q].needExpire && CacheKey(q) in g.cache :: CacheKey(q))
      == (set q | q in l && g1.queue[q].needExpire && CacheKey(q) in g1.cache :: CacheKey(q))
         + (if g.queue[p].needExpire && CacheKey(p) in g.cache then {CacheKey(p)} else {});
  }

  /** tickerPersist's result does not depend on map order: it is the reference over the whole queue. */
  lemma {:induction false} TickIsOrderFree(g: GameData, order: seq<string>, outages: set<string>)
    requires Distinct(order) && forall k | 0 <= k < |order| :: order[k] in g.queue
    ensures Tick(g, order, outages) == TickAll(g, (set x | x in order), outages)
    decreases |order|
  {
    if |order| == 0 {
      assert (set x | x in order) == {};
      TickAllNone(g, outages);
    } else {
      DistinctTail(order);
      var p := order[0];
      var rest := set x | x in order[1..];
      assert (set x | x in order) == rest + {p};
      TickIsOrderFree(TickOne(g, p, outages), order[1..], outages);
      TickAllStep(g, p, rest, outages);
    }
  }

  /**
   * After a tick over the whole queue, a player stays queued exactly when
   * its write did not land, and a landed player's document is its task.
   */
  lemma TickRemovesExactlyLanded(g: GameData, order: seq<string>, outages: set<string>, p: string)
    requires Enumerates(order, g.queue.Keys)
    ensures p in Tick(g, order, outages).queue <==> p in g.queue && !Lands(g, p, outages)
    ensures Lands(g, p, outages) ==>
      p in Tick(g, order, outages).db && Tick(g, order, outages).db[p] == Doc(g.queue[p].content, g.queue[p].version)
    ensures CacheKey(p) in Tick(g, order, outages).expiring <==>
      CacheKey(p) in g.expiring || (Lands(g, p, outages) && g.queue[p].needExpire && CacheKey(p) in g.cache)
  {
    EnumeratesMembers(order, g.queue.Keys);
    TickIsOrderFree(g, order, outages);
    var landed := set q | q in g.queue.Keys && Lands(g, q, outages);
    forall q | q in landed && g.queue[q].needExpire && CacheKey(q) in g.cache && CacheKey(q) == CacheKey(p)
      ensures q == p
    {
      CacheKeyInjective(q, p);
    }
  }

  /* ---------------- the finding: a stale task never leaves ---------------- */

  /**
   * A queued task whose version is not newer than the stored document never
   * lands: every tick keeps it queued and leaves the document alone, so the
   * remaining count never reaches 0.
   */
  lemma StaleTaskStaysQueued(g: GameData, order: seq<string>, outages: set<string>, p: string)
    requires Enumerates(order, g.queue.Keys)
    requires p in g.queue && p in g.db && g.db[p].updatedAt >= g.queue[p].version
    ensures var g' := Tick(g, order, outages);
      && p in g'.queue && g'.queue[p] == g.queue[p]
      && p in g'.db && g'.db[p] == g.db[p]
  {
    EnumeratesMembers(order, g.queue.Keys);
    TickIsOrderFree(g, order, outages);
  }

  /** Returning unchanged data (the same version twice) leaves a task that no tick ever clears. */
  lemma SameVersionReturnIsStuck()
    ensures var g := GameData(map[], {}, map["p" := Doc("c", 5)], map["p" := Task("c", 5, true)]);
      Tick(g, ["p"], {}) == g && |Tick(g, ["p"], {}).queue| == 1
  {
    var g := GameData(map[], {}, map["p" := Doc("c", 5)], map["p" := Task("c", 5, true)]);
    assert !WriteDoc(g.db, "p", g.queue["p"], false).Ok?;
    assert Tick(g, ["p"], {}) == Tick(g, [], {});
  }

  /**
   * The corrected tick: a write refused because the stored document is
   * already as new is done, not failed — the task leaves the queue like a
   * landed one. Only an outage keeps a task queued.
   */
  function TickOneFixed(g: GameData, playerId: string, outages: set<string>): (r: GameData)
    requires playerId in g.queue
    ensures r.cache == g.cache
    ensures r.queue == (if playerId in outages then g.queue else g.queue - {playerId})
    ensures playerId in outages ==> r == g
  {
    var t := g.queue[playerId];
    var expiring := if t.needExpire then ExpireKey(g, playerId) else g.expiring;
    match WriteDoc(g.db, playerId, t, playerId in outages)
    case Ok(db') => GameData(g.cache, expiring, db', g.queue - {playerId})
    case Err(DuplicateKey) => GameData(g.cache, expiring, g.db, g.queue - {playerId})
    case Err(_) => g
  }

  function TickFixed(g: GameData, order: seq<string>, outages: set<string>): (r: GameData)
    requires Distinct(order) && forall k | 0 <= k < |order| :: order[k] in g.queue
    ensures r.cache == g.cache
    decreases |order|
  {
    if |order| == 0 then g
    else
      DistinctTail(order);
      TickFixed(TickOneFixed(g, order[0], outages), order[1..], outages)
  }

  /** With the correction, a tick clears every queued player not hit by an outage. */
  lemma {:induction false} TickFixedClears(g: GameData, order: seq<string>, outages: set<string>)
    requires Distinct(order) && forall k | 0 <= k < |order| :: order[k] in g.queue
    ensures TickFixed(g, order, outages).queue
      == g.queue - (set x | x in order && x !in outages)
    decreases |order|
  {
    if |order| > 0 {
      DistinctTail(order);
      var p := order[0];
      var g1 := TickOneFixed(g, p, outages);
      TickFixedClears(g1, order[1..], outages);
      var rest := set x | x in order[1..] && x !in outages;
      assert (set x | x in order && x !in outages) == rest + (if p !in outages then {p} else {}) by {
        LandedSplit(order, outages);
      }
      MapRemoveStep(g.queue, g1.queue, p, p !in outages, rest);
    } else {
      assert (set x | x in order && x !in outages) == {};
    }
  }

  /** The players of `order` outside the outages: its head's part and its tail's part. */
  lemma LandedSplit(order: seq<string>, outages: set<string>)
    requires |order| > 0
    ensures (set x | x in order && x !in outages)
      == (set x | x in order[1..] && x !in outages) + (if order[0] in outages then {} else {order[0]})
  {
    assert order == [order[0]] + order[1..];
  }

  /** Removing one key (or not), then a set of keys, is removing both at once. */
  lemma MapRemoveStep<K, V>(m: map<K, V>, m1: map<K, V>, p: K, drop: bool, rest: set<K>)
    requires m1 == if drop then m - {p} else m
    ensures m1 - rest == m - (rest + (if drop then {p} else {}))
  {
  }

  /** So with no outage one corrected tick drains the queue, whatever versions are stored. */
  lemma TickFixedDrains(g: GameData, order: seq<string>)
    requires Enumerates(order, g.queue.Keys)
    ensures TickFixed(g, order, {}).queue == map[]
  {
    EnumeratesMembers(order, g.queue.Keys);
    TickFixedClears(g, order, {});
    assert (set x | x in order && x !in {}) == g.queue.Keys;
  }

  /** The corrected tick still never lets an older version overwrite a newer one. */
  lemma {:induction false} TickFixedNeverRegresses(g: GameData, order: seq<string>, outages: set<string>)
    requires Distinct(order) && forall k | 0 <= k < |order| :: order[k] in g.queue
    ensures forall q | q in g.db ::
      q in TickFixed(g, order, outages).db && TickFixed(g, order, outages).db[q].updatedAt >= g.db[q].updatedAt
    decreases |order|
  {
    if |order| > 0 {
      DistinctTail(order);
      TickFixedNeverRegresses(TickOneFixed(g, order[0], outages), order[1..], outages);
    }
  }

  /* ---------------- the persister server ---------------- */

  datatype PersisterCast = PersistParams(playerId: string, task: Task) | OtherCast
  datatype PersisterCall = TickerPersistParams | RemainTasksParams | OtherCall

  /** HandleCast: the newest task for a player replaces any queued one. */
  function HandleCast(g: GameData, msg: PersisterCast): (r: GameData)
    ensures msg.PersistParams? ==>
      && r.queue.Keys == g.queue.Keys + {msg.playerId}
      && r.queue[msg.playerId] == msg.task
      && (forall q | q in g.queue && q != msg.playerId :: r.queue[q] == g.queue[q])
    ensures r.cache == g.cache && r.db == g.db && r.expiring == g.expiring
    ensures msg.OtherCast? ==> r == g
  {
    match msg
    case PersistParams(p, t) => g.(queue := g.queue[p := t])
    case OtherCast => g
  }

  /** Last write wins: a second task for the same player erases the first. */
  lemma LastWriteWins(g: GameData, p: string, t1: Task, t2: Task)
    ensures HandleCast(HandleCast(g, PersistParams(p, t1)), PersistParams(p, t2)) == HandleCast(g, PersistParams(p, t2))
  {
    assert g.queue[p := t1][p := t2] == g.queue[p := t2];
  }

  /**
   * HandleCall: a tick runs tickerPersist and answers nil; the remaining
   * count is the queue's size; anything else answers nil.
   */
  function HandleCall(g: GameData, msg: PersisterCall, order: seq<string>, outages: set<string>)
    : (r: (GameData, Option<nat>))
    requires msg.TickerPersistParams? ==> Enumerates(order, g.queue.Keys)
    ensures msg.RemainTasksParams? ==> r == (g, Some(|g.queue|))
    ensures msg.TickerPersistParams? ==> r == (TickAll(g, g.queue.Keys, outages), None)
    ensures msg.OtherCall? ==> r == (g, None)
  {
    match msg
    case TickerPersistParams =>
      TickIsOrderFree(g, order, outages);
      (Tick(g, order, outages), None)
    case RemainTasksParams => (g, Some(|g.queue|))
    case OtherCall => (g, None)
  }

  /** HandleCall with the corrected tick: a tick with no outage empties the queue. */
  function HandleCallFixed(g: GameData, msg: PersisterCall, order: seq<string>, outages: set<string>)
    : (r: (GameData, Option<nat>))
    requires msg.TickerPersistParams? ==> Enumerates(order, g.queue.Keys)
    ensures msg.RemainTasksParams? ==> r == (g, Some(|g.queue|))
    ensures msg.TickerPersistParams? ==>
      r.1 == None && r.0.queue == g.queue - (set x | x in g.queue && x !in outages)
    ensures msg.TickerPersistParams? && outages == {} ==> r.0.queue == map[]
    ensures msg.OtherCall? ==> r == (g, None)
  {
    match msg
    case TickerPersistParams =>
      EnumeratesMembers(order, g.queue.Keys);
      TickFixedClears(g, order, outages);
      assert (set x | x in order && x !in outages) == (set x | x in g.queue && x !in outages);
      (TickFixed(g, order, outages), None)
    case RemainTasksParams => (g, Some(|g.queue|))
    case OtherCall => (g, None)
  }

  /**
   * ensurePersistered polls the remaining count until one poll answers 0
   * without error: the index of that poll, or None if none of `polls` does
   * (a failed call is None).
   */
  function EnsurePersistered(polls: seq<Option<nat>>): (r: Option<nat>)
    ensures r.Some? ==> r.value < |polls| && polls[r.value] == Some(0)
    ensures r.Some? ==> forall i | 0 <= i < r.value :: polls[i] != Some(0)
    ensures r.None? ==> forall i | 0 <= i < |polls| :: polls[i] != Some(0)
  {
    if |polls| == 0 then None
    else if polls[0] == Some(0) then Some(0)
    else match EnsurePersistered(polls[1..])
      case None => None
      case Some(i) => Some(i + 1)
  }

  /* ---------------- Take, Return, Persist ---------------- */

  /**
   * Take: a cached copy is handed out and deleted (a failed delete is only
   * logged); on a cache miss the database copy, or "" when there is none;
   * any other cache error is returned without reading the database.
   */
  function Take(g: GameData, playerId: string, getFails: bool, delFails: bool, dbFails: bool)
    : (r: (GameData, string, Option<StoreError>))
    ensures getFails ==> r == (g, "", Some(RedisFailed))
    ensures !getFails && CacheKey(playerId) in g.cache ==>
      && r.1 == g.cache[CacheKey(playerId)] && r.2 == None
      && (delFails ==> r.0 == g)
      && (!delFails ==> CacheKey(playerId) !in r.0.cache && CacheKey(playerId) !in r.0.expiring)
    ensures !getFails && CacheKey(playerId) in g.cache && !delFails ==>
      r.0 == g.(cache := g.cache - {CacheKey(playerId)}, expiring := g.expiring - {CacheKey(playerId)})
    ensures !getFails && CacheKey(playerId) !in g.cache ==> r.0 == g
    ensures !getFails && CacheKey(playerId) !in g.cache && dbFails ==> r == (g, "", Some(DbUnavailable))
    ensures !getFails && CacheKey(playerId) !in g.cache && !dbFails ==>
      r.2 == None && r.1 == (if playerId in g.db then g.db[playerId].content else "")
    ensures r.0.db == g.db && r.0.queue == g.queue
  {
    var key := CacheKey(playerId);
    if getFails then (g, "", Some(RedisFailed))
    else if key !in g.cache then
      if dbFails then (g, "", Some(DbUnavailable))
      else if playerId !in g.db then (g, "", None)
      else (g, g.db[playerId].content, None)
    else if delFails then (g, g.cache[key], None)
    else (g.(cache := g.cache - {key}, expiring := g.expiring - {key}), g.cache[key], None)
  }

  /**
   * Return: the content is cached (without expiry) and then queued for the
   * database with NeedExpire; a failed cache write returns false and queues
   * nothing. The cast's own error is returned alongside true.
   */
  function Return(g: GameData, playerId: string, content: string, version: int, setFails: bool,
                  castErr: Option<GenServer.Error>)
    : (r: (GameData, bool, Option<StoreError>))
    ensures setFails ==> r == (g, false, Some(RedisFailed))
    ensures !setFails ==> r.1 && r.0.cache == g.cache[CacheKey(playerId) := content]
    ensures !setFails ==> r.0.expiring == g.expiring - {CacheKey(playerId)}
    ensures !setFails && castErr.Some? ==> r.2 == Some(CastFailed(castErr.value)) && r.0.queue == g.queue
    ensures !setFails && castErr.None? ==>
      r.2 == None && r.0.queue == g.queue[playerId := Task(content, version, true)]
    ensures r.0.db == g.db
  {
    if setFails then (g, false, Some(RedisFailed))
    else
      var key := CacheKey(playerId);
      var g1 := g.(cache := g.cache[key := content], expiring := g.expiring - {key});
      match castErr
      case Some(e) => (g1, true, Some(CastFailed(e)))
      case None => (HandleCast(g1, PersistParams(playerId, Task(content, version, true))), true, None)
  }

  /** Persist: queue the content with no expiry; the answer is always true. */
  function Persist(g: GameData, playerId: string, content: string, version: int, castErr: Option<GenServer.Error>)
    : (r: (GameData, bool, Option<StoreError>))
    ensures r.1
    ensures castErr.Some? ==> r == (g, true, Some(CastFailed(castErr.value)))
    ensures castErr.None? ==> r.2 == None && r.0 == g.(queue := g.queue[playerId := Task(content, version, false)])
  {
    match castErr
    case Some(e) => (g, true, Some(CastFailed(e)))
    case None => (HandleCast(g, PersistParams(playerId, Task(content, version, false))), true, None)
  }

  /** Only a cached key carries an expiry: the state is well formed when every expiring key is cached. */
  predicate ExpiryOnCached(g: GameData) {
    g.expiring <= g.cache.Keys
  }

  /** Take, Return, Persist and a tick all keep every expiring key cached. */
  lemma ExpiryStaysOnCached(g: GameData, playerId: string, content: string, version: int, order: seq<string>,
                            outages: set<string>, getFails: bool, delFails: bool, dbFails: bool, setFails: bool,
                            castErr: Option<GenServer.Error>)
    requires ExpiryOnCached(g)
    requires Enumerates(order, g.queue.Keys)
    ensures ExpiryOnCached(Take(g, playerId, getFails, delFails, dbFails).0)
    ensures ExpiryOnCached(Return(g, playerId, content, version, setFails, castErr).0)
    ensures ExpiryOnCached(Persist(g, playerId, content, version, castErr).0)
    ensures ExpiryOnCached(Tick(g, order, outages))
  {
    EnumeratesMembers(order, g.queue.Keys);
    TickIsOrderFree(g, order, outages);
  }

  /** Returning data and taking it back hands out exactly what was returned and clears the cached copy. */
  lemma ReturnThenTake(g: GameData, p: string, content: string, version: int)
    ensures var g1 := Return(g, p, content, version, false, None).0;
      var r := Take(g1, p, false, false, false);
      && r.1 == content && r.2 == None
      && CacheKey(p) !in r.0.cache
      && r.0.queue[p] == Task(content, version, true)
  {
  }

  /**
   * Once a persisted task newer than the stored document has been through a
   * tick with no outage, and the cache has no copy for the player, Take falls
   * back to the database and finds that content.
   */
  lemma PersistTickTake(g: GameData, p: string, content: string, version: int, order: seq<string>)
    requires CacheKey(p) !in g.cache
    requires p !in g.db || g.db[p].updatedAt < version
    ensures var g1 := Persist(g, p, content, version, None).0;
      Enumerates(order, g1.queue.Keys) ==>
        Take(Tick(g1, order, {}), p, false, false, false).1 == content
  {
    var g1 := Persist(g, p, content, version, None).0;
    if Enumerates(order, g1.queue.Keys) {
      assert Lands(g1, p, {});
      TickRemovesExactlyLanded(g1, order, {}, p);
    }
  }

  /** The same under the corrected tick. */
  lemma PersistTickFixedTake(g: GameData, p: string, content: string, version: int, order: seq<string>)
    requires CacheKey(p) !in g.cache
    requires p !in g.db || g.db[p].updatedAt < version
    ensures var g1 := Persist(g, p, content, version, None).0;
      Enumerates(order, g1.queue.Keys) ==>
        Take(TickFixed(g1, order, {}), p, false, false, false).1 == content
  {
    var g1 := Persist(g, p, content, version, None).0;
    if Enumerates(order, g1.queue.Keys) {
      EnumeratesMembers(order, g1.queue.Keys);
      TickFixedLands(g1, order, p);
    }
  }

  /** Under the corrected tick with no outage, a landing player's document becomes its task. */
  lemma {:induction false} TickFixedLands(g: GameData, order: seq<string>, p: string)
    requires Distinct(order) && forall k | 0 <= k < |order| :: order[k] in g.queue
    requires p in order && p in g.queue && (p !in g.db || g.db[p].updatedAt < g.queue[p].version)
    ensures p in TickFixed(g, order, {}).db
    ensures TickFixed(g, order, {}).db[p] == Doc(g.queue[p].content, g.queue[p].version)
    decreases |order|
  {
    DistinctTail(order);
    var g1 := TickOneFixed(g, order[0], {});
    if order[0] == p {
      TickFixedKeeps(g1, order[1..], p);
    } else {
      TickFixedLands(g1, order[1..], p);
    }
  }

  /** A player outside the tick's order keeps its document. */
  lemma {:induction false} TickFixedKeeps(g: GameData, order: seq<string>, p: string)
    requires Distinct(order) && forall k | 0 <= k < |order| :: order[k] in g.queue
    requires p !in order && p in g.db
    ensures p in TickFixed(g, order, {}).db && TickFixed(g, order, {}).db[p] == g.db[p]
    decreases |order|
  {
    if |order| > 0 {
      DistinctTail(order);
      TickFixedKeeps(TickOneFixed(g, order[0], {}), order[1..], p);
    }
  }
}

=== FILE: gen_server.dfy ===
/**
 * The actor runtime of gen_server/gen_server.go as a sequential state machine.
 *
 * The process-wide registry maps a name to a server: its behaviour's private
 * state and its bounded FIFO mailbox. Every request envelope owns a one-slot
 * reply channel, identified here by the envelope's `slot` number; `replies`
 * holds the value waiting in each non-empty channel. Envelopes and responses
 * are recycled through two free lists (the `sync.Pool`s). Goroutines and
 * `select` become explicit steps that a scheduler may interleave in any order:
 * `Cast` and `CallEnqueue` on the caller side, `Dispatch` and `Stop` on the
 * server side, `Await` when the caller's `select` fires, `Respond` for the
 * manual reply of a ManualCall.
 */
module GenServer {
  import opened Wrappers

  /** MsgChannelLen: the capacity of every mailbox. */
  const MailboxCapacity: nat := 1024

  /** The request categories, with their byte codes CALL 0, CAST 1, MCall 2. */
  datatype Category = Call | Cast | ManualCall {
    function Code(): (b: nat)
      ensures b < 3
    {
      match this
      case Call => 0
      case Cast => 1
      case ManualCall => 2
    }
  }

  datatype Error =
    | NotExist                        // ErrNotExist, from Call and ManualCall
    | CastTargetMissing(name: string) // name + " not exist", from Cast
    | QueueFull(name: string)         // Cast on a full mailbox
    | CallTimeout                     // the caller's timer fired first
    | App(reason: string)             // an error returned by a behaviour callback

  /** A request envelope; `slot` names its one-slot reply channel. */
  datatype Request<M> = Request(category: Category, msg: Option<M>, slot: nat)

  datatype Response<R> = Response(result: Option<R>, err: Option<Error>)

  datatype Server<S, M> = Server(state: S, mailbox: seq<Request<M>>)

  datatype Runtime<S, M, R> = Runtime(
    registry: map<string, Server<S, M>>,
    replies: map<nat, Response<R>>,
    freeRequests: seq<Request<M>>,
    freeResponses: seq<Response<R>>,
    nextSlot: nat)

  /** What HandleCall did: returned a result and an error, or panicked. */
  datatype CallOutcome<S, R> = Answered(state: S, result: Option<R>, err: Option<Error>) | CallFault(state: S)

  /** What HandleCast did: returned, or panicked. */
  datatype CastOutcome<S> = CastDone(state: S) | CastFault(state: S)

  /** What Terminate did: returned an error or nil, or panicked. */
  datatype TerminateOutcome<S> = Terminated(state: S, err: Option<Error>) | TerminateFault(state: S) {
    /** Terminate returned nil: the loop ends. */
    predicate Stops() {
      Terminated? && err.None?
    }
  }

  /** What the caller of Stop receives: the reply, or none at all (it waits forever). */
  datatype StopReply = Replied(err: Option<Error>) | NoReply

  /** The callbacks of a GenServerBehavior after Init. */
  datatype Behavior<!S, !M, R> = Behavior(
    handleCall: (S, Request<M>) -> CallOutcome<S, R>,
    handleCast: (S, Request<M>) -> CastOutcome<S>,
    terminate: (S, string) -> TerminateOutcome<S>)

  function Empty<S, M, R>(): (rt: Runtime<S, M, R>)
    ensures rt.registry == map[] && rt.replies == map[]
  {
    Runtime(map[], map[], [], [], 0)
  }

  predicate Exists<S, M, R>(rt: Runtime<S, M, R>, name: string) {
    name in rt.registry
  }

  /* ---------------- request and response pools ---------------- */

  /** putRequest: the envelope as it goes back to the pool. */
  function ResetRequest<M>(req: Request<M>): (r: Request<M>)
    ensures r.category.Code() == 0 && r.msg == None
    ensures r.slot == req.slot
  {
    Request(Call, None, req.slot)
  }

  /** putResponse: the response as it goes back to the pool. */
  function ResetResponse<R>(rsp: Response<R>): (r: Response<R>)
    ensures r.result == None && r.err == None
  {
    Response(None, None)
  }

  /** getRequest: reuse a pooled envelope, or allocate one with a fresh reply channel. */
  function GetRequest<S, M, R>(rt: Runtime<S, M, R>): (r: (Request<M>, Runtime<S, M, R>))
    ensures |rt.freeRequests| > 0 ==>
      && r.0 == rt.freeRequests[|rt.freeRequests| - 1]
      && r.1 == rt.(freeRequests := rt.freeRequests[..|rt.freeRequests| - 1])
    ensures |rt.freeRequests| == 0 ==>
      && r.0.slot == rt.nextSlot
      && r.1 == rt.(nextSlot := rt.nextSlot + 1)
  {
    if |rt.freeRequests| > 0 then
      (rt.freeRequests[|rt.freeRequests| - 1], rt.(freeRequests := rt.freeRequests[..|rt.freeRequests| - 1]))
    else
      (Request(Call, None, rt.nextSlot), rt.(nextSlot := rt.nextSlot + 1))
  }

  /* ---------------- lifecycle ---------------- */

  /**
   * Start: a registered name short-circuits to the existing server; otherwise
   * Init runs (its outcome is `init`) and only a successful Init registers the
   * name with an empty mailbox.
   */
  function Start<S, M, R>(rt: Runtime<S, M, R>, name: string, init: Result<S, Error>)
    : (r: (Runtime<S, M, R>, Result<Server<S, M>, Error>))
    ensures name in rt.registry ==> r == (rt, Ok(rt.registry[name]))
    ensures name !in rt.registry && init.Err? ==> r == (rt, Err(init.error))
    ensures name !in rt.registry && init.Ok? ==>
      r.1 == Ok(Server(init.value, [])) && r.0 == rt.(registry := rt.registry[name := Server(init.value, [])])
  {
    if name in rt.registry then (rt, Ok(rt.registry[name]))
    else match init
      case Err(e) => (rt, Err(e))
      case Ok(s) => (rt.(registry := rt.registry[name := Server(s, [])]), Ok(Server(s, [])))
  }

  /**
   * Stop followed by the server's handling of the stop signal. An unknown
   * name is a no-op returning nil. A failing Terminate leaves the server
   * registered (with whatever state Terminate left) and returns its error; a
   * successful one ends the loop and deregisters the name, dropping whatever
   * was still in the mailbox. A panicking Terminate is recovered, the loop
   * goes on, and no reply is ever sent: the caller of Stop waits forever.
   */
  function Stop<S, M, R>(rt: Runtime<S, M, R>, name: string, reason: string, b: Behavior<S, M, R>)
    : (r: (Runtime<S, M, R>, StopReply))
    ensures name !in rt.registry ==> r == (rt, Replied(None))
    ensures r.0.replies == rt.replies && r.0.freeRequests == rt.freeRequests
    ensures r.0.freeResponses == rt.freeResponses && r.0.nextSlot == rt.nextSlot
    ensures name in rt.registry ==> var out := b.terminate(rt.registry[name].state, reason);
      && (out.Terminated? ==> r.1 == Replied(out.err))
      && (out.TerminateFault? ==> r.1 == NoReply)
      && (out.Stops() ==> r.0.registry == rt.registry - {name})
      && (!out.Stops() ==>
            && name in r.0.registry
            && r.0.registry[name] == Server(out.state, rt.registry[name].mailbox)
            && forall n | n in rt.registry && n != name :: n in r.0.registry && r.0.registry[n] == rt.registry[n])
  {
    if name !in rt.registry then (rt, Replied(None))
    else
      var srv := rt.registry[name];
      match b.terminate(srv.state, reason)
      case Terminated(s', None) => (rt.(registry := rt.registry - {name}), Replied(None))
      case Terminated(s', Some(e)) => (rt.(registry := rt.registry[name := Server(s', srv.mailbox)]), Replied(Some(e)))
      case TerminateFault(s') => (rt.(registry := rt.registry[name := Server(s', srv.mailbox)]), NoReply)
  }

  /* ---------------- caller side ---------------- */

  /**
   * Cast: fails for an unknown name or a full mailbox, leaving everything as
   * it was; otherwise appends exactly one CAST envelope carrying `msg`.
   */
  function CastTo<S, M, R>(rt: Runtime<S, M, R>, name: string, msg: M): (r: (Runtime<S, M, R>, Option<Error>))
    ensures name !in rt.registry ==> r == (rt, Some(CastTargetMissing(name)))
    ensures name in rt.registry && |rt.registry[name].mailbox| == MailboxCapacity ==>
      r == (rt, Some(QueueFull(name)))
    ensures name in rt.registry && |rt.registry[name].mailbox| != MailboxCapacity ==>
      && r.1 == None
      && name in r.0.registry
      && r.0.registry[name].state == rt.registry[name].state
      && |r.0.registry[name].mailbox| == |rt.registry[name].mailbox| + 1
      && r.0.registry[name].mailbox[..|rt.registry[name].mailbox|] == rt.registry[name].mailbox
      && r.0.registry[name].mailbox[|rt.registry[name].mailbox|].category == Cast
      && r.0.registry[name].mailbox[|rt.registry[name].mailbox|].msg == Some(msg)
      && r.0.registry.Keys == rt.registry.Keys
      && (forall n | n in rt.registry && n != name :: r.0.registry[n] == rt.registry[n])
  {
    if name !in rt.registry then (rt, Some(CastTargetMissing(name)))
    else
      var srv := rt.registry[name];
      if |srv.mailbox| == MailboxCapacity then (rt, Some(QueueFull(name)))
      else
        var (req, rt1) := GetRequest(rt);
        var req' := Request(Cast, Some(msg), req.slot);
        (rt1.(registry := rt1.registry[name := Server(srv.state, srv.mailbox + [req'])]), None)
  }

  /** What the caller of Call or ManualCall observes when it enqueues. */
  datatype Enqueue<S, M, R> =
    | Missing                                   // ErrNotExist, nothing enqueued
    | Blocked                                   // mailbox full: the send waits
    | Enqueued(rt: Runtime<S, M, R>, slot: nat) // the envelope whose reply to await

  /**
   * The first half of callByCategory: look the name up and push a CALL
   * (`manual` false) or MCall (`manual` true) envelope. Unlike Cast there is
   * no fullness check: a full mailbox makes the sender wait.
   */
  function CallEnqueue<S, M, R>(rt: Runtime<S, M, R>, name: string, msg: M, manual: bool): (r: Enqueue<S, M, R>)
    ensures name !in rt.registry <==> r.Missing?
    ensures r.Blocked? <==> name in rt.registry && |rt.registry[name].mailbox| >= MailboxCapacity
    ensures r.Enqueued? ==>
      && name in r.rt.registry
      && r.rt.registry[name].state == rt.registry[name].state
      && r.rt.registry[name].mailbox
         == rt.registry[name].mailbox + [Request(if manual then ManualCall else Call, Some(msg), r.slot)]
      && r.rt.registry.Keys == rt.registry.Keys
      && (forall n | n in rt.registry && n != name :: r.rt.registry[n] == rt.registry[n])
  {
    if name !in rt.registry then Missing
    else
      var srv := rt.registry[name];
      if |srv.mailbox| >= MailboxCapacity then Blocked
      else
        var (req, rt1) := GetRequest(rt);
        var req' := Request(if manual then ManualCall else Call, Some(msg), req.slot);
        Enqueued(rt1.(registry := rt1.registry[name := Server(srv.state, srv.mailbox + [req'])]), req.slot)
  }

  /** What the caller's `select` yields. */
  datatype Await<S, M, R> =
    | StillWaiting
    | Returned(rt: Runtime<S, M, R>, result: Option<R>, err: Option<Error>)

  /**
   * The second half of callByCategory. `timerFired` is the scheduler's
   * choice that the timeout case of the `select` wins. On a timeout nothing is
   * recycled and the reply channel is left alone; on a received reply the
   * response and the envelope both go back to their pools, reset.
   */
  function AwaitReply<S, M, R>(rt: Runtime<S, M, R>, slot: nat, timerFired: bool): (r: Await<S, M, R>)
    ensures timerFired ==> r == Returned(rt, None, Some(CallTimeout))
    ensures !timerFired && slot !in rt.replies ==> r.StillWaiting?
    ensures !timerFired && slot in rt.replies ==>
      && r.Returned?
      && r.result == rt.replies[slot].result && r.err == rt.replies[slot].err
      && r.rt.replies == rt.replies - {slot}
      && r.rt.freeRequests == rt.freeRequests + [Request(Call, None, slot)]
      && r.rt.freeResponses == rt.freeResponses + [Response(None, None)]
      && r.rt.registry == rt.registry
  {
    if timerFired then Returned(rt, None, Some(CallTimeout))
    else if slot !in rt.replies then StillWaiting
    else
      var rsp := rt.replies[slot];
      Returned(rt.(replies := rt.replies - {slot},
                   freeRequests := rt.freeRequests + [ResetRequest(Request(Call, None, slot))],
                   freeResponses := rt.freeResponses + [ResetResponse(rsp)]),
               rsp.result, rsp.err)
  }

  /**
   * Request.Response: take a response from the pool, fill it and put it into
   * the envelope's one-slot channel; `None` when the channel already holds a
   * value, so that the send would block.
   */
  function Respond<S, M, R>(rt: Runtime<S, M, R>, slot: nat, result: Option<R>, err: Option<Error>)
    : (r: Option<Runtime<S, M, R>>)
    ensures slot in rt.replies <==> r.None?
    ensures r.Some? ==>
      && r.value.replies == rt.replies[slot := Response(result, err)]
      && r.value.registry == rt.registry && r.value.freeRequests == rt.freeRequests
      && r.value.nextSlot == rt.nextSlot
      && |r.value.freeResponses| == (if |rt.freeResponses| > 0 then |rt.freeResponses| - 1 else 0)
  {
    if slot in rt.replies then None
    else
      var pool := if |rt.freeResponses| > 0 then rt.freeResponses[..|rt.freeResponses| - 1] else [];
      Some(rt.(replies := rt.replies[slot := Response(result, err)], freeResponses := pool))
  }

  /* ---------------- server side ---------------- */

  /** One iteration of the loop's mailbox case. */
  datatype Step<S, M, R> =
    | Idle                                           // nothing to receive
    | Stepped(rt: Runtime<S, M, R>, handled: Request<M>)
    | Stuck                                          // the reply send would block forever

  /**
   * handleRequest on the head of the mailbox. CALL runs HandleCall and puts
   * one response into the envelope's channel; CAST runs HandleCast and
   * recycles the envelope; MCall runs HandleCall and sends nothing. A handler
   * fault is recovered: its request gets no reply and is not recycled, and the
   * loop carries on.
   */
  function Dispatch<S, M, R>(rt: Runtime<S, M, R>, name: string, b: Behavior<S, M, R>): (r: Step<S, M, R>)
    ensures name !in rt.registry || |rt.registry[name].mailbox| == 0 <==> r.Idle?
    ensures r.Stepped? ==>
      && name in rt.registry && name in r.rt.registry
      && r.handled == rt.registry[name].mailbox[0]
      && r.rt.registry[name].mailbox == rt.registry[name].mailbox[1..]
      && r.rt.registry.Keys == rt.registry.Keys
      && (forall n | n in rt.registry && n != name :: r.rt.registry[n] == rt.registry[n])
      && r.rt.nextSlot == rt.nextSlot
  {
    if name !in rt.registry || |rt.registry[name].mailbox| == 0 then Idle
    else
      var srv := rt.registry[name];
      var req := srv.mailbox[0];
      var rest := srv.mailbox[1..];
      match req.category
      case Call =>
        (match b.handleCall(srv.state, req)
         case CallFault(s') =>
           Stepped(rt.(registry := rt.registry[name := Server(s', rest)]), req)
         case Answered(s', result, err) =>
           var rt1 := rt.(registry := rt.registry[name := Server(s', rest)]);
           match Respond(rt1, req.slot, result, err)
           case None => Stuck
           case Some(rt2) => Stepped(rt2, req))
      case Cast =>
        (match b.handleCast(srv.state, req)
         case CastFault(s') =>
           Stepped(rt.(registry := rt.registry[name := Server(s', rest)]), req)
         case CastDone(s') =>
           Stepped(rt.(registry := rt.registry[name := Server(s', rest)],
                       freeRequests := rt.freeRequests + [ResetRequest(req)]), req))
      case ManualCall =>
        Stepped(rt.(registry := rt.registry[name := Server(b.handleCall(srv.state, req).state, rest)]), req)
  }

  /* ---------------- the pool-safety invariant ---------------- */

  /** A recycled envelope: reset, allocated, and with an empty reply channel. */
  ghost predicate Recycled<S, M, R>(rt: Runtime<S, M, R>, req: Request<M>) {
    req.category == Call && req.msg == None && req.slot < rt.nextSlot && req.slot !in rt.replies
  }

  ghost predicate InPool<S, M, R>(rt: Runtime<S, M, R>, slot: nat) {
    exists k | 0 <= k < |rt.freeRequests| :: rt.freeRequests[k].slot == slot
  }

  /** An envelope waiting in a mailbox: allocated, empty channel, not pooled. */
  ghost predicate Pending<S, M, R>(rt: Runtime<S, M, R>, req: Request<M>) {
    req.slot < rt.nextSlot && req.slot !in rt.replies && !InPool(rt, req.slot)
  }

  ghost predicate PoolsClean<S, M, R>(rt: Runtime<S, M, R>) {
    && (forall k | 0 <= k < |rt.freeRequests| :: Recycled(rt, rt.freeRequests[k]))
    && (forall k, l | 0 <= k < l < |rt.freeRequests| :: rt.freeRequests[k].slot != rt.freeRequests[l].slot)
    && (forall k | 0 <= k < |rt.freeResponses| :: rt.freeResponses[k] == Response(None, None))
  }

  ghost predicate MailboxesSound<S, M, R>(rt: Runtime<S, M, R>) {
    forall n | n in rt.registry ::
      && |rt.registry[n].mailbox| <= MailboxCapacity
      && forall i | 0 <= i < |rt.registry[n].mailbox| :: Pending(rt, rt.registry[n].mailbox[i])
  }

  /** No reply channel is shared by two envelopes waiting in mailboxes. */
  ghost predicate Unshared<S, M>(reg: map<string, Server<S, M>>) {
    forall n1, n2, i, j |
      && n1 in reg && n2 in reg
      && 0 <= i < |reg[n1].mailbox| && 0 <= j < |reg[n2].mailbox|
      && reg[n1].mailbox[i].slot == reg[n2].mailbox[j].slot
      :: n1 == n2 && i == j
  }

  /**
   * The safety property of the pooling discipline: a pooled envelope is
   * reset, has no reply waiting in its channel, and is not reachable from any
   * mailbox, so a late reply can never land on an envelope in reuse.
   */
  ghost predicate Valid<S, M, R>(rt: Runtime<S, M, R>) {
    && PoolsClean(rt)
    && MailboxesSound(rt)
    && Unshared(rt.registry)
    && (forall s | s in rt.replies :: s < rt.nextSlot)
  }

  lemma EmptyValid<S, M, R>()
    ensures Valid(Empty<S, M, R>())
  {
  }

  /** The envelope GetRequest hands out is clean, and the rest of the pool stays valid. */
  lemma GetRequestClean<S, M, R>(rt: Runtime<S, M, R>)
    requires Valid(rt)
    ensures var (req, rt1) := GetRequest(rt);
      && req.slot < rt1.nextSlot && req.slot !in rt1.replies && !InPool(rt1, req.slot)
      && PoolsClean(rt1)
      && (forall n, i | n in rt.registry && 0 <= i < |rt.registry[n].mailbox| ::
            rt.registry[n].mailbox[i].slot != req.slot && Pending(rt1, rt.registry[n].mailbox[i]))
      && (forall s | s in rt1.replies :: s < rt1.nextSlot)
  {
    var (req, rt1) := GetRequest(rt);
    if |rt.freeRequests| > 0 {
      var last := |rt.freeRequests| - 1;
      assert Recycled(rt, rt.freeRequests[last]);
      forall k | 0 <= k < |rt1.freeRequests|
        ensures rt1.freeRequests[k].slot != req.slot
      {
        assert rt1.freeRequests[k] == rt.freeRequests[k];
      }
      forall n, i | n in rt.registry && 0 <= i < |rt.registry[n].mailbox|
        ensures rt.registry[n].mailbox[i].slot != req.slot
        ensures Pending(rt1, rt.registry[n].mailbox[i])
      {
        var q := rt.registry[n].mailbox[i];
        assert Pending(rt, q);
        assert rt.freeRequests[last].slot != q.slot;
        forall k | 0 <= k < |rt1.freeRequests|
          ensures rt1.freeRequests[k].slot != q.slot
        {
          assert rt1.freeRequests[k] == rt.freeRequests[k];
        }
      }
    } else {
      forall n, i | n in rt.registry && 0 <= i < |rt.registry[n].mailbox|
        ensures rt.registry[n].mailbox[i].slot != req.slot
        ensures Pending(rt1, rt.registry[n].mailbox[i])
      {
        assert Pending(rt, rt.registry[n].mailbox[i]);
      }
    }
  }

  /** Appending a clean envelope to one mailbox keeps the invariant. */
  lemma EnqueueValid<S, M, R>(rt: Runtime<S, M, R>, rt1: Runtime<S, M, R>, name: string, req: Request<M>)
    requires Valid(rt) && name in rt.registry
    requires |rt.registry[name].mailbox| < MailboxCapacity
    requires rt1.registry == rt.registry
    requires req.slot < rt1.nextSlot && req.slot !in rt1.replies && !InPool(rt1, req.slot)
    requires PoolsClean(rt1)
    requires forall n, i | n in rt.registry && 0 <= i < |rt.registry[n].mailbox| ::
      rt.registry[n].mailbox[i].slot != req.slot && Pending(rt1, rt.registry[n].mailbox[i])
    requires forall s | s in rt1.replies :: s < rt1.nextSlot
    ensures Valid(rt1.(registry := rt1.registry[name := Server(rt.registry[name].state, rt.registry[name].mailbox + [req])]))
  {
    var srv := rt.registry[name];
    var reg' := rt.registry[name := Server(srv.state, srv.mailbox + [req])];
    var rt2 := rt1.(registry := reg');
    forall n | n in reg'
      ensures |reg'[n].mailbox| <= MailboxCapacity
      ensures forall i | 0 <= i < |reg'[n].mailbox| :: Pending(rt2, reg'[n].mailbox[i])
    {
      forall i | 0 <= i < |reg'[n].mailbox|
        ensures Pending(rt2, reg'[n].mailbox[i])
      {
        if n == name && i == |srv.mailbox| {
          assert reg'[n].mailbox[i] == req;
        } else {
          assert reg'[n].mailbox[i] == rt.registry[n].mailbox[i];
          assert Pending(rt1, rt.registry[n].mailbox[i]);
        }
      }
    }
    forall n1, n2, i, j |
      && n1 in reg' && n2 in reg'
      && 0 <= i < |reg'[n1].mailbox| && 0 <= j < |reg'[n2].mailbox|
      && reg'[n1].mailbox[i].slot == reg'[n2].mailbox[j].slot
      ensures n1 == n2 && i == j
    {
      var new1 := n1 == name && i == |srv.mailbox|;
      var new2 := n2 == name && j == |srv.mailbox|;
      if !new1 {
        assert reg'[n1].mailbox[i] == rt.registry[n1].mailbox[i];
      }
      if !new2 {
        assert reg'[n2].mailbox[j] == rt.registry[n2].mailbox[j];
      }
    }
  }

  /** Cast keeps the pool-safety invariant. */
  lemma CastValid<S, M, R>(rt: Runtime<S, M, R>, name: string, msg: M)
    requires Valid(rt)
    ensures Valid(CastTo(rt, name, msg).0)
  {
    if name in rt.registry && |rt.registry[name].mailbox| != MailboxCapacity {
      var (req, rt1) := GetRequest(rt);
      GetRequestClean(rt);
      EnqueueValid(rt, rt1, name, Request(Cast, Some(msg), req.slot));
    }
  }

  /** Enqueuing a Call or ManualCall keeps the pool-safety invariant. */
  lemma CallEnqueueValid<S, M, R>(rt: Runtime<S, M, R>, name: string, msg: M, manual: bool)
    requires Valid(rt)
    ensures var r := CallEnqueue(rt, name, msg, manual); r.Enqueued? ==> Valid(r.rt)
  {
    if name in rt.registry && |rt.registry[name].mailbox| < MailboxCapacity {
      var (req, rt1) := GetRequest(rt);
      GetRequestClean(rt);
      EnqueueValid(rt, rt1, name, Request(if manual then ManualCall else Call, Some(msg), req.slot));
    }
  }

  /** Removing the head of one mailbox (and nothing else) keeps the invariant. */
  lemma PopValid<S, M, R>(rt: Runtime<S, M, R>, name: string, s': S)
    requires Valid(rt) && name in rt.registry && |rt.registry[name].mailbox| > 0
    ensures Valid(rt.(registry := rt.registry[name := Server(s', rt.registry[name].mailbox[1..])]))
  {
    var mb := rt.registry[name].mailbox;
    var reg' := rt.registry[name := Server(s', mb[1..])];
    var rt2 := rt.(registry := reg');
    forall n | n in reg'
      ensures |reg'[n].mailbox| <= MailboxCapacity
      ensures forall i | 0 <= i < |reg'[n].mailbox| :: Pending(rt2, reg'[n].mailbox[i])
    {
      forall i | 0 <= i < |reg'[n].mailbox|
        ensures Pending(rt2, reg'[n].mailbox[i])
      {
        if n == name {
          assert reg'[n].mailbox[i] == mb[i + 1];
          assert Pending(rt, mb[i + 1]);
        } else {
          assert Pending(rt, rt.registry[n].mailbox[i]);
        }
      }
    }
    forall n1, n2, i, j |
      && n1 in reg' && n2 in reg'
      && 0 <= i < |reg'[n1].mailbox| && 0 <= j < |reg'[n2].mailbox|
      && reg'[n1].mailbox[i].slot == reg'[n2].mailbox[j].slot
      ensures n1 == n2 && i == j
    {
      var i0 := if n1 == name then i + 1 else i;
      var j0 := if n2 == name then j + 1 else j;
      assert reg'[n1].mailbox[i] == rt.registry[n1].mailbox[i0];
      assert reg'[n2].mailbox[j] == rt.registry[n2].mailbox[j0];
    }
  }

  /**
   * Under the invariant the loop never blocks on a reply: the channel of a
   * CALL envelope at the head of a mailbox is always empty.
   */
  lemma DispatchNeverStuck<S, M, R>(rt: Runtime<S, M, R>, name: string, b: Behavior<S, M, R>)
    requires Valid(rt)
    ensures !Dispatch(rt, name, b).Stuck?
  {
    if name in rt.registry && |rt.registry[name].mailbox| > 0 {
      assert Pending(rt, rt.registry[name].mailbox[0]);
    }
  }

  /** Dispatch keeps the pool-safety invariant. */
  lemma DispatchValid<S, M, R>(rt: Runtime<S, M, R>, name: string, b: Behavior<S, M, R>)
    requires Valid(rt)
    ensures var r := Dispatch(rt, name, b); r.Stepped? ==> Valid(r.rt)
  {
    var r := Dispatch(rt, name, b);
    if r.Stepped? {
      var srv := rt.registry[name];
      var req := srv.mailbox[0];
      assert Pending(rt, req);
      match req.category {
        case Call =>
          match b.handleCall(srv.state, req) {
            case CallFault(s') =>
              PopValid(rt, name, s');
            case Answered(s', result, err) =>
              PopValid(rt, name, s');
              var rt1 := rt.(registry := rt.registry[name := Server(s', srv.mailbox[1..])]);
              RespondValid(rt1, req.slot, result, err);
          }
        case Cast =>
          match b.handleCast(srv.state, req) {
            case CastFault(s') =>
              PopValid(rt, name, s');
            case CastDone(s') =>
              PopValid(rt, name, s');
              var rt1 := rt.(registry := rt.registry[name := Server(s', srv.mailbox[1..])]);
              RecycleValid(rt1, req.slot);
          }
        case ManualCall =>
          PopValid(rt, name, b.handleCall(srv.state, req).state);
      }
    }
  }

  /** Filling the channel of an envelope that no mailbox and no pool holds (a CALL being answered, or an MCall envelope kept by its behaviour) keeps the invariant. */
  lemma RespondValid<S, M, R>(rt: Runtime<S, M, R>, slot: nat, result: Option<R>, err: Option<Error>)
    requires Valid(rt) && slot < rt.nextSlot && !InPool(rt, slot)
    requires forall n, i | n in rt.registry && 0 <= i < |rt.registry[n].mailbox| :: rt.registry[n].mailbox[i].slot != slot
    ensures var r := Respond(rt, slot, result, err); r.Some? ==> Valid(r.value)
  {
    var r := Respond(rt, slot, result, err);
    if r.Some? {
      var rt2 := r.value;
      forall k | 0 <= k < |rt2.freeRequests|
        ensures Recycled(rt2, rt2.freeRequests[k])
      {
        assert Recycled(rt, rt.freeRequests[k]);
      }
      forall k | 0 <= k < |rt2.freeResponses|
        ensures rt2.freeResponses[k] == Response(None, None)
      {
        assert rt2.freeResponses[k] == rt.freeResponses[k];
      }
      forall n, i | n in rt2.registry && 0 <= i < |rt2.registry[n].mailbox|
        ensures Pending(rt2, rt2.registry[n].mailbox[i])
      {
        assert Pending(rt, rt.registry[n].mailbox[i]);
      }
    }
  }

  /** Returning an envelope that left its mailbox to the pool keeps the invariant. */
  lemma RecycleValid<S, M, R>(rt: Runtime<S, M, R>, slot: nat)
    requires Valid(rt) && slot < rt.nextSlot && slot !in rt.replies && !InPool(rt, slot)
    requires forall n, i | n in rt.registry && 0 <= i < |rt.registry[n].mailbox| :: rt.registry[n].mailbox[i].slot != slot
    ensures Valid(rt.(freeRequests := rt.freeRequests + [Request(Call, None, slot)]))
  {
    var rt2 := rt.(freeRequests := rt.freeRequests + [Request(Call, None, slot)]);
    forall k | 0 <= k < |rt2.freeRequests|
      ensures Recycled(rt2, rt2.freeRequests[k])
    {
      if k < |rt.freeRequests| {
        assert Recycled(rt, rt.freeRequests[k]);
      }
    }
    forall k, l | 0 <= k < l < |rt2.freeRequests|
      ensures rt2.freeRequests[k].slot != rt2.freeRequests[l].slot
    {
      if l == |rt.freeRequests| {
        assert rt2.freeRequests[k] == rt.freeRequests[k];
      }
    }
    forall n, i | n in rt2.registry && 0 <= i < |rt2.registry[n].mailbox|
      ensures Pending(rt2, rt2.registry[n].mailbox[i])
    {
      var q := rt.registry[n].mailbox[i];
      assert Pending(rt, q);
      forall k | 0 <= k < |rt2.freeRequests|
        ensures rt2.freeRequests[k].slot != q.slot
      {
        if k < |rt.freeRequests| {
          assert rt2.freeRequests[k] == rt.freeRequests[k];
        }
      }
    }
  }

  /** A received reply recycles its envelope and response without breaking the invariant. */
  lemma AwaitValid<S, M, R>(rt: Runtime<S, M, R>, slot: nat, timerFired: bool)
    requires Valid(rt)
    ensures var r := AwaitReply(rt, slot, timerFired); r.Returned? ==> Valid(r.rt)
  {
    if !timerFired && slot in rt.replies {
      forall k | 0 <= k < |rt.freeRequests|
        ensures rt.freeRequests[k].slot != slot
      {
        assert Recycled(rt, rt.freeRequests[k]);
      }
      forall n, i | n in rt.registry && 0 <= i < |rt.registry[n].mailbox|
        ensures rt.registry[n].mailbox[i].slot != slot
      {
        assert Pending(rt, rt.registry[n].mailbox[i]);
      }
      var rt1 := rt.(replies := rt.replies - {slot});
      assert Valid(rt1) by {
        forall k | 0 <= k < |rt1.freeRequests|
          ensures Recycled(rt1, rt1.freeRequests[k])
        {
          assert Recycled(rt, rt.freeRequests[k]);
        }
        forall n, i | n in rt1.registry && 0 <= i < |rt1.registry[n].mailbox|
          ensures Pending(rt1, rt1.registry[n].mailbox[i])
        {
          assert Pending(rt, rt.registry[n].mailbox[i]);
        }
      }
      RecycleValid(rt1, slot);
      var rt2 := rt1.(freeRequests := rt1.freeRequests + [Request(Call, None, slot)]);
      var rt3 := rt2.(freeResponses := rt2.freeResponses + [Response(None, None)]);
      assert AwaitReply(rt, slot, timerFired).rt == rt3;
      forall k | 0 <= k < |rt3.freeResponses|
        ensures rt3.freeResponses[k] == Response(None, None)
      {
        if k < |rt2.freeResponses| {
          assert rt3.freeResponses[k] == rt2.freeResponses[k];
        }
      }
    }
  }

  /** Start keeps the pool-safety invariant. */
  lemma StartValid<S, M, R>(rt: Runtime<S, M, R>, name: string, init: Result<S, Error>)
    requires Valid(rt)
    ensures Valid(Start(rt, name, init).0)
  {
    var rt2 := Start(rt, name, init).0;
    if name !in rt.registry && init.Ok? {
      forall n | n in rt2.registry
        ensures forall i | 0 <= i < |rt2.registry[n].mailbox| :: Pending(rt2, rt2.registry[n].mailbox[i])
      {
        if n != name {
          forall i | 0 <= i < |rt2.registry[n].mailbox|
            ensures Pending(rt2, rt2.registry[n].mailbox[i])
          {
            assert Pending(rt, rt.registry[n].mailbox[i]);
          }
        }
      }
    }
  }

  /** Stop keeps the pool-safety invariant, whichever way Terminate goes. */
  lemma StopValid<S, M, R>(rt: Runtime<S, M, R>, name: string, reason: string, b: Behavior<S, M, R>)
    requires Valid(rt)
    ensures Valid(Stop(rt, name, reason, b).0)
  {
    var rt2 := Stop(rt, name, reason, b).0;
    forall n | n in rt2.registry
      ensures forall i | 0 <= i < |rt2.registry[n].mailbox| :: Pending(rt2, rt2.registry[n].mailbox[i])
    {
      forall i | 0 <= i < |rt2.registry[n].mailbox|
        ensures Pending(rt2, rt2.registry[n].mailbox[i])
      {
        assert rt2.registry[n].mailbox[i] == rt.registry[n].mailbox[i];
        assert Pending(rt, rt.registry[n].mailbox[i]);
      }
    }
  }

  /* ---------------- properties of the protocol ---------------- */

  /** Start on a registered name ignores the Init outcome: Init is not run again. */
  lemma StartIgnoresInitWhenRegistered<S, M, R>(rt: Runtime<S, M, R>, name: string, i1: Result<S, Error>, i2: Result<S, Error>)
    requires Exists(rt, name)
    ensures Start(rt, name, i1) == Start(rt, name, i2)
    ensures Start(rt, name, i1).1 == Ok(rt.registry[name])
  {
  }

  /** Starting twice under one name returns the same server both times. */
  lemma StartTwiceSameServer<S, M, R>(rt: Runtime<S, M, R>, name: string, i1: Result<S, Error>, i2: Result<S, Error>)
    requires Start(rt, name, i1).1.Ok?
    ensures var (rt1, h1) := Start(rt, name, i1); Start(rt1, name, i2) == (rt1, h1)
  {
  }

  /** A successful Start makes the name exist; a failed one leaves it unregistered. */
  lemma StartRegistersIffInitOk<S, M, R>(rt: Runtime<S, M, R>, name: string, init: Result<S, Error>)
    requires !Exists(rt, name)
    ensures Exists(Start(rt, name, init).0, name) <==> init.Ok?
    ensures init.Err? ==> Start(rt, name, init) == (rt, Err(init.error))
  {
  }

  /** After a successful Stop the name is gone, and Call, ManualCall and Cast to it fail without enqueuing. */
  lemma StoppedNameRejectsMessages<S, M, R>(rt: Runtime<S, M, R>, name: string, reason: string, b: Behavior<S, M, R>, msg: M, manual: bool)
    requires Exists(rt, name)
    requires b.terminate(rt.registry[name].state, reason).Stops()
    ensures var rt1 := Stop(rt, name, reason, b).0;
      && !Exists(rt1, name)
      && CallEnqueue(rt1, name, msg, manual).Missing?
      && CastTo(rt1, name, msg) == (rt1, Some(CastTargetMissing(name)))
  {
  }

  /** After a Stop whose Terminate fails or panics the server still exists and still accepts messages. */
  lemma FailedStopKeepsServing<S, M, R>(rt: Runtime<S, M, R>, name: string, reason: string, b: Behavior<S, M, R>, msg: M)
    requires Exists(rt, name) && |rt.registry[name].mailbox| < MailboxCapacity
    requires !b.terminate(rt.registry[name].state, reason).Stops()
    ensures var rt1 := Stop(rt, name, reason, b).0;
      && Exists(rt1, name)
      && CastTo(rt1, name, msg).1.None?
      && CallEnqueue(rt1, name, msg, false).Enqueued?
  {
  }

  /** A stopped name can be started again, and Init then runs. */
  lemma RestartAfterStopRunsInit<S, M, R>(rt: Runtime<S, M, R>, name: string, reason: string, b: Behavior<S, M, R>, s0: S)
    requires Exists(rt, name)
    requires b.terminate(rt.registry[name].state, reason).Stops()
    ensures var rt1 := Stop(rt, name, reason, b).0;
      Start(rt1, name, Ok(s0)).1 == Ok(Server(s0, []))
      && Start(rt1, name, Err(App("init"))).1 == Err(App("init"))
  {
  }

  /** A CALL dispatch answered by HandleCall leaves exactly that answer in the caller's channel. */
  lemma CallDispatchReplies<S, M, R>(rt: Runtime<S, M, R>, name: string, b: Behavior<S, M, R>)
    requires Valid(rt) && Exists(rt, name) && |rt.registry[name].mailbox| > 0
    requires rt.registry[name].mailbox[0].category == Call
    requires b.handleCall(rt.registry[name].state, rt.registry[name].mailbox[0]).Answered?
    ensures var req := rt.registry[name].mailbox[0];
      var out := b.handleCall(rt.registry[name].state, req);
      var r := Dispatch(rt, name, b);
      && r.Stepped?
      && r.rt.replies == rt.replies[req.slot := Response(out.result, out.err)]
      && r.rt.freeRequests == rt.freeRequests
  {
    assert Pending(rt, rt.registry[name].mailbox[0]);
  }

  /** A CAST or MCall dispatch sends no reply; only a completed CAST recycles its envelope. */
  lemma NonCallDispatchSendsNothing<S, M, R>(rt: Runtime<S, M, R>, name: string, b: Behavior<S, M, R>)
    requires Exists(rt, name) && |rt.registry[name].mailbox| > 0
    requires rt.registry[name].mailbox[0].category != Call
    ensures var req := rt.registry[name].mailbox[0];
      var r := Dispatch(rt, name, b);
      && r.Stepped?
      && r.rt.replies == rt.replies
      && r.rt.freeRequests == (if req.category == Cast && b.handleCast(rt.registry[name].state, req).CastDone?
                               then rt.freeRequests + [Request(Call, None, req.slot)]
                               else rt.freeRequests)
  {
  }

  /** A timed-out call recycles nothing, and the late reply still fits into the abandoned channel. */
  lemma TimeoutRecyclesNothing<S, M, R>(rt: Runtime<S, M, R>, slot: nat)
    ensures var r := AwaitReply(rt, slot, true);
      && r.Returned? && r.err == Some(CallTimeout)
      && r.rt.freeRequests == rt.freeRequests && r.rt.freeResponses == rt.freeResponses
      && r.rt.replies == rt.replies
  {
  }

  /** Runs the loop's mailbox case up to `n` times, collecting the handled requests in order. */
  function DispatchN<S, M, R>(rt: Runtime<S, M, R>, name: string, b: Behavior<S, M, R>, n: nat)
    : (r: (Runtime<S, M, R>, seq<Request<M>>))
    ensures |r.1| <= n
    decreases n
  {
    if n == 0 then (rt, [])
    else match Dispatch(rt, name, b)
      case Stepped(rt1, req) =>
        var (rt2, rest) := DispatchN(rt1, name, b, n - 1);
        (rt2, [req] + rest)
      case _ => (rt, [])
  }

  /**
   * Messages are handled one at a time in enqueue order: n dispatches on a
   * valid runtime handle exactly the first n envelopes of the mailbox.
   */
  lemma {:induction false} DispatchInOrder<S, M, R>(rt: Runtime<S, M, R>, name: string, b: Behavior<S, M, R>, n: nat)
    requires Valid(rt) && Exists(rt, name) && n <= |rt.registry[name].mailbox|
    ensures DispatchN(rt, name, b, n).1 == rt.registry[name].mailbox[..n]
    decreases n
  {
    if n > 0 {
      DispatchNeverStuck(rt, name, b);
      DispatchValid(rt, name, b);
      var r := Dispatch(rt, name, b);
      var mb := rt.registry[name].mailbox;
      DispatchInOrder(r.rt, name, b, n - 1);
      assert DispatchN(rt, name, b, n).1 == [mb[0]] + DispatchN(r.rt, name, b, n - 1).1;
      HeadThenPrefix(mb, r.rt.registry[name].mailbox, n);
    }
  }

  /** The head of a sequence followed by the first n-1 elements of its tail is its first n elements. */
  lemma HeadThenPrefix<T>(xs: seq<T>, tail: seq<T>, n: nat)
    requires 0 < n <= |xs| && tail == xs[1..]
    ensures [xs[0]] + tail[..n - 1] == xs[..n]
  {
  }
}

=== FILE: model.dfy ===
/**
 * The in-memory record tables of model/model.go, model/container.go,
 * model/agent.go and model/loader.go.
 *
 * A table keeps its records and, per uuid, a dirty status saying what the
 * next write-back must do. `FlowState` is the transition table of that status;
 * `Ledger` is an independent reference: what the database holds, what memory
 * holds and whether memory was touched since the last write-back. The table is
 * proved to track the ledger operation by operation.
 */
module RecordModel {
  import opened Wrappers

  /** MT_EMPTY, MT_ORIGIN, MT_CREATE, MT_UPDATE, MT_DELETE. */
  datatype MState = Empty | Origin | Created | Updated | Deleted {
    function Code(): (c: nat)
      ensures c <= 4
    {
      match this
      case Empty => 0
      case Origin => 1
      case Created => 2
      case Updated => 3
      case Deleted => 4
    }
  }

  /** flowStateErr: the transition is not in the table (updateState panics on it). */
  datatype FlowError = InvalidNext(current: MState, next: MState)

  /** flowState: the closed transition table. */
  function FlowState(current: MState, next: MState): (r: Result<MState, FlowError>)
    ensures r.Err? ==> r.error == InvalidNext(current, next)
    ensures r.Ok? ==> r.value != Origin && next != Empty && next != Origin
  {
    match current
    case Empty =>
      (match next
       case Created => Ok(Created)
       case Updated => Ok(Created)
       case _ => Err(InvalidNext(current, next)))
    case Origin =>
      (match next
       case Created => Ok(Updated)
       case Updated => Ok(next)
       case Deleted => Ok(next)
       case _ => Err(InvalidNext(current, next)))
    case Created =>
      (match next
       case Created => Ok(Created)
       case Updated => Ok(Created)
       case Deleted => Ok(Empty)
       case _ => Err(InvalidNext(current, next)))
    case Updated =>
      (match next
       case Created => Ok(Updated)
       case Updated => Ok(next)
       case Deleted => Ok(next)
       case _ => Err(InvalidNext(current, next)))
    case Deleted =>
      (match next
       case Created => Ok(Updated)
       case _ => Err(InvalidNext(current, next)))
  }

  /* ---------------- the reference ledger ---------------- */

  /** What one uuid looks like from outside: stored in the database, held in memory, touched since the last write-back. */
  datatype Presence = Presence(inDb: bool, inMem: bool, dirty: bool)

  /** The status a table should report for a uuid with this presence. */
  function Classify(p: Presence): MState {
    if !p.inDb then (if p.inMem then Created else Empty)
    else if !p.inMem then Deleted
    else if p.dirty then Updated
    else Origin
  }

  /** What a write does to a presence: Create and Update put the record, Delete removes it. */
  function Touch(p: Presence, put: bool): Presence {
    Presence(p.inDb, put, true)
  }

  /**
   * The transition table agrees with the reference on every presence: it
   * refuses exactly a Delete of something memory does not hold and an Update
   * of a record deleted since the last write-back, plus the two targets that
   * are not operations; every other transition lands on the status the
   * reference assigns after the write.
   */
  lemma FlowStateRefinesLedger(p: Presence, next: MState)
    ensures FlowState(Classify(p), next).Err? <==>
      || next == Empty || next == Origin
      || (next == Deleted && !p.inMem)
      || (next == Updated && Classify(p) == Deleted)
    ensures FlowState(Classify(p), next).Ok? ==>
      FlowState(Classify(p), next).value == Classify(Touch(p, next != Deleted))
  {
  }

  /* ---------------- a table ---------------- */

  datatype Model<K, V> = Model(name: string, status: map<K, MState>, recs: map<K, V>)

  /** newModel: a table with no statuses and no records. */
  function NewModel<K, V>(name: string): (m: Model<K, V>)
    ensures m.name == name && m.status == map[] && m.recs == map[]
  {
    Model(name, map[], map[])
  }

  /** status: the stored status, else ORIGIN for a held record, else EMPTY. */
  function Status<K, V>(m: Model<K, V>, uuid: K): (s: MState)
    ensures uuid in m.status ==> s == m.status[uuid]
    ensures uuid !in m.status ==> (s == Origin <==> uuid in m.recs) && (s == Empty <==> uuid !in m.recs)
  {
    if uuid in m.status then m.status[uuid]
    else if uuid in m.recs then Origin
    else Empty
  }

  /** Stored statuses are CREATE, UPDATE or DELETE, and DELETE exactly for uuids memory no longer holds. */
  ghost predicate Consistent<K, V>(m: Model<K, V>) {
    forall u | u in m.status ::
      && (m.status[u] == Created || m.status[u] == Updated || m.status[u] == Deleted)
      && (m.status[u] == Deleted <==> u !in m.recs)
  }

  /**
   * updateState: move the uuid's status through the table; EMPTY drops the
   * entry, any other target is stored; an invalid transition is the panic.
   */
  function UpdateState<K, V>(m: Model<K, V>, uuid: K, next: MState): (r: Result<Model<K, V>, FlowError>)
    ensures r.Err? <==> FlowState(Status(m, uuid), next).Err?
    ensures r.Ok? ==>
      && r.value.recs == m.recs && r.value.name == m.name
      && (uuid in r.value.status <==> FlowState(Status(m, uuid), next).value != Empty)
      && (uuid in r.value.status ==> r.value.status[uuid] == FlowState(Status(m, uuid), next).value)
      && r.value.status - {uuid} == m.status - {uuid}
  {
    match FlowState(Status(m, uuid), next)
    case Err(e) => Err(e)
    case Ok(s) =>
      if s == Empty then Ok(m.(status := m.status - {uuid}))
      else Ok(m.(status := m.status[uuid := s]))
  }

  /** Load: store the record, statuses untouched. */
  function Load<K, V>(m: Model<K, V>, uuid: K, rec: V): (r: Model<K, V>)
    ensures r.status == m.status && r.recs == m.recs[uuid := rec] && r.name == m.name
  {
    m.(recs := m.recs[uuid := rec])
  }

  function Create<K, V>(m: Model<K, V>, uuid: K, rec: V): (r: Result<Model<K, V>, FlowError>)
    ensures r.Err? <==> FlowState(Status(m, uuid), Created).Err?
    ensures r.Ok? ==> r.value.recs == m.recs[uuid := rec]
  {
    match UpdateState(m, uuid, Created)
    case Err(e) => Err(e)
    case Ok(m1) => Ok(m1.(recs := m1.recs[uuid := rec]))
  }

  function Update<K, V>(m: Model<K, V>, uuid: K, rec: V): (r: Result<Model<K, V>, FlowError>)
    ensures r.Err? <==> FlowState(Status(m, uuid), Updated).Err?
    ensures r.Ok? ==> r.value.recs == m.recs[uuid := rec]
  {
    match UpdateState(m, uuid, Updated)
    case Err(e) => Err(e)
    case Ok(m1) => Ok(m1.(recs := m1.recs[uuid := rec]))
  }

  /** Delete: only a held record moves the status; anything else is a no-op. */
  function Delete<K, V>(m: Model<K, V>, uuid: K): (r: Result<Model<K, V>, FlowError>)
    ensures uuid !in m.recs ==> r == Ok(m)
    ensures r.Ok? ==> r.value.recs == m.recs - {uuid}
  {
    if uuid in m.recs then
      match UpdateState(m, uuid, Deleted)
      case Err(e) => Err(e)
      case Ok(m1) => Ok(m1.(recs := m1.recs - {uuid}))
    else Ok(m)
  }

  /** Find: the record, or nil. */
  function Find<K, V>(m: Model<K, V>, uuid: K): (r: Option<V>)
    ensures r.Some? <==> uuid in m.recs
    ensures r.Some? ==> r.value == m.recs[uuid]
  {
    if uuid in m.recs then Some(m.recs[uuid]) else None
  }

  /** CleanStatus: forget every status, keep every record. */
  function CleanStatus<K, V>(m: Model<K, V>): (r: Model<K, V>)
    ensures r.status == map[] && r.recs == m.recs && r.name == m.name
  {
    m.(status := map[])
  }

  /* ---------------- invariant and operation properties ---------------- */

  /** Every operation that succeeds keeps the stored statuses consistent with the records. */
  lemma OperationsKeepConsistent<K, V>(m: Model<K, V>, uuid: K, rec: V)
    requires Consistent(m)
    ensures Create(m, uuid, rec).Ok? && Consistent(Create(m, uuid, rec).value)
    ensures Update(m, uuid, rec).Ok? ==> Consistent(Update(m, uuid, rec).value)
    ensures Delete(m, uuid).Ok? && Consistent(Delete(m, uuid).value)
    ensures Consistent(CleanStatus(m))
    ensures uuid !in m.status ==> Consistent(Load(m, uuid, rec))
  {
    var c := Create(m, uuid, rec).value;
    forall u | u in c.status
      ensures c.status[u] == Created || c.status[u] == Updated || c.status[u] == Deleted
      ensures c.status[u] == Deleted <==> u !in c.recs
    {
      if u != uuid {
        assert c.status[u] == m.status[u];
      }
    }
    if Update(m, uuid, rec).Ok? {
      var up := Update(m, uuid, rec).value;
      forall u | u in up.status
        ensures up.status[u] == Created || up.status[u] == Updated || up.status[u] == Deleted
        ensures up.status[u] == Deleted <==> u !in up.recs
      {
        if u != uuid {
          assert up.status[u] == m.status[u];
        }
      }
    }
    if uuid in m.recs {
      var d := Delete(m, uuid).value;
      forall u | u in d.status
        ensures d.status[u] == Created || d.status[u] == Updated || d.status[u] == Deleted
        ensures d.status[u] == Deleted <==> u !in d.recs
      {
        if u != uuid {
          assert d.status[u] == m.status[u];
        }
      }
    }
  }

  /** On a consistent table the only panic left is an Update of a record deleted since the last write-back. */
  lemma OnlyUpdateAfterDeleteFails<K, V>(m: Model<K, V>, uuid: K, rec: V)
    requires Consistent(m)
    ensures Create(m, uuid, rec).Ok? && Delete(m, uuid).Ok?
    ensures Update(m, uuid, rec).Err? <==> Status(m, uuid) == Deleted
  {
  }

  /**
   * Delete followed by Update of a held record panics exactly when the
   * database already has the record; a record created since the last
   * write-back is simply created again.
   */
  lemma UpdateAfterDeletePanics<K, V>(m: Model<K, V>, uuid: K, rec: V)
    requires Consistent(m) && uuid in m.recs
    ensures Delete(m, uuid).Ok?
    ensures Update(Delete(m, uuid).value, uuid, rec).Err? <==> Status(m, uuid) != Created
  {
    var d := Delete(m, uuid).value;
    if Status(m, uuid) != Created {
      assert Status(d, uuid) == Deleted;
    } else {
      assert Status(d, uuid) == Empty;
    }
  }

  /** Create followed by Delete of an absent uuid gives back the table it started from. */
  lemma CreateThenDeleteAbsent<K, V>(m: Model<K, V>, uuid: K, rec: V)
    requires Consistent(m) && uuid !in m.recs
    ensures Create(m, uuid, rec).Ok?
    ensures Delete(Create(m, uuid, rec).value, uuid) == Ok(m)
  {
    var c := Create(m, uuid, rec).value;
    var d := Delete(c, uuid).value;
    assert d.recs == m.recs;
    if uuid in m.status {
      assert m.status[uuid] == Deleted;
      assert d.status == m.status;
    } else {
      assert d.status == m.status;
    }
  }

  /** Find sees what Create, Update, Load and Delete did. */
  lemma FindAfterWrites<K, V>(m: Model<K, V>, uuid: K, rec: V)
    ensures Create(m, uuid, rec).Ok? ==> Find(Create(m, uuid, rec).value, uuid) == Some(rec)
    ensures Update(m, uuid, rec).Ok? ==> Find(Update(m, uuid, rec).value, uuid) == Some(rec)
    ensures Delete(m, uuid).Ok? ==> Find(Delete(m, uuid).value, uuid) == None
    ensures Find(Load(m, uuid, rec), uuid) == Some(rec)
  {
  }

  /* ---------------- the table tracks the ledger ---------------- */

  /** The reference: database keys, records in memory, uuids touched since the last write-back. */
  datatype Ledger<K, V> = Ledger(db: set<K>, recs: map<K, V>, dirty: set<K>)

  function PresenceOf<K, V>(l: Ledger<K, V>, u: K): Presence {
    Presence(u in l.db, u in l.recs, u in l.dirty)
  }

  /** The uuids either side knows anything about; every other uuid is EMPTY on both. */
  function Known<K, V>(m: Model<K, V>, l: Ledger<K, V>): set<K> {
    m.status.Keys + m.recs.Keys + l.db + l.dirty
  }

  ghost predicate Tracks<K, V>(m: Model<K, V>, l: Ledger<K, V>) {
    m.recs == l.recs && forall u | u in Known(m, l) :: Status(m, u) == Classify(PresenceOf(l, u))
  }

  /** Tracking speaks of every uuid, known or not. */
  lemma TracksEvery<K, V>(m: Model<K, V>, l: Ledger<K, V>, u: K)
    requires Tracks(m, l)
    ensures Status(m, u) == Classify(PresenceOf(l, u))
  {
    if u !in Known(m, l) {
      assert u !in l.recs;
    }
  }

  function LedgerPut<K, V>(l: Ledger<K, V>, u: K, rec: V): Ledger<K, V> {
    Ledger(l.db, l.recs[u := rec], l.dirty + {u})
  }

  function LedgerRemove<K, V>(l: Ledger<K, V>, u: K): Ledger<K, V> {
    if u in l.recs then Ledger(l.db, l.recs - {u}, l.dirty + {u}) else l
  }

  /** A write-back: the database now holds exactly what memory holds, and nothing is dirty. */
  function LedgerFlush<K, V>(l: Ledger<K, V>): Ledger<K, V> {
    Ledger(l.recs.Keys, l.recs, {})
  }

  /** Loading a record read from the database. */
  function LedgerLoad<K, V>(l: Ledger<K, V>, u: K, rec: V): Ledger<K, V> {
    Ledger(l.db + {u}, l.recs[u := rec], l.dirty - {u})
  }

  /** Create always succeeds on a tracking table and keeps tracking. */
  lemma CreateTracks<K, V>(m: Model<K, V>, l: Ledger<K, V>, uuid: K, rec: V)
    requires Tracks(m, l)
    ensures Create(m, uuid, rec).Ok?
    ensures Tracks(Create(m, uuid, rec).value, LedgerPut(l, uuid, rec))
  {
    var c := Create(m, uuid, rec).value;
    var l' := LedgerPut(l, uuid, rec);
    forall u | u in Known(c, l')
      ensures Status(c, u) == Classify(PresenceOf(l', u))
    {
      if u == uuid {
        FlowStateRefinesLedger(PresenceOf(l, u), Created);
      } else {
        TracksEvery(m, l, u);
      }
    }
  }

  /** Update on a tracking table fails exactly on a pending delete, and otherwise keeps tracking. */
  lemma UpdateTracks<K, V>(m: Model<K, V>, l: Ledger<K, V>, uuid: K, rec: V)
    requires Tracks(m, l)
    ensures Update(m, uuid, rec).Err? <==> uuid in l.db && uuid !in l.recs
    ensures Update(m, uuid, rec).Ok? ==> Tracks(Update(m, uuid, rec).value, LedgerPut(l, uuid, rec))
  {
    assert Status(m, uuid) == Classify(PresenceOf(l, uuid));
    FlowStateRefinesLedger(PresenceOf(l, uuid), Updated);
    if Update(m, uuid, rec).Ok? {
      var c := Update(m, uuid, rec).value;
      var l' := LedgerPut(l, uuid, rec);
      forall u | u in Known(c, l')
        ensures Status(c, u) == Classify(PresenceOf(l', u))
      {
        if u != uuid {
          TracksEvery(m, l, u);
        }
      }
    }
  }

  /** Delete always succeeds on a tracking table and keeps tracking. */
  lemma DeleteTracks<K, V>(m: Model<K, V>, l: Ledger<K, V>, uuid: K)
    requires Tracks(m, l)
    ensures Delete(m, uuid).Ok?
    ensures Tracks(Delete(m, uuid).value, LedgerRemove(l, uuid))
  {
    if uuid in m.recs {
      var c := Delete(m, uuid).value;
      var l' := LedgerRemove(l, uuid);
      forall u | u in Known(c, l')
        ensures Status(c, u) == Classify(PresenceOf(l', u))
      {
        if u == uuid {
          FlowStateRefinesLedger(PresenceOf(l, u), Deleted);
        } else {
          TracksEvery(m, l, u);
        }
      }
    }
  }

  /** Loading a record for a uuid without a status keeps tracking. */
  lemma LoadTracks<K, V>(m: Model<K, V>, l: Ledger<K, V>, uuid: K, rec: V)
    requires Tracks(m, l) && uuid !in m.status
    ensures Tracks(Load(m, uuid, rec), LedgerLoad(l, uuid, rec))
  {
    var c := Load(m, uuid, rec);
    var l' := LedgerLoad(l, uuid, rec);
    forall u | u in Known(c, l')
      ensures Status(c, u) == Classify(PresenceOf(l', u))
    {
      TracksEvery(m, l, u);
    }
  }

  /** After a write-back, CleanStatus tracks the flushed ledger. */
  lemma CleanTracks<K, V>(m: Model<K, V>, l: Ledger<K, V>)
    requires m.recs == l.recs
    ensures Tracks(CleanStatus(m), LedgerFlush(l))
  {
  }

  /** A table tracking a ledger is consistent. */
  lemma TrackingIsConsistent<K, V>(m: Model<K, V>, l: Ledger<K, V>)
    requires Tracks(m, l)
    requires forall u | u in m.status :: m.status[u] != Empty && m.status[u] != Origin
    ensures Consistent(m)
  {
    forall u | u in m.status
      ensures m.status[u] == Deleted <==> u !in m.recs
    {
      TracksEvery(m, l, u);
    }
  }

  /* ---------------- container ---------------- */

  /** Models: the tables of one context, by table name. */
  datatype Container<K, V> = Container(models: map<string, Model<K, V>>)

  function NewContainer<K, V>(): (c: Container<K, V>)
    ensures c.models == map[]
  {
    Container(map[])
  }

  /** GetModel: the table, or nil for an unknown name. */
  function GetModel<K, V>(c: Container<K, V>, table: string): (r: Option<Model<K, V>>)
    ensures r.Some? <==> table in c.models
    ensures r.Some? ==> r.value == c.models[table]
  {
    if table in c.models then Some(c.models[table]) else None
  }

  function AddModel<K, V>(c: Container<K, V>, table: string, m: Model<K, V>): (r: Container<K, V>)
    ensures r.models.Keys == c.models.Keys + {table}
    ensures GetModel(r, table) == Some(m)
    ensures forall t | t != table :: GetModel(r, t) == GetModel(c, t)
  {
    Container(c.models[table := m])
  }

  function GetModels<K, V>(c: Container<K, V>): (r: map<string, Model<K, V>>)
    ensures forall t :: (t in r <==> GetModel(c, t).Some?)
    ensures forall t | t in r :: GetModel(c, t) == Some(r[t])
  {
    c.models
  }

  /** A fresh container knows no table. */
  lemma NewContainerEmpty<K, V>(t: string)
    ensures GetModel(NewContainer<K, V>(), t) == None
  {
  }

  /* ---------------- agent ---------------- */

  /** FilterAfterLoad: the only filter slot. */
  const FilterAfterLoad: int := 0

  /**
   * The loader of one table: its name, how a record yields its uuid
   * (Loader.Uuid) and the filters, each of which may rewrite the context.
   */
  datatype Agent<!K, !V> = Agent(
    tableName: string,
    uuidOf: V -> K,
    filters: map<int, (Container<K, V>, V) -> Container<K, V>>)

  /** Dereferencing the nil table of a context that does not hold the agent's table. */
  datatype AgentError = NoTable(table: string) | Flow(cause: FlowError)

  /** NewAgent: empty filters, and the agent is appended to the registered loaders (RegistLoader). */
  function NewAgent<K, V>(registered: seq<Agent<K, V>>, table: string, uuidOf: V -> K)
    : (r: (Agent<K, V>, seq<Agent<K, V>>))
    ensures r.0.tableName == table && r.0.uuidOf == uuidOf && r.0.filters == map[]
    ensures r.1 == registered + [r.0]
  {
    var a := Agent(table, uuidOf, map[]);
    (a, registered + [a])
  }

  /** Apply a table operation to the agent's table of the context, storing the new table back. */
  function WithTable<K, V>(a: Agent<K, V>, ctx: Container<K, V>, op: Model<K, V> -> Result<Model<K, V>, FlowError>)
    : (r: Result<Container<K, V>, AgentError>)
    ensures a.tableName !in ctx.models ==> r == Err(NoTable(a.tableName))
    ensures a.tableName in ctx.models && op(ctx.models[a.tableName]).Err? ==>
      r == Err(Flow(op(ctx.models[a.tableName]).error))
    ensures a.tableName in ctx.models && op(ctx.models[a.tableName]).Ok? ==>
      r == Ok(AddModel(ctx, a.tableName, op(ctx.models[a.tableName]).value))
  {
    match GetModel(ctx, a.tableName)
    case None => Err(NoTable(a.tableName))
    case Some(m) =>
      match op(m)
      case Err(e) => Err(Flow(e))
      case Ok(m') => Ok(AddModel(ctx, a.tableName, m'))
  }

  /** Agent.Load: store the record under its uuid, then run the after-load filter if one is set. */
  function AgentLoad<K, V>(a: Agent<K, V>, ctx: Container<K, V>, rec: V): (r: Result<Container<K, V>, AgentError>)
    ensures a.tableName !in ctx.models <==> r.Err?
    ensures r.Ok? ==>
      var stored := AddModel(ctx, a.tableName, Load(ctx.models[a.tableName], a.uuidOf(rec), rec));
      r.value == if FilterAfterLoad in a.filters then a.filters[FilterAfterLoad](stored, rec) else stored
  {
    match WithTable(a, ctx, m => Ok(Load(m, a.uuidOf(rec), rec)))
    case Err(e) => Err(e)
    case Ok(stored) =>
      if FilterAfterLoad in a.filters then Ok(a.filters[FilterAfterLoad](stored, rec)) else Ok(stored)
  }

  function AgentCreate<K, V>(a: Agent<K, V>, ctx: Container<K, V>, rec: V): (r: Result<Container<K, V>, AgentError>)
    ensures r == WithTable(a, ctx, m => Create(m, a.uuidOf(rec), rec))
    ensures r.Ok? ==> Find(r.value.models[a.tableName], a.uuidOf(rec)) == Some(rec)
  {
    WithTable(a, ctx, m => Create(m, a.uuidOf(rec), rec))
  }

  function AgentUpdate<K, V>(a: Agent<K, V>, ctx: Container<K, V>, rec: V): (r: Result<Container<K, V>, AgentError>)
    ensures r == WithTable(a, ctx, m => Update(m, a.uuidOf(rec), rec))
    ensures r.Ok? ==> Find(r.value.models[a.tableName], a.uuidOf(rec)) == Some(rec)
  {
    WithTable(a, ctx, m => Update(m, a.uuidOf(rec), rec))
  }

  function AgentDelete<K, V>(a: Agent<K, V>, ctx: Container<K, V>, uuid: K): (r: Result<Container<K, V>, AgentError>)
    ensures r == WithTable(a, ctx, m => Delete(m, uuid))
    ensures r.Ok? ==> Find(r.value.models[a.tableName], uuid) == None
  {
    WithTable(a, ctx, m => Delete(m, uuid))
  }

  function AgentFind<K, V>(a: Agent<K, V>, ctx: Container<K, V>, uuid: K): (r: Result<Option<V>, AgentError>)
    ensures a.tableName !in ctx.models <==> r.Err?
    ensures r.Ok? ==> r.value == Find(ctx.models[a.tableName], uuid)
  {
    match GetModel(ctx, a.tableName)
    case None => Err(NoTable(a.tableName))
    case Some(m) => Ok(Find(m, uuid))
  }

  /** The agent's writes touch only its own table. */
  lemma AgentWritesStayInTable<K, V>(a: Agent<K, V>, ctx: Container<K, V>, rec: V, t: string)
    requires t != a.tableName
    ensures AgentCreate(a, ctx, rec).Ok? ==> GetModel(AgentCreate(a, ctx, rec).value, t) == GetModel(ctx, t)
    ensures AgentUpdate(a, ctx, rec).Ok? ==> GetModel(AgentUpdate(a, ctx, rec).value, t) == GetModel(ctx, t)
    ensures AgentDelete(a, ctx, a.uuidOf(rec)).Ok? ==>
      GetModel(AgentDelete(a, ctx, a.uuidOf(rec)).value, t) == GetModel(ctx, t)
  {
  }

  /** Without a filter, loading then finding through the agent returns the record. */
  lemma AgentLoadThenFind<K, V>(a: Agent<K, V>, ctx: Container<K, V>, rec: V)
    requires a.tableName in ctx.models && FilterAfterLoad !in a.filters
    ensures AgentLoad(a, ctx, rec).Ok?
    ensures AgentFind(a, AgentLoad(a, ctx, rec).value, a.uuidOf(rec)) == Ok(Some(rec))
  {
  }
}

=== FILE: pbmsg.dfy ===
/**
 * The protobuf registration generator of pbmsg/tool.go: it scans .proto
 * text for message declarations (`message Name {` on a line of its own)
 * and writes a Go file whose init function registers a constructor per
 * message, in order.
 *
 * The regular expression `(?m)^message[\s]+[a-zA-Z0-9_]+[\s]+{$` is written
 * out as a matcher; reading the files and writing the output are left to
 * the caller.
 */
module PbMsg {
  import opened Wrappers
  import opened Strs

  const Keyword: string := "message"

  /** `\s` in Go's regexp syntax: tab, newline, form feed, carriage return, space. */
  predicate IsWs(ch: char) {
    ch == '\t' || ch == '\n' || ch as int == 12 || ch == '\r' || ch == ' '
  }

  /** `[a-zA-Z0-9_]` */
  predicate IsIdent(ch: char) {
    ('a' <= ch <= 'z') || ('A' <= ch <= 'Z') || ('0' <= ch <= '9') || ch == '_'
  }

  /** The end of the longest run of `p`-characters of `t` starting at i. */
  function Span(t: string, i: nat, p: char -> bool): (j: nat)
    requires i <= |t|
    ensures i <= j <= |t|
    ensures forall k | i <= k < j :: p(t[k])
    ensures j < |t| ==> !p(t[j])
    decreases |t| - i
  {
    if i < |t| && p(t[i]) then Span(t, i + 1, p) else i
  }

  /** A run of `p`-characters from i to j that cannot be extended is the span from i. */
  lemma {:induction false} SpanRun(t: string, i: nat, j: nat, p: char -> bool)
    requires i <= j <= |t|
    requires forall k | i <= k < j :: p(t[k])
    requires j < |t| ==> !p(t[j])
    ensures Span(t, i, p) == j
    decreases j - i
  {
    if i < j {
      SpanRun(t, i + 1, j, p);
    }
  }

  /** A span that ends before n is the same in the first n characters. */
  lemma SpanPrefix(t: string, n: nat, i: nat, p: char -> bool)
    requires i <= |t| && Span(t, i, p) < n <= |t|
    ensures Span(t[..n], i, p) == Span(t, i, p)
  {
    var j := Span(t, i, p);
    SpanRun(t[..n], i, j, p);
  }

  /** The positions a match at the start of t is made of: after the keyword's whitespace, the name, the trailing whitespace. */
  datatype Shape = Shape(nameStart: nat, nameEnd: nat, brace: nat)

  function ShapeOf(t: string): (s: Shape)
    requires HasPrefix(t, Keyword)
  {
    var b := Span(t, |Keyword|, IsWs);
    var c := Span(t, b, IsIdent);
    Shape(b, c, Span(t, c, IsWs))
  }

  /**
   * The length of the match of `message\s+[a-zA-Z0-9_]+\s+{$` at the start
   * of t, if there is one. The character classes do not overlap, so the
   * greedy runs decide the match; `$` is the end of the text or a newline.
   */
  function MatchLen(t: string): (r: Option<nat>)
    ensures r.Some? ==> 0 < r.value <= |t|
  {
    if !HasPrefix(t, Keyword) then None
    else
      var s := ShapeOf(t);
      if s.nameStart == |Keyword| || s.nameEnd == s.nameStart || s.brace == s.nameEnd then None
      else if s.brace < |t| && t[s.brace] == '{' && (s.brace + 1 == |t| || t[s.brace + 1] == '\n') then Some(s.brace + 1)
      else None
  }

  /** What a match is made of: the keyword, whitespace, a name, whitespace, the brace, then the end of the line. */
  lemma MatchShape(t: string)
    requires MatchLen(t).Some?
    ensures HasPrefix(t, Keyword)
    ensures |Keyword| < ShapeOf(t).nameStart < ShapeOf(t).nameEnd < ShapeOf(t).brace
    ensures MatchLen(t).value == ShapeOf(t).brace + 1 && t[ShapeOf(t).brace] == '{'
    ensures MatchLen(t).value == |t| || t[MatchLen(t).value] == '\n'
  {
  }

  /** A match, cut out of its text, still matches as a whole. */
  lemma MatchPrefix(t: string, n: nat)
    requires MatchLen(t) == Some(n)
    ensures MatchLen(t[..n]) == Some(n) && ShapeOf(t[..n]) == ShapeOf(t)
  {
    MatchShape(t);
    var s := ShapeOf(t);
    assert t[..n][..|Keyword|] == t[..|Keyword|];
    SpanPrefix(t, n, |Keyword|, IsWs);
    SpanPrefix(t, n, s.nameStart, IsIdent);
    SpanPrefix(t, n, s.nameEnd, IsWs);
  }

  /**
   * regexp FindAllString: the matches in t, leftmost first, each search
   * resuming after the previous match. `lineStart` says whether `^` (under
   * (?m): the start of the text or just after a newline) holds where t
   * begins.
   */
  function FindAll(t: string, lineStart: bool): (ms: seq<string>)
    ensures forall k | 0 <= k < |ms| :: MatchLen(ms[k]) == Some(|ms[k]|)
    decreases |t|
  {
    if |t| == 0 then []
    else if lineStart && MatchLen(t).Some? then
      var n := MatchLen(t).value;
      MatchPrefix(t, n);
      [t[..n]] + FindAll(t[n..], t[n - 1] == '\n')
    else FindAll(t[1..], t[0] == '\n')
  }

  /** `^` under (?m) at position i of t: the start of the text (when `lineStart` says so) or just after a newline. */
  predicate LineStartAt(t: string, lineStart: bool, i: nat)
    requires i <= |t|
  {
    if i == 0 then lineStart else t[i - 1] == '\n'
  }

  /** Each position moved on by d. */
  function Shift(ps: seq<nat>, d: nat): (qs: seq<nat>)
    ensures |qs| == |ps| && forall k | 0 <= k < |ps| :: qs[k] == ps[k] + d
  {
    seq(|ps|, k requires 0 <= k < |ps| => ps[k] + d)
  }

  /*
   * Where FindAll finds its pieces. The search is stated for any matcher f
   * that, where it matches, consumes at least one and at most all of the
   * characters; FindAll is the search with f := MatchLen.
   */

  /** f never matches the empty string and never reaches past the end of its text. */
  ghost predicate Advances(f: string -> Option<nat>) {
    forall s: string :: f(s).Some? ==> 0 < f(s).value <= |s|
  }

  lemma MatchLenAdvances()
    ensures Advances(MatchLen)
  {
    forall s: string ensures MatchLen(s).Some? ==> 0 < MatchLen(s).value <= |s| {
    }
  }

  /** FindAll's search with the matcher f. */
  ghost function Search(f: string -> Option<nat>, t: string, lineStart: bool): seq<string>
    requires Advances(f)
    decreases |t|
  {
    if |t| == 0 then []
    else if lineStart && f(t).Some? then
      var n := f(t).value;
      [t[..n]] + Search(f, t[n..], t[n - 1] == '\n')
    else Search(f, t[1..], t[0] == '\n')
  }

  /** Where in t each piece Search returns begins. */
  ghost function SearchStarts(f: string -> Option<nat>, t: string, lineStart: bool): seq<nat>
    requires Advances(f)
    decreases |t|
  {
    if |t| == 0 then []
    else if lineStart && f(t).Some? then
      var n := f(t).value;
      [0] + Shift(SearchStarts(f, t[n..], t[n - 1] == '\n'), n)
    else Shift(SearchStarts(f, t[1..], t[0] == '\n'), 1)
  }

  /** Where in t each piece FindAll returns begins. */
  ghost function Starts(t: string, lineStart: bool): seq<nat> {
    MatchLenAdvances();
    SearchStarts(MatchLen, t, lineStart)
  }

  /** The piece m lies at position p of t, a line start where f matches exactly m. */
  ghost predicate LocatedAt(f: string -> Option<nat>, t: string, lineStart: bool, m: string, p: nat) {
    && p + |m| <= |t| && LineStartAt(t, lineStart, p)
    && f(t[p..]) == Some(|m|) && m == t[p..p + |m|]
  }

  /** Each piece lies at its position, and each begins after the previous one ends. */
  ghost predicate Located(f: string -> Option<nat>, t: string, lineStart: bool, ms: seq<string>, ps: seq<nat>) {
    && |ps| == |ms|
    && (forall k | 0 <= k < |ms| :: LocatedAt(f, t, lineStart, ms[k], ps[k]))
    && (forall k | 0 <= k < |ms| - 1 :: ps[k] + |ms[k]| <= ps[k + 1])
  }

  /** No piece covers position i past its own start. */
  ghost predicate Uncovered(ms: seq<string>, ps: seq<nat>, i: nat) {
    forall k | 0 <= k < |ms| && k < |ps| :: !(ps[k] < i < ps[k] + |ms[k]|)
  }

  /** FindAll is the search with MatchLen. */
  lemma {:induction false} FindAllSearches(t: string, lineStart: bool)
    ensures Advances(MatchLen) && FindAll(t, lineStart) == Search(MatchLen, t, lineStart)
    decreases |t|
  {
    MatchLenAdvances();
    if |t| > 0 {
      if lineStart && MatchLen(t).Some? {
        var n := MatchLen(t).value;
        var ls := t[n - 1] == '\n';
        FindAllSearches(t[n..], ls);
        FindAllAtMatch(t, n);
        SearchAtMatch(MatchLen, t, n);
      } else {
        var ls := t[0] == '\n';
        FindAllSearches(t[1..], ls);
        assert FindAll(t, lineStart) == FindAll(t[1..], ls);
        assert Search(MatchLen, t, lineStart) == Search(MatchLen, t[1..], ls);
      }
    }
  }

  /** FindAll at a match of length n at the start of t. */
  lemma FindAllAtMatch(t: string, n: nat)
    requires |t| > 0 && MatchLen(t) == Some(n)
    ensures FindAll(t, true) == [t[..n]] + FindAll(t[n..], t[n - 1] == '\n')
  {
  }

  /** Search at a match of length n at the start of t. */
  lemma SearchAtMatch(f: string -> Option<nat>, t: string, n: nat)
    requires Advances(f) && |t| > 0 && f(t) == Some(n)
    ensures Search(f, t, true) == [t[..n]] + Search(f, t[n..], t[n - 1] == '\n')
    ensures SearchStarts(f, t, true) == [0] + Shift(SearchStarts(f, t[n..], t[n - 1] == '\n'), n)
  {
  }

  /**
   * The pieces FindAll returns are matches at line starts of t, taken from
   * left to right without overlapping.
   */
  lemma FindAllSound(t: string, lineStart: bool)
    ensures Located(MatchLen, t, lineStart, FindAll(t, lineStart), Starts(t, lineStart))
  {
    FindAllSearches(t, lineStart);
    SearchSound(MatchLen, t, lineStart);
  }

  /**
   * And nothing is missed: every line start of t where the pattern matches,
   * and which no piece covers, begins a piece.
   */
  lemma FindAllComplete(t: string, lineStart: bool, i: nat)
    requires i < |t| && LineStartAt(t, lineStart, i) && MatchLen(t[i..]).Some?
    requires Uncovered(FindAll(t, lineStart), Starts(t, lineStart), i)
    ensures i in Starts(t, lineStart)
  {
    FindAllSearches(t, lineStart);
    SearchComplete(MatchLen, t, lineStart, i);
  }

  lemma {:induction false} SearchSound(f: string -> Option<nat>, t: string, lineStart: bool)
    requires Advances(f)
    ensures Located(f, t, lineStart, Search(f, t, lineStart), SearchStarts(f, t, lineStart))
    decreases |t|
  {
    if |t| > 0 {
      if lineStart && f(t).Some? {
        var n := f(t).value;
        var ls := t[n - 1] == '\n';
        SearchSound(f, t[n..], ls);
        LocatedCons(f, t, lineStart, n, Search(f, t[n..], ls), SearchStarts(f, t[n..], ls));
      } else {
        var ls := t[0] == '\n';
        SearchSound(f, t[1..], ls);
        LocatedSkip(f, t, lineStart, Search(f, t[1..], ls), SearchStarts(f, t[1..], ls));
      }
    }
  }

  /** A match at the start of t, then pieces located in the rest. */
  lemma LocatedCons(f: string -> Option<nat>, t: string, lineStart: bool, n: nat, ms: seq<string>, ps: seq<nat>)
    requires lineStart && f(t) == Some(n) && 0 < n <= |t|
    requires Located(f, t[n..], t[n - 1] == '\n', ms, ps)
    ensures Located(f, t, lineStart, [t[..n]] + ms, [0] + Shift(ps, n))
  {
    var ms2 := [t[..n]] + ms;
    var ps2 := [0] + Shift(ps, n);
    assert LocatedAt(f, t, lineStart, ms2[0], ps2[0]) by {
      assert t[0..] == t && t[0..n] == t[..n];
    }
    forall k | 1 <= k < |ms2|
      ensures LocatedAt(f, t, lineStart, ms2[k], ps2[k])
    {
      assert ms2[k] == ms[k - 1] && ps2[k] == ps[k - 1] + n;
      LocatedShift(f, t, lineStart, n, ms[k - 1], ps[k - 1]);
    }
    forall k | 0 <= k < |ms2| - 1
      ensures ps2[k] + |ms2[k]| <= ps2[k + 1]
    {
      if k > 0 {
        assert ps[k - 1] + |ms[k - 1]| <= ps[k];
      }
    }
  }

  /** A first character that starts no piece, then pieces located in the rest. */
  lemma LocatedSkip(f: string -> Option<nat>, t: string, lineStart: bool, ms: seq<string>, ps: seq<nat>)
    requires 0 < |t| && Located(f, t[1..], t[0] == '\n', ms, ps)
    ensures Located(f, t, lineStart, ms, Shift(ps, 1))
  {
    forall k | 0 <= k < |ms|
      ensures LocatedAt(f, t, lineStart, ms[k], ps[k] + 1)
    {
      LocatedShift(f, t, lineStart, 1, ms[k], ps[k]);
    }
  }

  /** A piece located in t[n..] is located n further on in t. */
  lemma LocatedShift(f: string -> Option<nat>, t: string, lineStart: bool, n: nat, m: string, p: nat)
    requires 0 < n <= |t| && LocatedAt(f, t[n..], t[n - 1] == '\n', m, p)
    ensures LocatedAt(f, t, lineStart, m, p + n)
  {
    assert t[p + n..] == t[n..][p..];
    assert t[p + n..p + n + |m|] == t[n..][p..p + |m|];
    if p > 0 { assert t[p + n - 1] == t[n..][p - 1]; }
  }

  /** Every uncovered line start where f matches begins a piece. */
  lemma {:induction false} SearchComplete(f: string -> Option<nat>, t: string, lineStart: bool, i: nat)
    requires Advances(f)
    requires i < |t| && LineStartAt(t, lineStart, i) && f(t[i..]).Some?
    requires Uncovered(Search(f, t, lineStart), SearchStarts(f, t, lineStart), i)
    ensures i in SearchStarts(f, t, lineStart)
    decreases |t|
  {
    if i == 0 {
      assert t[0..] == t;
    } else {
      var n := if lineStart && f(t).Some? then f(t).value else 1;
      var ls := t[n - 1] == '\n';
      var ms := Search(f, t[n..], ls);
      var ps := SearchStarts(f, t[n..], ls);
      if lineStart && f(t).Some? {
        SearchAtMatch(f, t, n);
        UncoveredCons(t[..n], n, ms, ps, i);
        RestLineStart(f, t, lineStart, i, n);
        SearchComplete(f, t[n..], ls, i - n);
      } else {
        assert Search(f, t, lineStart) == ms;
        assert SearchStarts(f, t, lineStart) == Shift(ps, 1);
        UncoveredSkip(ms, ps, i);
        RestLineStart(f, t, lineStart, i, n);
        SearchComplete(f, t[n..], ls, i - n);
      }
    }
  }

  /** A line start at i where f matches is, n characters on, one of the rest of t. */
  lemma RestLineStart(f: string -> Option<nat>, t: string, lineStart: bool, i: nat, n: nat)
    requires 0 < n <= i < |t| && LineStartAt(t, lineStart, i) && f(t[i..]).Some?
    ensures LineStartAt(t[n..], t[n - 1] == '\n', i - n) && f(t[n..][i - n..]).Some?
  {
    assert t[n..][i - n..] == t[i..];
    if i - n > 0 { assert t[n..][i - n - 1] == t[i - 1]; }
  }

  /** Past an uncovered first piece m of length n, position i is uncovered in the rest and, if it starts a piece there, starts one here. */
  lemma UncoveredCons(m: string, n: nat, ms: seq<string>, ps: seq<nat>, i: nat)
    requires |m| == n && 0 < i && Uncovered([m] + ms, [0] + Shift(ps, n), i)
    ensures n <= i && Uncovered(ms, ps, i - n)
    ensures i - n in ps ==> i in [0] + Shift(ps, n)
  {
    var ms2 := [m] + ms;
    var ps2 := [0] + Shift(ps, n);
    assert ms2[0] == m && ps2[0] == 0;
    forall k | 0 <= k < |ms| && k < |ps|
      ensures !(ps[k] < i - n < ps[k] + |ms[k]|)
    {
      assert ms2[k + 1] == ms[k] && ps2[k + 1] == ps[k] + n;
    }
    if i - n in ps {
      var k :| 0 <= k < |ps| && ps[k] == i - n;
      assert ps2[k + 1] == i;
    }
  }

  /** Past a first character, position i is uncovered in the rest and, if it starts a piece there, starts one here. */
  lemma UncoveredSkip(ms: seq<string>, ps: seq<nat>, i: nat)
    requires 0 < i && Uncovered(ms, Shift(ps, 1), i)
    ensures Uncovered(ms, ps, i - 1)
    ensures i - 1 in ps ==> i in Shift(ps, 1)
  {
    if i - 1 in ps {
      var k :| 0 <= k < |ps| && ps[k] == i - 1;
      assert Shift(ps, 1)[k] == i;
    }
  }

  /* ---------------- reading a declaration's name ---------------- */

  /** The first non-empty piece. */
  function FirstNonEmpty(parts: seq<string>): (r: Option<string>)
    ensures r.None? <==> forall k | 0 <= k < |parts| :: parts[k] == ""
    ensures r.Some? ==> exists k | 0 <= k < |parts| ::
      (parts[k] == r.value && r.value != "" && forall i | 0 <= i < k :: parts[i] == "")
  {
    if |parts| == 0 then None
    else if parts[0] != "" then Some(parts[0])
    else
      var r := FirstNonEmpty(parts[1..]);
      if r.Some? then
        var k :| 0 <= k < |parts[1..]| && parts[1..][k] == r.value && r.value != ""
          && forall i | 0 <= i < k :: parts[1..][i] == "";
        assert parts[k + 1] == r.value;
        r
      else r
  }

  /**
   * parseMessage as written: the first non-empty space-separated word after
   * the first one; a matched line without one panics (the Err).
   */
  function ParseMessage(matched: string): (r: Result<string, string>)
    ensures r.Err? <==> forall k | 1 <= k < |Split(matched, " ")| :: Split(matched, " ")[k] == ""
    ensures r.Ok? ==> r.value != "" && r.value in Split(matched, " ")[1..]
  {
    match FirstNonEmpty(Split(matched, " ")[1..])
    case None => Err(matched)
    case Some(part) => Ok(part)
  }

  /** The name a declaration line declares: the identifier after the keyword and the whitespace that follows it. */
  function ParseMessageFixed(matched: string): (r: Result<string, string>)
    ensures MatchLen(matched).Some? ==> r.Ok?
    ensures r.Ok? ==> |r.value| > 0 && forall k | 0 <= k < |r.value| :: IsIdent(r.value[k])
  {
    if !HasPrefix(matched, Keyword) then Err(matched)
    else
      var s := ShapeOf(matched);
      if s.nameEnd == s.nameStart then Err(matched) else Ok(matched[s.nameStart..s.nameEnd])
  }

  /**
   * parseMessages as written: each match of the line pattern read by
   * parseMessage, in order; the first match without a name panics (the Err).
   */
  function ParseMessages(text: string): (r: Result<seq<string>, string>)
    ensures r.Ok? ==> |r.value| == |FindAll(text, true)|
    ensures r.Ok? ==> forall k | 0 <= k < |r.value| :: ParseMessage(FindAll(text, true)[k]) == Ok(r.value[k])
  {
    ParseEach(FindAll(text, true))
  }

  /** parseMessages' loop over the matches. */
  function ParseEach(ms: seq<string>): (r: Result<seq<string>, string>)
    ensures r.Ok? ==> |r.value| == |ms| && forall k | 0 <= k < |ms| :: ParseMessage(ms[k]) == Ok(r.value[k])
    decreases |ms|
  {
    if |ms| == 0 then Ok([])
    else match ParseMessage(ms[0])
      case Err(e) => Err(e)
      case Ok(name) =>
        match ParseEach(ms[1..])
        case Err(e) => Err(e)
        case Ok(rest) =>
          assert forall k | 0 <= k < |ms| :: ParseMessage(ms[k]) == Ok(([name] + rest)[k]) by {
            forall k | 0 <= k < |ms| ensures ParseMessage(ms[k]) == Ok(([name] + rest)[k]) {
              if k > 0 { assert ms[k] == ms[1..][k - 1]; }
            }
          }
          Ok([name] + rest)
  }

  /** The loop panics exactly at its first match without a name, with that match as the panic value. */
  lemma {:induction false} ParseEachErr(ms: seq<string>)
    ensures ParseEach(ms).Err? <==> exists k | 0 <= k < |ms| :: ParseMessage(ms[k]).Err?
    ensures ParseEach(ms).Err? ==> exists k | 0 <= k < |ms| ::
      && ParseMessage(ms[k]).Err? && ParseEach(ms).error == ms[k]
      && forall i | 0 <= i < k :: ParseMessage(ms[i]).Ok?
    decreases |ms|
  {
    if |ms| > 0 {
      ParseEachErr(ms[1..]);
      if ParseMessage(ms[0]).Ok? {
        forall k | 0 <= k < |ms| - 1 ensures ms[1..][k] == ms[k + 1] { }
        if ParseEach(ms[1..]).Err? {
          var k :| 0 <= k < |ms| - 1 && ParseMessage(ms[1..][k]).Err? && ParseEach(ms[1..]).error == ms[1..][k]
            && forall i | 0 <= i < k :: ParseMessage(ms[1..][i]).Ok?;
          assert ParseMessage(ms[k + 1]).Err? && ParseEach(ms).error == ms[k + 1];
          forall i | 0 <= i < k + 1 ensures ParseMessage(ms[i]).Ok? {
            if i > 0 { assert ms[i] == ms[1..][i - 1]; }
          }
        } else {
          forall k | 0 <= k < |ms| ensures ParseMessage(ms[k]).Ok? {
            if k > 0 { assert ms[k] == ms[1..][k - 1]; }
          }
        }
      } else {
        assert ParseEach(ms).error == ms[0];
      }
    }
  }

  /** parseMessages with the corrected reader: one name per match, in order, and no panic. */
  function ParseMessagesFixed(text: string): (names: seq<string>)
    ensures |names| == |FindAll(text, true)|
    ensures forall k | 0 <= k < |names| :: ParseMessageFixed(FindAll(text, true)[k]) == Ok(names[k])
  {
    var ms := FindAll(text, true);
    seq(|ms|, k requires 0 <= k < |ms| => ParseMessageFixed(ms[k]).value)
  }

  /* ---------------- declarations ---------------- */

  /** A declaration `message<before><name><after>{`. */
  datatype Decl = Decl(before: string, name: string, after: string)

  predicate AllWs(s: string) {
    forall k | 0 <= k < |s| :: IsWs(s[k])
  }

  predicate WellFormed(d: Decl) {
    && |d.before| > 0 && AllWs(d.before)
    && |d.name| > 0 && (forall k | 0 <= k < |d.name| :: IsIdent(d.name[k]))
    && |d.after| > 0 && AllWs(d.after)
  }

  function DeclText(d: Decl): string {
    Keyword + d.before + d.name + d.after + "{"
  }

  /** A run of `p`-characters followed by a character outside `p` is a whole span. */
  lemma SpanOfRun(x: string, run: string, y: string, p: char -> bool)
    requires forall k | 0 <= k < |run| :: p(run[k])
    requires |y| > 0 && !p(y[0])
    ensures Span(x + run + y, |x|, p) == |x| + |run|
  {
    var t := x + run + y;
    forall k | |x| <= k < |x| + |run|
      ensures p(t[k])
    {
      assert t[k] == run[k - |x|];
    }
    assert t[|x| + |run|] == y[0];
    SpanRun(t, |x|, |x| + |run|, p);
  }

  /** Where the parts of a declaration lie in its text, whatever follows it. */
  lemma DeclShape(d: Decl, tail: string)
    requires WellFormed(d)
    ensures HasPrefix(DeclText(d) + tail, Keyword)
    ensures ShapeOf(DeclText(d) + tail)
      == Shape(|Keyword + d.before|, |Keyword + d.before + d.name|, |Keyword + d.before + d.name + d.after|)
  {
    var t := DeclText(d) + tail;
    var brace := "{" + tail;
    assert t[..|Keyword|] == Keyword;
    assert Span(t, |Keyword|, IsWs) == |Keyword + d.before| by {
      assert t == Keyword + d.before + (d.name + d.after + brace);
      SpanOfRun(Keyword, d.before, d.name + d.after + brace, IsWs);
    }
    assert Span(t, |Keyword + d.before|, IsIdent) == |Keyword + d.before + d.name| by {
      assert t == (Keyword + d.before) + d.name + (d.after + brace);
      SpanOfRun(Keyword + d.before, d.name, d.after + brace, IsIdent);
    }
    assert Span(t, |Keyword + d.before + d.name|, IsWs) == |Keyword + d.before + d.name + d.after| by {
      assert t == (Keyword + d.before + d.name) + d.after + brace;
      SpanOfRun(Keyword + d.before + d.name, d.after, brace, IsWs);
    }
  }

  /** A declaration followed by the end of the text or a newline matches exactly its own length. */
  lemma DeclMatches(d: Decl, tail: string)
    requires WellFormed(d) && (tail == "" || tail[0] == '\n')
    ensures MatchLen(DeclText(d) + tail) == Some(|DeclText(d)|)
    ensures ShapeOf(DeclText(d) + tail).nameStart == |Keyword| + |d.before|
    ensures ShapeOf(DeclText(d) + tail).nameEnd == |Keyword| + |d.before| + |d.name|
  {
    var t := DeclText(d) + tail;
    DeclShape(d, tail);
    var e := |Keyword + d.before + d.name + d.after|;
    assert t[e] == '{' && e + 1 == |DeclText(d)|;
    assert e + 1 < |t| ==> t[e + 1] == tail[0];
  }

  /** The corrected reader gives back the declared name, whatever whitespace surrounds it. */
  lemma DeclRoundTrip(d: Decl)
    requires WellFormed(d)
    ensures ParseMessageFixed(DeclText(d)) == Ok(d.name)
  {
    DeclMatches(d, "");
    assert DeclText(d) + "" == DeclText(d);
    var b := |Keyword| + |d.before|;
    assert DeclText(d)[b..b + |d.name|] == d.name;
  }

  /** A declaration alone is found as one match. */
  lemma FindAllOne(d: Decl)
    requires WellFormed(d)
    ensures FindAll(DeclText(d), true) == [DeclText(d)]
  {
    var t := DeclText(d);
    DeclMatches(d, "");
    assert t + "" == t;
    assert t[..|t|] == t && t[|t|..] == "";
  }

  /** A declaration line is found, and the search goes on at the start of the next line. */
  lemma FindAllLine(d: Decl, rest: string)
    requires WellFormed(d)
    ensures FindAll(DeclText(d) + "\n" + rest, true) == [DeclText(d)] + FindAll(rest, true)
  {
    var t0 := DeclText(d);
    var text := t0 + ("\n" + rest);
    assert t0 + "\n" + rest == text;
    DeclMatches(d, "\n" + rest);
    assert text[..|t0|] == t0 && text[|t0|..] == "\n" + rest;
    assert text[|t0| - 1] == '{';
    assert ("\n" + rest)[1..] == rest;
  }

  /** Declarations on consecutive lines are found one per line, in order. */
  lemma {:induction false} DeclsFound(ds: seq<Decl>)
    requires forall k | 0 <= k < |ds| :: WellFormed(ds[k])
    ensures FindAll(Join(DeclTexts(ds), "\n"), true) == DeclTexts(ds)
    decreases |ds|
  {
    var texts := DeclTexts(ds);
    if |ds| == 1 {
      FindAllOne(ds[0]);
    } else if |ds| > 1 {
      assert DeclTexts(ds[1..]) == texts[1..];
      DeclsFound(ds[1..]);
      JoinCons(texts[0], texts[1..], "\n");
      assert [texts[0]] + texts[1..] == texts;
      FindAllLine(ds[0], Join(texts[1..], "\n"));
    }
  }

  /** Declarations with plain spaces around the name, on consecutive lines, are read back as their names, in order. */
  lemma DeclsScanned(ds: seq<Decl>)
    requires forall k | 0 <= k < |ds| :: WellFormed(ds[k]) && Spaced(ds[k])
    ensures ParseMessages(Join(DeclTexts(ds), "\n")) == Ok(Names(ds))
  {
    DeclsFound(ds);
    var ms := DeclTexts(ds);
    forall k | 0 <= k < |ds|
      ensures ParseMessage(ms[k]) == Ok(ds[k].name)
    {
      SpacedDeclParsesAt(ds[k]);
    }
    ParseEachErr(ms);
    var r := ParseEach(ms);
    assert r.Ok?;
    assert r.value == Names(ds);
  }

  /** With the corrected reader, declarations with any whitespace around the name are read back, in order. */
  lemma DeclsScannedFixed(ds: seq<Decl>)
    requires forall k | 0 <= k < |ds| :: WellFormed(ds[k])
    ensures ParseMessagesFixed(Join(DeclTexts(ds), "\n")) == Names(ds)
  {
    DeclsFound(ds);
    forall k | 0 <= k < |ds|
      ensures ParseMessageFixed(DeclTexts(ds)[k]) == Ok(ds[k].name)
    {
      DeclRoundTrip(ds[k]);
    }
  }

  /** Only plain spaces around the name. */
  predicate Spaced(d: Decl) {
    (forall k | 0 <= k < |d.before| :: d.before[k] == ' ') && (forall k | 0 <= k < |d.after| :: d.after[k] == ' ')
  }

  /** SpacedDeclParses for a declaration given by its parts. */
  lemma SpacedDeclParsesAt(d: Decl)
    requires WellFormed(d) && Spaced(d)
    ensures ParseMessage(DeclText(d)) == Ok(d.name)
  {
    assert d.before == " " + Spaces(|d.before| - 1);
    assert d.after == " " + Spaces(|d.after| - 1);
    SpacedDeclParses(|d.before| - 1, d.name, |d.after| - 1);
  }

  function DeclTexts(ds: seq<Decl>): (ts: seq<string>)
    ensures |ts| == |ds| && forall k | 0 <= k < |ds| :: ts[k] == DeclText(ds[k])
  {
    seq(|ds|, k requires 0 <= k < |ds| => DeclText(ds[k]))
  }

  function Names(ds: seq<Decl>): (ns: seq<string>)
    ensures |ns| == |ds| && forall k | 0 <= k < |ds| :: ns[k] == ds[k].name
  {
    seq(|ds|, k requires 0 <= k < |ds| => ds[k].name)
  }

  /** With single spaces or runs of spaces, parseMessage as written also reads the declared name. */
  lemma SpacedDeclParses(k1: nat, name: string, k2: nat)
    requires |name| > 0 && forall k | 0 <= k < |name| :: IsIdent(name[k])
    ensures ParseMessage(DeclText(Decl(" " + Spaces(k1), name, " " + Spaces(k2)))) == Ok(name)
  {
    var s1 := Spaces(k1);
    var tail := name + " " + Spaces(k2) + "{";
    var text := DeclText(Decl(" " + s1, name, " " + Spaces(k2)));
    var after := [name] + Split(Spaces(k2) + "{", " ");
    assert Split(tail, " ") == after by {
      IdentNoSpace(name);
      assert tail == name + [' '] + (Spaces(k2) + "{");
      SplitCons(name, ' ', Spaces(k2) + "{");
    }
    assert Split(text, " ")[1..] == Blanks(k1) + after by {
      assert text == Keyword + [' '] + (s1 + tail);
      SplitCons(Keyword, ' ', s1 + tail);
      SplitSpaces(k1, tail);
    }
    FirstNonEmptyAfterBlanks(k1, after);
  }

  function Spaces(k: nat): (s: string)
    ensures |s| == k && forall i | 0 <= i < k :: s[i] == ' '
  {
    seq(k, i => ' ')
  }

  function Blanks(k: nat): (b: seq<string>)
    ensures |b| == k && forall i | 0 <= i < k :: b[i] == ""
  {
    seq(k, i => "")
  }

  /** Each leading space splits off one empty piece. */
  lemma {:induction false} SplitSpaces(k: nat, rest: string)
    ensures Split(Spaces(k) + rest, " ") == Blanks(k) + Split(rest, " ")
    decreases k
  {
    if k > 0 {
      SplitSpaces(k - 1, rest);
      SplitOneOfSpaces(k, rest);
      assert Blanks(k) == [""] + Blanks(k - 1);
      ConsAssoc("", Blanks(k - 1), Split(rest, " "));
    } else {
      assert Spaces(0) + rest == rest;
    }
  }

  /** The first of k leading spaces splits off one empty piece. */
  lemma SplitOneOfSpaces(k: nat, rest: string)
    requires k > 0
    ensures Split(Spaces(k) + rest, " ") == [""] + Split(Spaces(k - 1) + rest, " ")
  {
    var s := Spaces(k - 1) + rest;
    assert Spaces(k) + rest == [' '] + s;
    SplitLeadingSpace(s);
  }

  /** A leading space splits off one empty piece. */
  lemma SplitLeadingSpace(s: string)
    ensures Split([' '] + s, " ") == [""] + Split(s, " ")
  {
    var e: string := [];
    assert [' '] + s == e + [' '] + s;
    SplitCons(e, ' ', s);
    assert Split(e, " ") == [""];
  }

  /** Consing onto a concatenation is concatenating onto the consed prefix. */
  lemma ConsAssoc<T>(x: T, a: seq<T>, b: seq<T>)
    ensures [x] + (a + b) == ([x] + a) + b
  {
  }

  lemma {:induction false} FirstNonEmptyAfterBlanks(k: nat, xs: seq<string>)
    requires |xs| > 0 && xs[0] != ""
    ensures FirstNonEmpty(Blanks(k) + xs) == Some(xs[0])
    decreases k
  {
    if k > 0 {
      assert (Blanks(k) + xs)[1..] == Blanks(k - 1) + xs;
      FirstNonEmptyAfterBlanks(k - 1, xs);
    } else {
      assert Blanks(0) + xs == xs;
    }
  }

  /**
   * A tab between the keyword and the name, as in "message\tFoo {", makes
   * parseMessage as written return the brace instead of the name.
   */
  lemma TabBeforeNameReadsBrace(name: string)
    requires |name| > 0 && forall k | 0 <= k < |name| :: IsIdent(name[k])
    ensures var text := DeclText(Decl("\t", name, " "));
      && MatchLen(text) == Some(|text|)
      && ParseMessage(text) == Ok("{")
      && ParseMessageFixed(text) == Ok(name)
  {
    var text := DeclText(Decl("\t", name, " "));
    DeclFacts(Decl("\t", name, " "), text);
    var head := Keyword + "\t" + name;
    IdentNoSpace(name);
    NoSpaceConcat(Keyword + "\t", name);
    assert text == head + [' '] + "{";
    SplitCons(head, ' ', "{");
    SplitNoSep("{", ' ');
    assert Split(text, " ")[1..] == ["{"];
  }

  /** With tabs only, as in "message\tFoo\t{", parseMessage as written finds no second word and panics. */
  lemma TabsOnlyPanics(name: string)
    requires |name| > 0 && forall k | 0 <= k < |name| :: IsIdent(name[k])
    ensures var text := DeclText(Decl("\t", name, "\t"));
      && MatchLen(text) == Some(|text|)
      && ParseMessage(text).Err?
      && ParseMessageFixed(text) == Ok(name)
  {
    var text := DeclText(Decl("\t", name, "\t"));
    DeclFacts(Decl("\t", name, "\t"), text);
    IdentNoSpace(name);
    NoSpaceConcat(Keyword + "\t", name);
    NoSpaceConcat(Keyword + "\t" + name, "\t{");
    assert text == Keyword + "\t" + name + "\t{";
    SplitNoSep(text, ' ');
    assert Split(text, " ")[1..] == [];
  }

  /** An identifier holds no space. */
  lemma IdentNoSpace(name: string)
    requires forall k | 0 <= k < |name| :: IsIdent(name[k])
    ensures ' ' !in name
  {
  }

  /** Two texts without a space join into one without a space. */
  lemma NoSpaceConcat(a: string, b: string)
    requires ' ' !in a && ' ' !in b
    ensures ' ' !in a + b
  {
  }

  /** The matcher and the corrected parser on one well-formed declaration line. */
  lemma DeclFacts(d: Decl, text: string)
    requires WellFormed(d) && DeclText(d) == text
    ensures MatchLen(text) == Some(|text|) && ParseMessageFixed(text) == Ok(d.name)
  {
    DeclMatches(d, "");
    assert DeclText(d) + "" == DeclText(d);
    DeclRoundTrip(d);
  }

  /* ---------------- the generated file ---------------- */

  const RegisterCall: string := "pbmsg.Register("
  const Constructor: string := "func() proto.Message { return new("
  const RegisterPrefix: string := RegisterCall + Constructor
  const RegisterSuffix: string := ") })\n"

  /** genPbMsg: one registration statement; the message name can be read back between the fixed parts. */
  function GenPbMsg(msg: string): (r: string)
    ensures HasPrefix(r, RegisterPrefix) && HasSuffix(r, RegisterSuffix)
    ensures |r| == |RegisterPrefix| + |msg| + |RegisterSuffix|
    ensures r[|RegisterPrefix|..|r| - |RegisterSuffix|] == msg
  {
    RegisterPrefix + msg + RegisterSuffix
  }

  const ImportBlock: string := "import (\n\t\"github.com/golang/protobuf/proto\"\n\t\"github.com/mafei198/glib/pbmsg\"\n)"

  function Header(pkg: string): string {
    "package " + pkg + "\n\n" + ImportBlock + "\n\nfunc init() {\n"
  }

  /** The init function's statements: one tab-indented registration per message, in order. */
  function InitBody(messages: seq<string>): string
    decreases |messages|
  {
    if |messages| == 0 then "" else "\t" + GenPbMsg(messages[0]) + InitBody(messages[1..])
  }

  /** genRegister's content: the package clause and imports, the init function, and its closing brace. */
  function GenRegister(pkg: string, messages: seq<string>): (content: string)
    ensures HasPrefix(content, "package " + pkg + "\n\n") && HasPrefix(content, Header(pkg)) && HasSuffix(content, "}")
    ensures |content| == |Header(pkg)| + |InitBody(messages)| + 1
    ensures content[|Header(pkg)|..|content| - 1] == InitBody(messages)
  {
    Header(pkg) + InitBody(messages) + "}"
  }

  /** The line registering `msg`, without its newline. */
  function RegisterLine(msg: string): string {
    "\t" + RegisterPrefix + msg + ") })"
  }

  function RegisterLines(messages: seq<string>): (lines: seq<string>)
    ensures |lines| == |messages| && forall k | 0 <= k < |messages| :: lines[k] == RegisterLine(messages[k])
    decreases |messages|
  {
    if |messages| == 0 then [] else [RegisterLine(messages[0])] + RegisterLines(messages[1..])
  }

  /** The message a registration line names. */
  function RegisteredName(line: string): string {
    var pre := |"\t" + RegisterPrefix|;
    if |line| >= pre + 4 then line[pre..|line| - 4] else ""
  }

  /** A registration line names its message. */
  lemma RegisteredNameOf(msg: string)
    ensures RegisteredName(RegisterLine(msg)) == msg
  {
    var line := RegisterLine(msg);
    assert line == ("\t" + RegisterPrefix) + msg + ") })";
    assert line[|"\t" + RegisterPrefix|..|line| - 4] == msg;
  }

  /** A registration line is one line when its message is. */
  lemma RegisterLineOneLine(msg: string)
    requires '\n' !in msg
    ensures '\n' !in RegisterLine(msg)
  {
    assert '\n' !in "\t" && '\n' !in RegisterCall && '\n' !in Constructor && '\n' !in ") })";
    assert RegisterLine(msg) == "\t" + RegisterCall + Constructor + msg + ") })";
  }

  /**
   * The init function has one line per message, in the given order, each
   * naming its message (for names without newlines).
   */
  lemma RegisterLinesRoundTrip(messages: seq<string>)
    requires forall k | 0 <= k < |messages| :: '\n' !in messages[k]
    ensures var lines := Split(InitBody(messages), "\n");
      && |lines| == |messages| + 1 && lines[|messages|] == ""
      && forall k | 0 <= k < |messages| :: RegisteredName(lines[k]) == messages[k]
  {
    var lines := RegisterLines(messages) + [""];
    InitBodyLines(messages);
    forall k | 0 <= k < |lines|
      ensures '\n' !in lines[k]
    {
      if k < |messages| {
        RegisterLineOneLine(messages[k]);
      }
    }
    SplitJoin(lines, '\n');
    forall k | 0 <= k < |messages|
      ensures RegisteredName(lines[k]) == messages[k]
    {
      RegisteredNameOf(messages[k]);
    }
  }

  /** The init body is its registration lines joined by newlines, with a final newline. */
  lemma {:induction false} InitBodyLines(messages: seq<string>)
    ensures InitBody(messages) == Join(RegisterLines(messages) + [""], "\n")
    decreases |messages|
  {
    if |messages| > 0 {
      var first := RegisterLine(messages[0]);
      var rest := RegisterLines(messages[1..]);
      InitBodyLines(messages[1..]);
      assert RegisterLines(messages) + [""] == [first] + (rest + [""]);
      JoinCons(first, rest + [""], "\n");
      RegisterLineNewline(messages[0]);
      var tail := InitBody(messages[1..]);
      assert InitBody(messages) == ("\t" + GenPbMsg(messages[0])) + tail;
      assert InitBody(messages) == first + "\n" + tail;
    }
  }

  /** A registration statement is its line and a newline. */
  lemma RegisterLineNewline(msg: string)
    ensures "\t" + GenPbMsg(msg) == RegisterLine(msg) + "\n"
  {
  }

  /**
   * Generate: the messages of every file, in file order, registered in one
   * generated file; a panic in parseMessages ends it (the Err).
   */
  function Generate(pkg: string, files: seq<string>): (r: Result<string, string>)
    ensures r.Ok? <==> AllMessages(files).Ok?
  {
    match AllMessages(files)
    case Err(e) => Err(e)
    case Ok(messages) => Ok(GenRegister(pkg, messages))
  }

  function AllMessages(files: seq<string>): (r: Result<seq<string>, string>)
    ensures r.Err? <==> exists f | 0 <= f < |files| :: ParseMessages(files[f]).Err?
    decreases |files|
  {
    if |files| == 0 then Ok([])
    else
      assert forall f | 0 <= f < |files| - 1 :: files[1..][f] == files[f + 1];
      match ParseMessages(files[0])
      case Err(e) => Err(e)
      case Ok(names) =>
        match AllMessages(files[1..])
        case Err(e) => Err(e)
        case Ok(rest) => Ok(names + rest)
  }

  /** Generate with the corrected reader: it never panics. */
  function GenerateFixed(pkg: string, files: seq<string>): string {
    GenRegister(pkg, AllMessagesFixed(files))
  }

  function AllMessagesFixed(files: seq<string>): seq<string>
    decreases |files|
  {
    if |files| == 0 then [] else ParseMessagesFixed(files[0]) + AllMessagesFixed(files[1..])
  }

  /** The text of a file made of declaration lines. */
  function DeclFile(ds: seq<Decl>): string {
    Join(DeclTexts(ds), "\n")
  }

  function DeclFiles(files: seq<seq<Decl>>): (texts: seq<string>)
    ensures |texts| == |files| && forall k | 0 <= k < |files| :: texts[k] == DeclFile(files[k])
    decreases |files|
  {
    if |files| == 0 then [] else [DeclFile(files[0])] + DeclFiles(files[1..])
  }

  function AllNames(files: seq<seq<Decl>>): seq<string>
    decreases |files|
  {
    if |files| == 0 then [] else Names(files[0]) + AllNames(files[1..])
  }

  /**
   * For files of declarations with plain spaces around their names, the
   * generated init function registers every declared name, file after file,
   * each in its own line.
   */
  lemma {:induction false} GenerateRegistersDeclared(pkg: string, files: seq<seq<Decl>>)
    requires forall f | 0 <= f < |files| :: forall k | 0 <= k < |files[f]| ::
      WellFormed(files[f][k]) && Spaced(files[f][k])
    ensures AllMessages(DeclFiles(files)) == Ok(AllNames(files))
    ensures Generate(pkg, DeclFiles(files)) == Ok(Header(pkg) + InitBody(AllNames(files)) + "}")
    decreases |files|
  {
    if |files| > 0 {
      DeclsScanned(files[0]);
      assert DeclFiles(files)[1..] == DeclFiles(files[1..]);
      GenerateRegistersDeclared(pkg, files[1..]);
    }
  }

  /**
   * With the corrected reader the same holds for declarations with any
   * whitespace around their names.
   */
  lemma {:induction false} GenerateFixedRegistersDeclared(pkg: string, files: seq<seq<Decl>>)
    requires forall f | 0 <= f < |files| :: forall k | 0 <= k < |files[f]| :: WellFormed(files[f][k])
    ensures AllMessagesFixed(DeclFiles(files)) == AllNames(files)
    ensures GenerateFixed(pkg, DeclFiles(files)) == Header(pkg) + InitBody(AllNames(files)) + "}"
    decreases |files|
  {
    if |files| > 0 {
      DeclsScannedFixed(files[0]);
      assert DeclFiles(files)[1..] == DeclFiles(files[1..]);
      GenerateFixedRegistersDeclared(pkg, files[1..]);
    }
  }

  /**
   * As written, a file holding one declaration with tabs only around the
   * name makes the whole generation panic; the corrected reader registers
   * the name.
   */
  lemma TabbedFilePanics(pkg: string, name: string)
    requires |name| > 0 && forall k | 0 <= k < |name| :: IsIdent(name[k])
    ensures var text := DeclText(Decl("\t", name, "\t"));
      && Generate(pkg, [text]).Err?
      && GenerateFixed(pkg, [text]) == Header(pkg) + InitBody([name]) + "}"
  {
    var d := Decl("\t", name, "\t");
    var text := DeclText(d);
    TabsOnlyPanics(name);
    FindAllOne(d);
    ParseEachErr([text]);
    assert ParseMessages([text][0]).Err?;
    assert AllMessagesFixed([text]) == [name] by {
      assert ParseMessagesFixed(text) == [name];
      assert AllMessagesFixed([text][1..]) == [];
    }
  }

  /** As written, "message\tName {" alone in a file registers a message named "{". */
  lemma TabbedFileRegistersBrace(pkg: string, name: string)
    requires |name| > 0 && forall k | 0 <= k < |name| :: IsIdent(name[k])
    ensures var text := DeclText(Decl("\t", name, " "));
      Generate(pkg, [text]) == Ok(Header(pkg) + InitBody(["{"]) + "}")
  {
    var d := Decl("\t", name, " ");
    var text := DeclText(d);
    TabBeforeNameReadsBrace(name);
    FindAllOne(d);
    assert [text][1..] == [];
    var names: seq<string> := ["{"];
    assert ParseEach([text]) == Ok(names + []);
    assert names + [] == names;
    assert FindAll(text, true) == [text];
    assert ParseMessages(text) == Ok(names);
    assert [text][0] == text;
    assert AllMessages([text][1..]) == Ok([]);
    assert AllMessages([text]) == Ok(names + []);
  }
}

=== FILE: persist.dfy ===
/**
 * The write-back of record tables, model/persist.go: turning dirty statuses
 * into database writes (genQuery, PersistAll), and the writer server that
 * queues those writes per table and flushes them in bulk batches of at most
 * BatchLimit, removing only what a successful bulk write covered.
 *
 * The database is a map from uuid to document; marshalling a record (BSON)
 * and the outcome of a bulk write are parameters. A Go `range` over a map is
 * an enumeration parameter: some order, every key once.
 */
module Persist {
  import opened Wrappers
  import opened Seqs
  import opened RecordModel
  import GenServer

  const BatchLimit: nat := 100

  /** The name the writer server is registered under. */
  const Persister: string := "__model_persister__"

  /** A write: upsert the marshalled record, or delete-one, both filtered on the uuid. */
  datatype Query<K, D> = Upsert(uuid: K, doc: D) | DeleteOne(uuid: K)

  datatype PersistError = MarshalFailed | BulkWriteFailed(table: string) | CastFailed(cause: GenServer.Error)

  /**
   * genQuery: CREATE and UPDATE upsert the current record (nothing when the
   * record is gone, an error when it does not marshal), DELETE deletes, and
   * any other status produces nothing.
   */
  function GenQuery<K, V, D>(m: Model<K, V>, uuid: K, status: MState, marshal: V -> Option<D>)
    : (r: Result<Option<Query<K, D>>, PersistError>)
    ensures r.Err? <==> (status == Created || status == Updated) && uuid in m.recs && marshal(m.recs[uuid]).None?
    ensures r.Ok? && r.value.Some? ==> r.value.value.uuid == uuid
    ensures r.Ok? && r.value.Some? && r.value.value.Upsert? ==>
      (status == Created || status == Updated) && uuid in m.recs && Some(r.value.value.doc) == marshal(m.recs[uuid])
    ensures status == Deleted <==> r.Ok? && r.value.Some? && r.value.value.DeleteOne?
  {
    match status
    case Created | Updated =>
      (match Find(m, uuid)
       case None => Ok(None)
       case Some(rec) =>
         match marshal(rec)
         case None => Err(MarshalFailed)
         case Some(doc) => Ok(Some(Upsert(uuid, doc))))
    case Deleted => Ok(Some(DeleteOne(uuid)))
    case _ => Ok(None)
  }

  /** The queries of one table, in the enumeration order of its statuses; the first error stops. */
  function ModelQueries<K, V, D>(m: Model<K, V>, uuids: seq<K>, marshal: V -> Option<D>)
    : (r: Result<seq<Query<K, D>>, PersistError>)
    requires forall i | 0 <= i < |uuids| :: uuids[i] in m.status
    ensures r.Ok? ==> |r.value| <= |uuids|
    ensures r.Err? ==> r.error == MarshalFailed
    decreases |uuids|
  {
    if |uuids| == 0 then Ok([])
    else
      match GenQuery(m, uuids[0], m.status[uuids[0]], marshal)
      case Err(e) => Err(e)
      case Ok(q) =>
        match ModelQueries(m, uuids[1..], marshal)
        case Err(e) => Err(e)
        case Ok(rest) => Ok((if q.Some? then [q.value] else []) + rest)
  }

  /* ---------------- what the writes do to the database ---------------- */

  function ApplyQuery<K, D>(db: map<K, D>, q: Query<K, D>): map<K, D> {
    match q
    case Upsert(u, doc) => db[u := doc]
    case DeleteOne(u) => db - {u}
  }

  /** An ordered bulk write that succeeds applies its writes in turn. */
  function ApplyQueries<K, D>(db: map<K, D>, qs: seq<Query<K, D>>): map<K, D>
    decreases |qs|
  {
    if |qs| == 0 then db else ApplyQueries(ApplyQuery(db, qs[0]), qs[1..])
  }

  lemma ApplyQueriesCons<K, D>(db: map<K, D>, q: seq<Query<K, D>>, rest: seq<Query<K, D>>)
    requires |q| <= 1
    ensures ApplyQueries(db, q + rest) == ApplyQueries(if |q| == 1 then ApplyQuery(db, q[0]) else db, rest)
  {
    if |q| == 1 {
      assert (q + rest)[1..] == rest;
    } else {
      assert q + rest == rest;
    }
  }

  /** Whether the write-back of one uuid leaves a document for it, given whether there was one. */
  function WantsDoc<K, V>(m: Model<K, V>, u: K, had: bool): bool
    requires u in m.status
  {
    match m.status[u]
    case Created | Updated => u in m.recs || had
    case Deleted => false
    case _ => had
  }

  /** Applying a table's queries settles each enumerated uuid and leaves every other document alone. */
  lemma {:induction false} ApplyModelQueries<K, V, D>(db: map<K, D>, m: Model<K, V>, uuids: seq<K>, marshal: V -> Option<D>)
    requires forall i | 0 <= i < |uuids| :: uuids[i] in m.status
    requires Distinct(uuids)
    requires ModelQueries(m, uuids, marshal).Ok?
    ensures var db' := ApplyQueries(db, ModelQueries(m, uuids, marshal).value);
      && (forall u :: u in db' <==> if u in uuids then WantsDoc(m, u, u in db) else u in db)
      && (forall u | u in uuids && (m.status[u] == Created || m.status[u] == Updated) && u in m.recs ::
            Some(db'[u]) == marshal(m.recs[u]))
      && (forall u | u !in uuids && u in db :: db'[u] == db[u])
    decreases |uuids|
  {
    if |uuids| > 0 {
      var u0 := uuids[0];
      var q := GenQuery(m, u0, m.status[u0], marshal).value;
      var qs := if q.Some? then [q.value] else [];
      var db1 := if q.Some? then ApplyQuery(db, q.value) else db;
      DistinctTail(uuids);
      ApplyModelQueries(db1, m, uuids[1..], marshal);
      ApplyQueriesCons(db, qs, ModelQueries(m, uuids[1..], marshal).value);
      assert forall u :: u in uuids <==> u == u0 || u in uuids[1..];
    }
  }

  /** The statuses of a table that tracks the reference ledger. */
  lemma {:induction false} TrackedStatus<K, V>(m: Model<K, V>, l: Ledger<K, V>, u: K)
    requires Tracks(m, l) && Consistent(m)
    ensures u in m.status ==> WantsDoc(m, u, u in l.db) == (u in m.recs)
    ensures u !in m.status ==> (u in l.db <==> u in m.recs)
  {
    TracksEvery(m, l, u);
  }

  /**
   * Write-back synchronises: when the database holds what the ledger says it
   * holds and every record marshals, the queries of a tracking table turn the
   * database into exactly the records in memory (keys, and the documents of
   * every dirty record); CleanStatus then tracks the flushed ledger.
   */
  lemma WriteBackSynchronises<K, V, D>(db: map<K, D>, m: Model<K, V>, l: Ledger<K, V>, uuids: seq<K>, marshal: V -> Option<D>)
    requires Tracks(m, l) && Consistent(m)
    requires db.Keys == l.db
    requires Enumerates(uuids, m.status.Keys)
    requires forall u | u in m.recs :: marshal(m.recs[u]).Some?
    ensures ModelQueries(m, uuids, marshal).Ok?
    ensures var db' := ApplyQueries(db, ModelQueries(m, uuids, marshal).value);
      && db'.Keys == m.recs.Keys
      && (forall u | u in m.status && u in m.recs :: Some(db'[u]) == marshal(m.recs[u]))
    ensures Tracks(CleanStatus(m), LedgerFlush(l))
  {
    assert forall i | 0 <= i < |uuids| :: uuids[i] in m.status by {
      forall i | 0 <= i < |uuids| ensures uuids[i] in m.status {
        assert uuids[i] in (set x | x in uuids);
      }
    }
    QueriesSucceed(m, uuids, marshal);
    ApplyModelQueries(db, m, uuids, marshal);
    var db' := ApplyQueries(db, ModelQueries(m, uuids, marshal).value);
    forall u
      ensures u in db'.Keys <==> u in m.recs.Keys
    {
      TrackedStatus(m, l, u);
      assert u in uuids <==> u in m.status by {
        assert u in uuids <==> u in (set x | x in uuids);
      }
    }
    SameKeys(db', m.recs);
    forall u | u in m.status && u in m.recs
      ensures Some(db'[u]) == marshal(m.recs[u])
    {
      assert u in (set x | x in uuids);
    }
    CleanTracks(m, l);
  }

  lemma SameKeys<K, A, B>(a: map<K, A>, b: map<K, B>)
    requires forall u :: u in a.Keys <==> u in b.Keys
    ensures a.Keys == b.Keys
  {
  }

  lemma {:induction false} QueriesSucceed<K, V, D>(m: Model<K, V>, uuids: seq<K>, marshal: V -> Option<D>)
    requires forall i | 0 <= i < |uuids| :: uuids[i] in m.status
    requires forall u | u in m.recs :: marshal(m.recs[u]).Some?
    ensures ModelQueries(m, uuids, marshal).Ok?
    decreases |uuids|
  {
    if |uuids| > 0 {
      QueriesSucceed(m, uuids[1..], marshal);
    }
  }

  /* ---------------- PersistAll and CleanAllStatus ---------------- */

  /** One table's batch of writes; the collection is the table's own (db.Collection(tableName)). */
  datatype PersistTask<Q> = PersistTask(table: string, collection: string, queries: seq<Q>)

  /** Every listed table exists, and every table's enumeration lists only uuids that have a status. */
  ghost predicate Listed<K, V>(ctx: Container<K, V>, tables: seq<string>, order: string -> seq<K>) {
    && (forall i | 0 <= i < |tables| :: tables[i] in ctx.models)
    && (forall t | t in ctx.models :: forall i | 0 <= i < |order(t)| :: order(t)[i] in ctx.models[t].status)
  }

  /** The tasks of the tables listed, in order, skipping tables with nothing to write; the first error stops. */
  function CollectTasks<K, V, D>(ctx: Container<K, V>, tables: seq<string>, order: string -> seq<K>, marshal: V -> Option<D>)
    : (r: Result<seq<PersistTask<Query<K, D>>>, PersistError>)
    requires Listed(ctx, tables, order)
    ensures r.Ok? ==> forall k | 0 <= k < |r.value| :: |r.value[k].queries| > 0
    ensures r.Err? ==> r.error == MarshalFailed
    ensures r.Ok? ==> forall k | 0 <= k < |r.value| :: r.value[k].table in TableNames(ctx, tables)
    decreases |tables|
  {
    if |tables| == 0 then Ok([])
    else
      var m := ctx.models[tables[0]];
      match ModelQueries(m, order(tables[0]), marshal)
      case Err(e) => Err(e)
      case Ok(qs) =>
        match CollectTasks(ctx, tables[1..], order, marshal)
        case Err(e) => Err(e)
        case Ok(rest) =>
          Ok((if |qs| > 0 then [PersistTask(m.name, m.name, qs)] else []) + rest)
  }

  /** The collection names of the listed tables, in order. */
  function TableNames<K, V>(ctx: Container<K, V>, tables: seq<string>): (names: seq<string>)
    requires forall i | 0 <= i < |tables| :: tables[i] in ctx.models
    ensures |names| == |tables| && forall i | 0 <= i < |tables| :: names[i] == ctx.models[tables[i]].name
    decreases |tables|
  {
    if |tables| == 0 then [] else [ctx.models[tables[0]].name] + TableNames(ctx, tables[1..])
  }

  /** The queries each listed table produces, in order. */
  function TablesQueries<K, V, D>(ctx: Container<K, V>, tables: seq<string>, order: string -> seq<K>, marshal: V -> Option<D>)
    : (qss: seq<Result<seq<Query<K, D>>, PersistError>>)
    requires Listed(ctx, tables, order)
    ensures |qss| == |tables|
    ensures forall i | 0 <= i < |tables| :: qss[i] == ModelQueries(ctx.models[tables[i]], order(tables[i]), marshal)
  {
    seq(|tables|, i requires 0 <= i < |tables| => ModelQueries(ctx.models[tables[i]], order(tables[i]), marshal))
  }

  /**
   * ts holds one task per table with at least one write, in table order:
   * idx[k] is the table the k-th task comes from, the indices increase,
   * the task carries that table's queries under its name, and every table
   * with queries has its index in idx.
   */
  ghost predicate Selects<Q, E>(qss: seq<Result<seq<Q>, E>>, names: seq<string>, ts: seq<PersistTask<Q>>, idx: seq<nat>)
    requires |names| == |qss|
  {
    |idx| == |ts| && Increasing(idx) && Carries(qss, names, ts, idx) && Covers(qss, idx)
  }

  ghost predicate Increasing(idx: seq<nat>) {
    forall k, l | 0 <= k < l < |idx| :: idx[k] < idx[l]
  }

  /** The k-th task carries the queries and the name of table idx[k]. */
  ghost predicate Carries<Q, E>(qss: seq<Result<seq<Q>, E>>, names: seq<string>, ts: seq<PersistTask<Q>>, idx: seq<nat>)
    requires |names| == |qss| && |idx| == |ts|
  {
    forall k | 0 <= k < |idx| ::
      && idx[k] < |qss| && qss[idx[k]] == Ok(ts[k].queries) && |ts[k].queries| > 0
      && ts[k].table == names[idx[k]] && ts[k].collection == ts[k].table
  }

  /** Every table with queries has its index in idx. */
  ghost predicate Covers<Q, E>(qss: seq<Result<seq<Q>, E>>, idx: seq<nat>) {
    forall i | 0 <= i < |qss| && qss[i].Ok? :: |qss[i].value| > 0 ==> i in idx
  }

  /**
   * CollectTasks, both ways: it fails exactly when some table's queries
   * fail; otherwise it returns precisely the tasks of the tables with
   * writes, in table order, and nothing exactly when no table has one.
   */
  lemma CollectTasksExact<K, V, D>(ctx: Container<K, V>, tables: seq<string>, order: string -> seq<K>, marshal: V -> Option<D>)
    requires Listed(ctx, tables, order)
    ensures var qss := TablesQueries(ctx, tables, order, marshal);
      CollectTasks(ctx, tables, order, marshal).Err? <==> exists i | 0 <= i < |qss| :: qss[i].Err?
    ensures CollectTasks(ctx, tables, order, marshal).Ok? ==>
      exists idx :: Selects(TablesQueries(ctx, tables, order, marshal), TableNames(ctx, tables),
                            CollectTasks(ctx, tables, order, marshal).value, idx)
    ensures var qss := TablesQueries(ctx, tables, order, marshal);
      CollectTasks(ctx, tables, order, marshal) == Ok([]) <==> forall i | 0 <= i < |qss| :: qss[i] == Ok([])
  {
    CollectTasksCollects(ctx, tables, order, marshal);
    CollectExact(TablesQueries(ctx, tables, order, marshal), TableNames(ctx, tables));
  }

  /** CollectTasks' recursion, over the tables' queries and names alone. */
  function Collect<Q, E>(qss: seq<Result<seq<Q>, E>>, names: seq<string>): Result<seq<PersistTask<Q>>, E>
    requires |names| == |qss|
    decreases |qss|
  {
    if |qss| == 0 then Ok([])
    else match qss[0]
      case Err(e) => Err(e)
      case Ok(qs) =>
        match Collect(qss[1..], names[1..])
        case Err(e) => Err(e)
        case Ok(rest) => Ok((if |qs| > 0 then [PersistTask(names[0], names[0], qs)] else []) + rest)
  }

  lemma {:induction false} CollectTasksCollects<K, V, D>(ctx: Container<K, V>, tables: seq<string>, order: string -> seq<K>, marshal: V -> Option<D>)
    requires Listed(ctx, tables, order)
    ensures CollectTasks(ctx, tables, order, marshal) == Collect(TablesQueries(ctx, tables, order, marshal), TableNames(ctx, tables))
    decreases |tables|
  {
    if |tables| > 0 {
      var rest := tables[1..];
      assert Listed(ctx, rest, order) by {
        forall i | 0 <= i < |rest| ensures rest[i] in ctx.models {
          assert rest[i] == tables[i + 1];
        }
      }
      CollectTasksCollects(ctx, rest, order, marshal);
      assert TablesQueries(ctx, rest, order, marshal) == TablesQueries(ctx, tables, order, marshal)[1..];
      assert TableNames(ctx, rest) == TableNames(ctx, tables)[1..];
    }
  }

  lemma CollectExact<Q, E>(qss: seq<Result<seq<Q>, E>>, names: seq<string>)
    requires |names| == |qss|
    ensures Collect(qss, names).Err? <==> exists i | 0 <= i < |qss| :: qss[i].Err?
    ensures Collect(qss, names).Ok? ==> exists idx :: Selects(qss, names, Collect(qss, names).value, idx)
    ensures Collect(qss, names) == Ok([]) <==> forall i | 0 <= i < |qss| :: qss[i] == Ok([])
  {
    CollectErr(qss, names);
    CollectSelects(qss, names);
    if Collect(qss, names).Ok? {
      var idx :| Selects(qss, names, Collect(qss, names).value, idx);
      SelectsEmpty(qss, names, Collect(qss, names).value, idx);
    }
  }

  lemma {:induction false} CollectErr<Q, E>(qss: seq<Result<seq<Q>, E>>, names: seq<string>)
    requires |names| == |qss|
    ensures Collect(qss, names).Err? <==> exists i | 0 <= i < |qss| :: qss[i].Err?
    decreases |qss|
  {
    if |qss| > 0 {
      CollectErr(qss[1..], names[1..]);
      if Collect(qss[1..], names[1..]).Err? {
        var j :| 0 <= j < |qss[1..]| && qss[1..][j].Err?;
        assert qss[j + 1].Err?;
      } else if qss[0].Ok? {
        forall i | 0 <= i < |qss| ensures qss[i].Ok? {
          if i > 0 { assert qss[i] == qss[1..][i - 1]; }
        }
      }
    }
  }

  lemma {:induction false} CollectSelects<Q, E>(qss: seq<Result<seq<Q>, E>>, names: seq<string>)
    requires |names| == |qss|
    ensures Collect(qss, names).Ok? ==> exists idx :: Selects(qss, names, Collect(qss, names).value, idx)
    decreases |qss|
  {
    if |qss| == 0 {
      assert Selects(qss, names, [], []);
    } else if qss[0].Ok? && Collect(qss[1..], names[1..]).Ok? {
      CollectSelects(qss[1..], names[1..]);
      var ts' := Collect(qss[1..], names[1..]).value;
      var idx' :| Selects(qss[1..], names[1..], ts', idx');
      var qs := qss[0].value;
      CollectStep(qss, names);
      SelectsCons(qs, names[0], qss[1..], names[1..], ts', idx');
      assert [Ok(qs)] + qss[1..] == qss && [names[0]] + names[1..] == names;
      assert Selects(qss, names, Collect(qss, names).value, PrependIndex(|qs| > 0, idx'));
    }
  }

  /** One step of Collect: a table whose queries succeed puts its task, if any, before the rest's. */
  lemma CollectStep<Q, E>(qss: seq<Result<seq<Q>, E>>, names: seq<string>)
    requires |names| == |qss| > 0 && qss[0].Ok? && Collect(qss[1..], names[1..]).Ok?
    ensures var qs := qss[0].value;
      Collect(qss, names) ==
        Ok((if |qs| > 0 then [PersistTask(names[0], names[0], qs)] else []) + Collect(qss[1..], names[1..]).value)
  {
  }

  /** The step of CollectTasksExact: the first table's task, if any, then the rest's tasks with their indices moved on by one. */
  lemma SelectsCons<Q, E>(q0: seq<Q>, n0: string, qss: seq<Result<seq<Q>, E>>, names: seq<string>, ts: seq<PersistTask<Q>>, idx': seq<nat>)
    requires |names| == |qss| && Selects(qss, names, ts, idx')
    ensures Selects([Ok(q0)] + qss, [n0] + names,
                    (if |q0| > 0 then [PersistTask(n0, n0, q0)] else []) + ts, PrependIndex(|q0| > 0, idx'))
  {
    PointsCons(q0, n0, qss, names, ts, idx');
    PrependIndexIncreasing(|q0| > 0, idx');
    CoversCons(q0, qss, idx');
  }

  /** Each task, the first table's included, carries the queries and the name of the table its index names. */
  lemma PointsCons<Q, E>(q0: seq<Q>, n0: string, qss: seq<Result<seq<Q>, E>>, names: seq<string>, ts: seq<PersistTask<Q>>, idx': seq<nat>)
    requires |names| == |qss| && |idx'| == |ts| && Carries(qss, names, ts, idx')
    ensures var ts2 := (if |q0| > 0 then [PersistTask(n0, n0, q0)] else []) + ts;
      var idx := PrependIndex(|q0| > 0, idx');
      |idx| == |ts2| && Carries([Ok(q0)] + qss, [n0] + names, ts2, idx)
  {
    var qss2 := [Ok(q0)] + qss;
    var names2 := [n0] + names;
    var head: seq<PersistTask<Q>> := if |q0| > 0 then [PersistTask(n0, n0, q0)] else [];
    var ts2 := head + ts;
    var idx := PrependIndex(|q0| > 0, idx');
    if |q0| > 0 {
      forall k | 0 <= k < |idx|
        ensures && idx[k] < |qss2| && qss2[idx[k]] == Ok(ts2[k].queries) && |ts2[k].queries| > 0
                && ts2[k].table == names2[idx[k]] && ts2[k].collection == ts2[k].table
      {
        if k >= 1 {
          assert idx[k] == idx'[k - 1] + 1 && ts2[k] == ts[k - 1];
          assert qss2[idx'[k - 1] + 1] == qss[idx'[k - 1]] && names2[idx'[k - 1] + 1] == names[idx'[k - 1]];
        }
      }
    } else {
      forall k | 0 <= k < |idx|
        ensures && idx[k] < |qss2| && qss2[idx[k]] == Ok(ts2[k].queries) && |ts2[k].queries| > 0
                && ts2[k].table == names2[idx[k]] && ts2[k].collection == ts2[k].table
      {
        assert idx[k] == idx'[k] + 1 && ts2[k] == ts[k];
        assert qss2[idx'[k] + 1] == qss[idx'[k]] && names2[idx'[k] + 1] == names[idx'[k]];
      }
    }
  }

  /** Every table with queries still has its index once the first table's is put in front. */
  lemma CoversCons<Q, E>(q0: seq<Q>, qss: seq<Result<seq<Q>, E>>, idx': seq<nat>)
    requires Covers(qss, idx')
    ensures Covers([Ok(q0)] + qss, PrependIndex(|q0| > 0, idx'))
  {
    var qss2 := [Ok(q0)] + qss;
    var idx := PrependIndex(|q0| > 0, idx');
    forall i | 0 <= i < |qss2| && qss2[i].Ok? && |qss2[i].value| > 0
      ensures i in idx
    {
      if i > 0 {
        assert qss2[i] == qss[i - 1];
        assert i - 1 in idx';
        var k :| 0 <= k < |idx'| && idx'[k] == i - 1;
        if |q0| > 0 {
          assert idx[k + 1] == i;
        } else {
          assert idx[k] == i;
        }
      }
    }
  }

  /** With no failing table, the tasks are empty exactly when every table's queries are. */
  lemma SelectsEmpty<Q, E>(qss: seq<Result<seq<Q>, E>>, names: seq<string>, ts: seq<PersistTask<Q>>, idx: seq<nat>)
    requires |names| == |qss| && Selects(qss, names, ts, idx)
    ensures (forall i | 0 <= i < |qss| :: qss[i].Ok?) ==> (ts == [] <==> forall i | 0 <= i < |qss| :: qss[i] == Ok([]))
    ensures (forall i | 0 <= i < |qss| :: qss[i] == Ok([])) ==> ts == []
  {
    if ts != [] {
      assert qss[idx[0]] == Ok(ts[0].queries);
    } else if forall i | 0 <= i < |qss| :: qss[i].Ok? {
      forall i | 0 <= i < |qss| ensures qss[i] == Ok([]) {
        assert i !in idx;
      }
    }
  }

  /** The indices of the rest moved on by one, after index 0 when `first` holds. */
  function PrependIndex(first: bool, idx': seq<nat>): (idx: seq<nat>)
    ensures first ==> |idx| == |idx'| + 1 && idx[0] == 0 && forall j | 0 <= j < |idx'| :: idx[j + 1] == idx'[j] + 1
    ensures !first ==> |idx| == |idx'| && forall j | 0 <= j < |idx'| :: idx[j] == idx'[j] + 1
  {
    var moved := seq(|idx'|, k requires 0 <= k < |idx'| => idx'[k] + 1);
    if first then [0] + moved else moved
  }

  lemma PrependIndexIncreasing(first: bool, idx': seq<nat>)
    requires Increasing(idx')
    ensures Increasing(PrependIndex(first, idx'))
  {
    var idx := PrependIndex(first, idx');
    if first {
      forall k, l | 0 <= k < l < |idx| ensures idx[k] < idx[l] {
        assert idx[l] == idx'[l - 1] + 1;
        if k >= 1 {
          assert idx[k] == idx'[k - 1] + 1;
        }
      }
    } else {
      forall k, l | 0 <= k < l < |idx| ensures idx[k] < idx[l] {
        assert idx[l] == idx'[l] + 1 && idx[k] == idx'[k] + 1;
      }
    }
  }

  /**
   * PersistAll: collect the tasks of every table with at least one write and,
   * when there are any, cast them to the writer server in one AddTaskParams;
   * the outcome of that cast is PersistAll's result.
   */
  function PersistAll<K, V, D, S, R>(rt: GenServer.Runtime<S, WriterMsg<Query<K, D>>, R>,
                                     ctx: Container<K, V>, tables: seq<string>, order: string -> seq<K>, marshal: V -> Option<D>)
    : (r: (GenServer.Runtime<S, WriterMsg<Query<K, D>>, R>, Option<PersistError>))
    requires Enumerates(tables, ctx.models.Keys)
    requires forall t | t in ctx.models :: Enumerates(order(t), ctx.models[t].status.Keys)
    ensures Listed(ctx, tables, order)
    ensures CollectTasks(ctx, tables, order, marshal).Err? ==> r == (rt, Some(MarshalFailed))
    ensures CollectTasks(ctx, tables, order, marshal) == Ok([]) ==> r == (rt, None)
    ensures var c := CollectTasks(ctx, tables, order, marshal);
      c.Ok? && |c.value| > 0 ==>
        && (Persister !in rt.registry ==> r == (rt, Some(CastFailed(GenServer.CastTargetMissing(Persister)))))
        && (Persister in rt.registry && |rt.registry[Persister].mailbox| == GenServer.MailboxCapacity ==>
              r == (rt, Some(CastFailed(GenServer.QueueFull(Persister)))))
        && (Persister in rt.registry && |rt.registry[Persister].mailbox| != GenServer.MailboxCapacity ==>
              var mb := rt.registry[Persister].mailbox;
              && r.1 == None && Persister in r.0.registry
              && |r.0.registry[Persister].mailbox| == |mb| + 1
              && r.0.registry[Persister].mailbox[..|mb|] == mb
              && r.0.registry[Persister].mailbox[|mb|].msg == Some(AddTaskParams(c.value)))
  {
    EnumeratesMembers(tables, ctx.models.Keys);
    OrdersListStatuses(ctx, order);
    match CollectTasks(ctx, tables, order, marshal)
    case Err(e) => (rt, Some(e))
    case Ok(tasks) =>
      if |tasks| > 0 then
        var (rt', err) := GenServer.CastTo(rt, Persister, AddTaskParams(tasks));
        (rt', if err.Some? then Some(CastFailed(err.value)) else None)
      else (rt, None)
  }

  /** Each table's enumeration lists only uuids that have a status. */
  lemma OrdersListStatuses<K, V>(ctx: Container<K, V>, order: string -> seq<K>)
    requires forall t | t in ctx.models :: Enumerates(order(t), ctx.models[t].status.Keys)
    ensures forall t | t in ctx.models :: forall i | 0 <= i < |order(t)| :: order(t)[i] in ctx.models[t].status
  {
    forall t | t in ctx.models
      ensures forall i | 0 <= i < |order(t)| :: order(t)[i] in ctx.models[t].status
    {
      EnumeratesMembers(order(t), ctx.models[t].status.Keys);
    }
  }

  /** A table whose statuses all produce no write contributes no task. */
  lemma CleanTablesCastNothing<K, V, D, S, R>(rt: GenServer.Runtime<S, WriterMsg<Query<K, D>>, R>,
                                              ctx: Container<K, V>, tables: seq<string>, order: string -> seq<K>, marshal: V -> Option<D>)
    requires Enumerates(tables, ctx.models.Keys)
    requires forall t | t in ctx.models :: Enumerates(order(t), ctx.models[t].status.Keys)
    requires forall t | t in ctx.models :: ctx.models[t].status == map[]
    ensures PersistAll(rt, ctx, tables, order, marshal) == (rt, None)
  {
    EnumeratesMembers(tables, ctx.models.Keys);
    EmptyStatusNoTasks(ctx, tables, order, marshal);
    assert PersistAll(rt, ctx, tables, order, marshal) == (rt, None);
  }

  lemma {:induction false} EmptyStatusNoTasks<K, V, D>(ctx: Container<K, V>, tables: seq<string>, order: string -> seq<K>, marshal: V -> Option<D>)
    requires forall i | 0 <= i < |tables| :: tables[i] in ctx.models
    requires forall t | t in ctx.models :: Enumerates(order(t), ctx.models[t].status.Keys)
    requires forall t | t in ctx.models :: ctx.models[t].status == map[]
    ensures forall t | t in ctx.models :: forall i | 0 <= i < |order(t)| :: order(t)[i] in ctx.models[t].status
    ensures CollectTasks(ctx, tables, order, marshal) == Ok([])
    decreases |tables|
  {
    forall t | t in ctx.models
      ensures order(t) == []
    {
      assert ctx.models[t].status.Keys == {};
      EnumeratesMembers(order(t), ctx.models[t].status.Keys);
    }
    if |tables| > 0 {
      EmptyStatusNoTasks(ctx, tables[1..], order, marshal);
      assert order(tables[0]) == [];
      assert ModelQueries(ctx.models[tables[0]], order(tables[0]), marshal) == Ok([]);
      var m := ctx.models[tables[0]];
      var qs: seq<Query<K, D>> := [];
      assert (if |qs| > 0 then [PersistTask(m.name, m.name, qs)] else []) + [] == [];
    }
  }

  /** CleanAllStatus: every table forgets its statuses and keeps its records. */
  function CleanAllStatus<K, V>(ctx: Container<K, V>): (r: Container<K, V>)
    ensures r.models.Keys == ctx.models.Keys
    ensures forall t | t in r.models :: r.models[t] == CleanStatus(ctx.models[t])
  {
    Container(map t | t in ctx.models :: CleanStatus(ctx.models[t]))
  }

  /** After CleanAllStatus a PersistAll has nothing to write. */
  lemma CleanAllThenPersistNothing<K, V, D, S, R>(rt: GenServer.Runtime<S, WriterMsg<Query<K, D>>, R>,
                                                  ctx: Container<K, V>, tables: seq<string>, order: string -> seq<K>, marshal: V -> Option<D>)
    requires Enumerates(tables, ctx.models.Keys)
    requires forall t | t in ctx.models :: order(t) == []
    ensures PersistAll(rt, CleanAllStatus(ctx), tables, order, marshal) == (rt, None)
  {
    CleanTablesCastNothing(rt, CleanAllStatus(ctx), tables, order, marshal);
  }

  /* ---------------- the writer server ---------------- */

  /** One table's queue: its name, its collection and its pending writes, oldest first. */
  datatype Entry<Q> = Entry(table: string, collection: string, items: seq<Q>)

  /** The writer server's state: `tables` and `tabledList` together, one entry per table. */
  datatype Writer<Q> = Writer(entries: seq<Entry<Q>>)

  ghost predicate WellFormed<Q>(w: Writer<Q>) {
    forall i, j | 0 <= i < j < |w.entries| :: w.entries[i].table != w.entries[j].table
  }

  function IndexOf<Q>(es: seq<Entry<Q>>, table: string): (i: int)
    ensures -1 <= i < |es|
    ensures i >= 0 ==> es[i].table == table
    ensures i < 0 <==> forall j | 0 <= j < |es| :: es[j].table != table
    decreases |es|
  {
    if |es| == 0 then -1
    else if es[|es| - 1].table == table then |es| - 1
    else IndexOf(es[..|es| - 1], table)
  }

  /** The pending writes of a table; none for an unknown table. */
  function ItemsOf<Q>(w: Writer<Q>, table: string): seq<Q> {
    var i := IndexOf(w.entries, table);
    if i >= 0 then w.entries[i].items else []
  }

  function CollectionOf<Q>(w: Writer<Q>, table: string): Option<string> {
    var i := IndexOf(w.entries, table);
    if i >= 0 then Some(w.entries[i].collection) else None
  }

  /** Queue one task: append its writes to its table's list, creating the list (and recording the collection) the first time. */
  function AddTask<Q>(w: Writer<Q>, task: PersistTask<Q>): (r: Writer<Q>)
    ensures |r.entries| >= |w.entries|
  {
    var i := IndexOf(w.entries, task.table);
    if i >= 0 then Writer(w.entries[i := w.entries[i].(items := w.entries[i].items + task.queries)])
    else Writer(w.entries + [Entry(task.table, task.collection, task.queries)])
  }

  function AddTasks<Q>(w: Writer<Q>, tasks: seq<PersistTask<Q>>): (r: Writer<Q>)
    decreases |tasks|
  {
    if |tasks| == 0 then w else AddTasks(AddTask(w, tasks[0]), tasks[1..])
  }

  /** The writes of the tasks for one table, in task order. */
  function TasksFor<Q>(tasks: seq<PersistTask<Q>>, table: string): seq<Q>
    decreases |tasks|
  {
    if |tasks| == 0 then []
    else (if tasks[0].table == table then tasks[0].queries else []) + TasksFor(tasks[1..], table)
  }

  /** The collection of the first task for a table. */
  function FirstCollection<Q>(tasks: seq<PersistTask<Q>>, table: string): Option<string>
    decreases |tasks|
  {
    if |tasks| == 0 then None
    else if tasks[0].table == table then Some(tasks[0].collection)
    else FirstCollection(tasks[1..], table)
  }

  /** In a queue list without repeated tables, a table's entry is found wherever it sits. */
  lemma {:induction false} IndexOfUnique<Q>(es: seq<Entry<Q>>, t: string, k: nat)
    requires WellFormed(Writer(es))
    requires k < |es| && es[k].table == t
    ensures IndexOf(es, t) == k
    decreases |es|
  {
    if k < |es| - 1 {
      assert es[|es| - 1].table != t;
      IndexOfUnique(es[..|es| - 1], t, k);
    }
  }

  lemma AddTaskEffect<Q>(w: Writer<Q>, task: PersistTask<Q>, t: string)
    requires WellFormed(w)
    ensures WellFormed(AddTask(w, task))
    ensures ItemsOf(AddTask(w, task), t) == ItemsOf(w, t) + (if task.table == t then task.queries else [])
    ensures CollectionOf(AddTask(w, task), t)
      == if CollectionOf(w, t).Some? || task.table != t then CollectionOf(w, t) else Some(task.collection)
  {
    if IndexOf(w.entries, task.table) >= 0 {
      AddTaskToKnown(w, task, t);
    } else {
      AddTaskToNew(w, task, t);
    }
  }

  /** AddTaskEffect for a table that already has a list: only that list grows. */
  lemma AddTaskToKnown<Q>(w: Writer<Q>, task: PersistTask<Q>, t: string)
    requires WellFormed(w) && IndexOf(w.entries, task.table) >= 0
    ensures WellFormed(AddTask(w, task))
    ensures ItemsOf(AddTask(w, task), t) == ItemsOf(w, t) + (if task.table == t then task.queries else [])
    ensures CollectionOf(AddTask(w, task), t) == CollectionOf(w, t)
  {
    var r := AddTask(w, task);
    var i := IndexOf(w.entries, task.table);
    var j := IndexOf(w.entries, t);
    assert forall k | 0 <= k < |w.entries| :: r.entries[k].table == w.entries[k].table;
    if j >= 0 {
      IndexOfUnique(r.entries, t, j);
      if t == task.table {
        IndexOfUnique(w.entries, t, i);
      }
    }
  }

  /** AddTaskEffect for a table without a list: a new list is added at the end, every other is untouched. */
  lemma AddTaskToNew<Q>(w: Writer<Q>, task: PersistTask<Q>, t: string)
    requires WellFormed(w) && IndexOf(w.entries, task.table) < 0
    ensures WellFormed(AddTask(w, task))
    ensures ItemsOf(AddTask(w, task), t) == ItemsOf(w, t) + (if task.table == t then task.queries else [])
    ensures CollectionOf(AddTask(w, task), t) == if task.table != t then CollectionOf(w, t) else Some(task.collection)
  {
    var r := AddTask(w, task);
    assert r.entries[..|w.entries|] == w.entries;
    if t != task.table {
      assert IndexOf(r.entries, t) == IndexOf(w.entries, t);
    }
  }

  /**
   * Queueing tasks appends each task's writes, in order, to the tail of its
   * table's list; the collection recorded for a table is the one it got first.
   */
  lemma {:induction false} AddTasksAppends<Q>(w: Writer<Q>, tasks: seq<PersistTask<Q>>, t: string)
    requires WellFormed(w)
    ensures WellFormed(AddTasks(w, tasks))
    ensures ItemsOf(AddTasks(w, tasks), t) == ItemsOf(w, t) + TasksFor(tasks, t)
    ensures CollectionOf(AddTasks(w, tasks), t)
      == if CollectionOf(w, t).Some? then CollectionOf(w, t) else FirstCollection(tasks, t)
    decreases |tasks|
  {
    if |tasks| > 0 {
      AddTaskEffect(w, tasks[0], t);
      AddTasksAppends(AddTask(w, tasks[0]), tasks[1..], t);
    }
  }

  /** The number of pending writes over all tables. */
  function Remain<Q>(es: seq<Entry<Q>>): nat
    decreases |es|
  {
    if |es| == 0 then 0 else Remain(es[..|es| - 1]) + |es[|es| - 1].items|
  }

  /** RemainTasks: add up the list lengths. */
  method RemainTasks<Q>(w: Writer<Q>) returns (count: nat)
    ensures count == Remain(w.entries)
    ensures count == 0 <==> forall i | 0 <= i < |w.entries| :: w.entries[i].items == []
  {
    count := 0;
    var k := 0;
    while k < |w.entries|
      invariant 0 <= k <= |w.entries|
      invariant count == Remain(w.entries[..k])
      invariant count == 0 <==> forall i | 0 <= i < k :: w.entries[i].items == []
    {
      assert w.entries[..k + 1][..k] == w.entries[..k];
      count := count + |w.entries[k].items|;
      k := k + 1;
    }
    assert w.entries[..k] == w.entries;
  }

  /** batchGet: visit the items from the front, stopping after BatchLimit. */
  method BatchGet<Q>(items: seq<Q>) returns (batch: seq<Q>, count: nat)
    ensures count == Min(|items|, BatchLimit)
    ensures batch == items[..count]
  {
    batch := [];
    count := 0;
    var k := 0;
    while k < |items|
      invariant 0 <= k <= |items| && count == k && k <= BatchLimit
      invariant batch == items[..k]
      invariant k < |items| ==> k < BatchLimit
    {
      batch := batch + [items[k]];
      count := count + 1;
      k := k + 1;
      if count >= BatchLimit {
        break;
      }
    }
  }

  /** removeList: drop `count` items from the front. */
  method RemoveList<Q>(items: seq<Q>, count: nat) returns (rest: seq<Q>)
    requires count <= |items|
    ensures |rest| == |items| - count
    ensures forall k | 0 <= k < |rest| :: rest[k] == items[count + k]
  {
    rest := items;
    var i := 0;
    while i < count
      invariant 0 <= i <= count
      invariant rest == items[i..]
    {
      rest := rest[1..];
      i := i + 1;
    }
  }

  /** What a flush did: the new queues, the bulk-write error if any, and whether it re-casts itself. */
  datatype Flush<Q> = Flush(writer: Writer<Q>, err: Option<PersistError>, recast: bool)

  /** The size of the next batch of a queue. */
  function BatchSize<Q>(e: Entry<Q>): nat {
    Min(|e.items|, BatchLimit)
  }

  /**
   * The loop of batchWriteModel over the tables, visited in the order `perm`.
   * Each table sends its first BatchSize items; an empty queue is skipped; a
   * failed bulk write stops the loop, leaving that queue and all unvisited
   * ones intact; a successful one removes exactly the items it sent.
   */
  function WriteTables<Q>(es: seq<Entry<Q>>, perm: seq<nat>, bulk: (string, seq<Q>) -> bool)
    : (r: (seq<Entry<Q>>, Option<PersistError>))
    requires forall k | 0 <= k < |perm| :: perm[k] < |es|
    ensures |r.0| == |es|
    ensures forall j | 0 <= j < |es| :: r.0[j].table == es[j].table && r.0[j].collection == es[j].collection
    decreases |perm|
  {
    if |perm| == 0 then (es, None)
    else
      var i := perm[0];
      var e := es[i];
      var n := BatchSize(e);
      if n == 0 then WriteTables(es, perm[1..], bulk)
      else if !bulk(e.table, e.items[..n]) then (es, Some(BulkWriteFailed(e.table)))
      else WriteTables(es[i := e.(items := e.items[n..])], perm[1..], bulk)
  }

  /**
   * Only successful bulk writes remove anything, and each removes exactly
   * the prefix it sent; without an error every visited queue lost its batch.
   */
  lemma {:induction false} WriteTablesEffect<Q>(es: seq<Entry<Q>>, perm: seq<nat>, bulk: (string, seq<Q>) -> bool)
    requires forall k | 0 <= k < |perm| :: perm[k] < |es|
    requires Distinct(perm)
    ensures var (es', err) := WriteTables(es, perm, bulk);
      && (forall j | 0 <= j < |es| ::
            || es'[j] == es[j]
            || (j in perm && bulk(es[j].table, es[j].items[..BatchSize(es[j])])
                && es'[j].items == es[j].items[BatchSize(es[j])..]))
      && (err.None? ==> forall j | j in perm :: es'[j].items == es[j].items[BatchSize(es[j])..])
      && (err.Some? ==> exists j | j in perm ::
            && err == Some(BulkWriteFailed(es[j].table)) && BatchSize(es[j]) > 0
            && !bulk(es[j].table, es[j].items[..BatchSize(es[j])]) && es'[j] == es[j])
    decreases |perm|
  {
    if |perm| > 0 {
      var i := perm[0];
      var e := es[i];
      var n := BatchSize(e);
      DistinctTail(perm);
      if n == 0 {
        WriteTablesEffect(es, perm[1..], bulk);
        assert e.items[n..] == e.items;
      } else if bulk(e.table, e.items[..n]) {
        var es1 := es[i := e.(items := e.items[n..])];
        WriteTablesEffect(es1, perm[1..], bulk);
        var (es', err) := WriteTables(es1, perm[1..], bulk);
        forall j | 0 <= j < |es| && j != i
          ensures es1[j] == es[j]
        {
        }
        assert i !in perm[1..];
      }
    }
  }

  /** batchWriteModel: write one batch per table; re-cast only after a clean pass that left items. */
  function BatchWrite<Q>(w: Writer<Q>, perm: seq<nat>, bulk: (string, seq<Q>) -> bool): (f: Flush<Q>)
    requires IsPermutation(perm, |w.entries|)
    ensures f.recast <==> f.err.None? && Remain(f.writer.entries) != 0
    ensures |f.writer.entries| == |w.entries|
  {
    var (es, err) := WriteTables(w.entries, perm, bulk);
    if err.Some? then Flush(Writer(es), err, false)
    else Flush(Writer(es), None, Remain(es) != 0)
  }

  /** A clean pass makes progress: something pending means strictly less pending afterwards. */
  lemma BatchWriteProgress<Q>(w: Writer<Q>, perm: seq<nat>, bulk: (string, seq<Q>) -> bool)
    requires IsPermutation(perm, |w.entries|)
    requires BatchWrite(w, perm, bulk).err.None?
    ensures Remain(w.entries) > 0 ==> Remain(BatchWrite(w, perm, bulk).writer.entries) < Remain(w.entries)
    ensures forall j | 0 <= j < |w.entries| ::
      BatchWrite(w, perm, bulk).writer.entries[j].items == w.entries[j].items[BatchSize(w.entries[j])..]
  {
    var (es', err) := WriteTables(w.entries, perm, bulk);
    assert BatchWrite(w, perm, bulk).writer.entries == es';
    WriteTablesEffect(w.entries, perm, bulk);
    forall j | 0 <= j < |w.entries|
      ensures es'[j].items == w.entries[j].items[BatchSize(w.entries[j])..]
    {
      assert j in perm;
    }
    RemainShrinks(w.entries, es');
  }

  lemma {:induction false} RemainShrinks<Q>(es: seq<Entry<Q>>, es': seq<Entry<Q>>)
    requires |es'| == |es|
    requires forall j | 0 <= j < |es| :: es'[j].items == es[j].items[BatchSize(es[j])..]
    ensures Remain(es') <= Remain(es)
    ensures Remain(es) > 0 ==> Remain(es') < Remain(es)
    decreases |es|
  {
    if |es| > 0 {
      var n := |es| - 1;
      RemainShrinks(es[..n], es'[..n]);
    }
  }

  /** When every record marshals, collecting the tasks cannot fail. */
  lemma {:induction false} CollectTasksSucceed<K, V, D>(ctx: Container<K, V>, tables: seq<string>, order: string -> seq<K>, marshal: V -> Option<D>)
    requires forall i | 0 <= i < |tables| :: tables[i] in ctx.models
    requires forall t | t in ctx.models :: forall i | 0 <= i < |order(t)| :: order(t)[i] in ctx.models[t].status
    requires forall t, u | t in ctx.models && u in ctx.models[t].recs :: marshal(ctx.models[t].recs[u]).Some?
    ensures CollectTasks(ctx, tables, order, marshal).Ok?
    decreases |tables|
  {
    if |tables| > 0 {
      QueriesSucceed(ctx.models[tables[0]], order(tables[0]), marshal);
      CollectTasksSucceed(ctx, tables[1..], order, marshal);
    }
  }

  /** PersistAll fails only on a record that does not marshal or a cast the writer server does not take. */
  lemma PersistAllSucceeds<K, V, D, S, R>(rt: GenServer.Runtime<S, WriterMsg<Query<K, D>>, R>,
                                          ctx: Container<K, V>, tables: seq<string>, order: string -> seq<K>, marshal: V -> Option<D>)
    requires Enumerates(tables, ctx.models.Keys)
    requires forall t | t in ctx.models :: Enumerates(order(t), ctx.models[t].status.Keys)
    requires forall t, u | t in ctx.models && u in ctx.models[t].recs :: marshal(ctx.models[t].recs[u]).Some?
    requires Persister in rt.registry && |rt.registry[Persister].mailbox| < GenServer.MailboxCapacity
    ensures PersistAll(rt, ctx, tables, order, marshal).1 == None
  {
    EnumeratesMembers(tables, ctx.models.Keys);
    OrdersListStatuses(ctx, order);
    CollectTasksSucceed(ctx, tables, order, marshal);
  }

  /* ---------------- the writer server's messages ---------------- */

  datatype WriterMsg<Q> =
    | AddTaskParams(tasks: seq<PersistTask<Q>>)
    | TickerPersistParams
    | RemainTasksParams
    | OtherMsg

  /** Init: no tables, no queues. */
  function WriterInit<Q>(): (w: Writer<Q>)
    ensures WellFormed(w) && Remain(w.entries) == 0
  {
    Writer([])
  }

  /** The queues a message leaves before any flush: AddTaskParams queues, everything else leaves them. */
  function Staged<Q>(w: Writer<Q>, msg: WriterMsg<Q>): Writer<Q> {
    if msg.AddTaskParams? then AddTasks(w, msg.tasks) else w
  }

  /**
   * HandleCast: AddTaskParams queues the tasks and flushes if and only if at
   * least BatchLimit writes are pending; TickerPersistParams flushes; any
   * other message changes nothing. `perm` is the order the flush visits the
   * tables in.
   */
  function WriterCast<Q>(w: Writer<Q>, msg: WriterMsg<Q>, perm: seq<nat>, bulk: (string, seq<Q>) -> bool): (f: Flush<Q>)
    requires IsPermutation(perm, |Staged(w, msg).entries|)
    ensures msg.AddTaskParams? && Remain(Staged(w, msg).entries) < BatchLimit ==> f == Flush(Staged(w, msg), None, false)
    ensures msg.AddTaskParams? && Remain(Staged(w, msg).entries) >= BatchLimit ==> f == BatchWrite(Staged(w, msg), perm, bulk)
    ensures msg.TickerPersistParams? ==> f == BatchWrite(w, perm, bulk)
    ensures msg.RemainTasksParams? || msg.OtherMsg? ==> f == Flush(w, None, false)
  {
    match msg
    case AddTaskParams(tasks) =>
      var w1 := AddTasks(w, tasks);
      if Remain(w1.entries) >= BatchLimit then BatchWrite(w1, perm, bulk) else Flush(w1, None, false)
    case TickerPersistParams => BatchWrite(w, perm, bulk)
    case _ => Flush(w, None, false)
  }

  /** HandleCall: the ticker flushes and answers nil; RemainTasksParams answers the pending count. */
  function WriterCall<Q>(w: Writer<Q>, msg: WriterMsg<Q>, perm: seq<nat>, bulk: (string, seq<Q>) -> bool)
    : (r: (Flush<Q>, Option<nat>))
    requires IsPermutation(perm, |w.entries|)
    ensures msg.TickerPersistParams? ==> r == (BatchWrite(w, perm, bulk), None)
    ensures msg.RemainTasksParams? ==> r == (Flush(w, None, false), Some(Remain(w.entries)))
    ensures !msg.TickerPersistParams? && !msg.RemainTasksParams? ==> r == (Flush(w, None, false), None)
  {
    match msg
    case TickerPersistParams => (BatchWrite(w, perm, bulk), None)
    case RemainTasksParams => (Flush(w, None, false), Some(Remain(w.entries)))
    case _ => (Flush(w, None, false), None)
  }

  /** A flush keeps the tables, their collections and their order; queues only lose a prefix. */
  lemma FlushKeepsTables<Q>(w: Writer<Q>, perm: seq<nat>, bulk: (string, seq<Q>) -> bool)
    requires IsPermutation(perm, |w.entries|)
    ensures var w' := BatchWrite(w, perm, bulk).writer;
      forall j | 0 <= j < |w.entries| ::
        && w'.entries[j].table == w.entries[j].table
        && w'.entries[j].collection == w.entries[j].collection
        && (w'.entries[j] == w.entries[j] || w'.entries[j].items == w.entries[j].items[BatchSize(w.entries[j])..])
  {
    WriteTablesEffect(w.entries, perm, bulk);
  }
}

=== FILE: pool.dfy ===
/**
 * The worker pool of pool/pool.go and pool/worker.go.
 *
 * A manager server keeps the idle workers and the pending tasks, both FIFO.
 * A task goes to the first idle worker or waits at the tail; a worker that
 * finishes is given the oldest pending task or goes back to the idle tail.
 * Workers are their indices 0..size-1; handing a task to a worker
 * (Worker.Process, a cast to the worker's server) is an effect the step
 * returns. A request is named by the slot of its reply channel, as in the
 * GenServer model.
 */
module Pool {
  import opened Wrappers
  import opened Seqs
  import GenServer

  /** Task: the caller's payload, the request it came in, and whether the caller waits for a reply. */
  datatype Task<P> = Task(params: P, client: nat, reply: bool)

  datatype Manager<P> = Manager(tasks: seq<Task<P>>, idle: seq<nat>, size: nat)

  datatype ManagerMsg<P> = TaskParams(msg: P) | ReturnWorkerParams(idx: int) | OtherMsg

  /** Worker `worker` is cast `task`. */
  datatype Handoff<P> = Handoff(worker: nat, task: Task<P>)

  /** One manager step: the new state, the hand-off it made, and whether it panicked (and was recovered). */
  datatype Step<P> = Step(manager: Manager<P>, handoff: Option<Handoff<P>>, panicked: bool)

  /** New: worker i has index i, every worker is idle in index order, no task is pending. */
  function New<P>(size: nat): (m: Manager<P>)
    ensures m.tasks == [] && m.size == size
    ensures |m.idle| == size && forall i | 0 <= i < size :: m.idle[i] == i
  {
    Manager([], Range(size), size)
  }

  /** The dispatch shared by both paths: the first idle worker takes the task, or it waits at the tail. */
  function Submit<P>(m: Manager<P>, task: Task<P>): (s: Step<P>)
    ensures !s.panicked && s.manager.size == m.size
    ensures |m.idle| > 0 ==> s.manager == m.(idle := m.idle[1..]) && s.handoff == Some(Handoff(m.idle[0], task))
    ensures |m.idle| == 0 ==> s.manager == m.(tasks := m.tasks + [task]) && s.handoff == None
  {
    if |m.idle| > 0 then Step(m.(idle := m.idle[1..]), Some(Handoff(m.idle[0], task)), false)
    else Step(m.(tasks := m.tasks + [task]), None, false)
  }

  /**
   * Manager.HandleCall: a task from the call path waits for its reply
   * (Reply=true, Client=the request); the call itself answers nothing, so
   * the reply is whatever the worker sends later.
   */
  function HandleCall<P>(m: Manager<P>, msg: ManagerMsg<P>, slot: nat): (s: Step<P>)
    ensures msg.TaskParams? ==> s == Submit(m, Task(msg.msg, slot, true))
    ensures !msg.TaskParams? ==> s == Step(m, None, false)
  {
    match msg
    case TaskParams(p) => Submit(m, Task(p, slot, true))
    case _ => Step(m, None, false)
  }

  /**
   * Manager.HandleCast: a task from the cast path needs no reply; a returned
   * worker takes the oldest pending task or goes to the idle tail. An index
   * outside the worker table panics: after the front task was already
   * taken off the list (the task is lost), or before the worker was queued
   * (nothing changes). Any other message changes nothing.
   */
  function HandleCast<P>(m: Manager<P>, msg: ManagerMsg<P>, slot: nat): (s: Step<P>)
    ensures msg.TaskParams? ==> s == Submit(m, Task(msg.msg, slot, false))
    ensures msg.OtherMsg? ==> s == Step(m, None, false)
    ensures msg.ReturnWorkerParams? ==> (s.panicked <==> !(0 <= msg.idx < m.size))
    ensures msg.ReturnWorkerParams? && 0 <= msg.idx < m.size && |m.tasks| > 0 ==>
      s.handoff == Some(Handoff(msg.idx as nat, m.tasks[0])) && s.manager == m.(tasks := m.tasks[1..])
    ensures msg.ReturnWorkerParams? && 0 <= msg.idx < m.size && |m.tasks| == 0 ==>
      s.handoff == None && s.manager == m.(idle := m.idle + [msg.idx as nat])
    ensures msg.ReturnWorkerParams? && !(0 <= msg.idx < m.size) ==>
      && s.handoff == None
      && s.manager == (if |m.tasks| > 0 then m.(tasks := m.tasks[1..]) else m)
  {
    match msg
    case TaskParams(p) => Submit(m, Task(p, slot, false))
    case ReturnWorkerParams(idx) =>
      if |m.tasks| > 0 then
        if 0 <= idx < m.size then Step(m.(tasks := m.tasks[1..]), Some(Handoff(idx, m.tasks[0])), false)
        else Step(m.(tasks := m.tasks[1..]), None, true)
      else if 0 <= idx < m.size then Step(m.(idle := m.idle + [idx]), None, false)
      else Step(m, None, true)
    case OtherMsg => Step(m, None, false)
  }

  /** Pending tasks wait only while no worker is idle. */
  ghost predicate NoIdleWhileQueued<P>(m: Manager<P>) {
    |m.tasks| > 0 ==> |m.idle| == 0
  }

  /** Every manager step keeps "tasks pending implies no idle worker", on either path, for every message. */
  lemma StepsKeepNoIdleWhileQueued<P>(m: Manager<P>, msg: ManagerMsg<P>, slot: nat)
    requires NoIdleWhileQueued(m)
    ensures NoIdleWhileQueued(HandleCall(m, msg, slot).manager)
    ensures NoIdleWhileQueued(HandleCast(m, msg, slot).manager)
  {
  }

  lemma NewHasNoQueue<P>(size: nat)
    ensures NoIdleWhileQueued(New<P>(size))
    ensures IdleSound(New<P>(size))
  {
    RangeIsPermutation(size);
  }

  /** The idle list holds valid, distinct worker indices. */
  ghost predicate IdleSound<P>(m: Manager<P>) {
    Distinct(m.idle) && forall k | 0 <= k < |m.idle| :: m.idle[k] < m.size
  }

  /**
   * A valid worker returning while not idle keeps the idle list sound; the
   * task path never adds to it.
   */
  lemma StepsKeepIdleSound<P>(m: Manager<P>, msg: ManagerMsg<P>, slot: nat)
    requires IdleSound(m)
    requires msg.ReturnWorkerParams? ==> msg.idx !in m.idle
    ensures IdleSound(HandleCall(m, msg, slot).manager)
    ensures IdleSound(HandleCast(m, msg, slot).manager)
  {
    if msg.TaskParams? && |m.idle| > 0 {
      DistinctTail(m.idle);
    }
  }

  /**
   * Hand-offs are FIFO: with every worker busy, tasks submitted in order are
   * handed out in that order as workers return.
   */
  lemma {:induction false} ReturnsServeInOrder<P>(m: Manager<P>, idxs: seq<nat>)
    requires forall k | 0 <= k < |idxs| :: idxs[k] < m.size
    requires |idxs| <= |m.tasks|
    ensures var (m', handed) := ReturnAll(m, idxs);
      && |handed| == |idxs|
      && (forall k | 0 <= k < |idxs| :: handed[k] == Handoff(idxs[k], m.tasks[k]))
      && m'.tasks == m.tasks[|idxs|..] && m'.idle == m.idle
    decreases |idxs|
  {
    if |idxs| > 0 {
      var s := HandleCast(m, ReturnWorkerParams(idxs[0]), 0);
      ReturnsServeInOrder(s.manager, idxs[1..]);
      assert s.manager.tasks[|idxs| - 1..] == m.tasks[|idxs|..];
    }
  }

  /** A run of ReturnWorker casts, collecting the hand-offs. */
  function ReturnAll<P>(m: Manager<P>, idxs: seq<nat>): (r: (Manager<P>, seq<Handoff<P>>))
    decreases |idxs|
  {
    if |idxs| == 0 then (m, [])
    else
      var s := HandleCast(m, ReturnWorkerParams(idxs[0]), 0);
      var (m', rest) := ReturnAll(s.manager, idxs[1..]);
      (m', (if s.handoff.Some? then [s.handoff.value] else []) + rest)
  }

  /* ---------------- the worker ---------------- */

  /** What the task handler did: returned a result and an error, or panicked. */
  datatype HandlerOutcome<R> = Returned(result: Option<R>, err: Option<GenServer.Error>) | HandlerPanicked

  datatype WorkerMsg<P> = TaskMsg(task: Task<P>) | OtherWorkerMsg

  /** A reply for the request in slot `slot`. */
  datatype Reply<R> = Reply(slot: nat, result: Option<R>, err: Option<GenServer.Error>)

  /** What one worker cast does: at most one reply, and the ReturnWorker cast of its own index. */
  datatype WorkerStep<R> = WorkerStep(reply: Option<Reply<R>>, returnWorker: ManagerMsg<R>)

  /**
   * Worker.HandleCast: for a task the handler runs on its params and the
   * result is sent back only when the caller waits for it; any other payload
   * runs nothing. Whatever happens, the deferred ReturnWorker(idx) is sent.
   */
  function WorkerCast<P, R>(idx: nat, handler: P -> HandlerOutcome<R>, msg: WorkerMsg<P>): (w: WorkerStep<R>)
    ensures w.returnWorker == ReturnWorkerParams(idx)
    ensures w.reply.Some? <==> msg.TaskMsg? && msg.task.reply && handler(msg.task.params).Returned?
    ensures w.reply.Some? ==>
      w.reply.value == Reply(msg.task.client, handler(msg.task.params).result, handler(msg.task.params).err)
  {
    match msg
    case TaskMsg(task) =>
      (match handler(task.params)
       case Returned(result, err) =>
         WorkerStep(if task.reply then Some(Reply(task.client, result, err)) else None, ReturnWorkerParams(idx))
       case HandlerPanicked => WorkerStep(None, ReturnWorkerParams(idx)))
    case OtherWorkerMsg => WorkerStep(None, ReturnWorkerParams(idx))
  }

  /** Worker.HandleCall answers (nil, nil); Init and Terminate never fail. */
  function WorkerCall(): (r: (Option<int>, Option<GenServer.Error>))
    ensures r.0.None? && r.1.None?
  {
    (None, None)
  }

  /**
   * A call-path task served by a worker is answered exactly once, to the
   * request it came in; a cast-path task never is.
   */
  lemma CallPathAnsweredOnce<P, R>(m: Manager<P>, p: P, slot: nat, handler: P -> HandlerOutcome<R>)
    requires |m.idle| > 0
    requires handler(p).Returned?
    ensures var s := HandleCall(m, TaskParams(p), slot);
      && s.handoff.Some?
      && WorkerCast(s.handoff.value.worker, handler, TaskMsg(s.handoff.value.task)).reply
         == Some(Reply(slot, handler(p).result, handler(p).err))
    ensures var s := HandleCast(m, TaskParams(p), slot);
      && s.handoff.Some?
      && WorkerCast(s.handoff.value.worker, handler, TaskMsg(s.handoff.value.task)).reply == None
  {
  }

  /* ---------------- the pool's entry points ---------------- */

  /*
   * The pool holds its manager server directly (gen_server.New registers no
   * name), so it is never missing: below it is the server under `pool`, and
   * only its mailbox can refuse a message.
   */

  /** Process: a ManualCall carrying the task, so the manager's own return sends nothing; a full mailbox makes the caller wait. */
  function Process<S, P, R>(rt: GenServer.Runtime<S, ManagerMsg<P>, R>, pool: string, args: P)
    : (r: GenServer.Enqueue<S, ManagerMsg<P>, R>)
    requires pool in rt.registry
    ensures r.Blocked? <==> |rt.registry[pool].mailbox| >= GenServer.MailboxCapacity
    ensures !r.Missing?
    ensures r.Enqueued? ==>
      && pool in r.rt.registry
      && r.rt.registry[pool].mailbox
         == rt.registry[pool].mailbox + [GenServer.Request(GenServer.ManualCall, Some(TaskParams(args)), r.slot)]
  {
    GenServer.CallEnqueue(rt, pool, TaskParams(args), true)
  }

  /**
   * ProcessAsync: a Cast carrying the task. On a full mailbox the cast
   * fails, its error is only logged (the second component), and nothing is
   * queued.
   */
  function ProcessAsync<S, P, R>(rt: GenServer.Runtime<S, ManagerMsg<P>, R>, pool: string, args: P)
    : (r: (GenServer.Runtime<S, ManagerMsg<P>, R>, Option<GenServer.Error>))
    requires pool in rt.registry
    ensures |rt.registry[pool].mailbox| == GenServer.MailboxCapacity ==> r == (rt, Some(GenServer.QueueFull(pool)))
    ensures |rt.registry[pool].mailbox| != GenServer.MailboxCapacity ==>
      && r.1 == None
      && pool in r.0.registry
      && |r.0.registry[pool].mailbox| == |rt.registry[pool].mailbox| + 1
      && r.0.registry[pool].mailbox[..|rt.registry[pool].mailbox|] == rt.registry[pool].mailbox
      && r.0.registry[pool].mailbox[|rt.registry[pool].mailbox|].msg == Some(TaskParams(args))
      && r.0.registry[pool].mailbox[|rt.registry[pool].mailbox|].category == GenServer.Cast
  {
    GenServer.CastTo(rt, pool, TaskParams(args))
  }
}

=== FILE: seqs.dfy ===
/**
 * Small facts about sequences used across the model: duplicate-free
 * sequences, enumerations of a set (how a Go `range` over a map is modelled:
 * some order, each key once), and permutations of indices.
 */
module Seqs {

  function Min(a: int, b: int): int {
    if a <= b then a else b
  }

  predicate Distinct<T(==)>(xs: seq<T>) {
    forall i, j | 0 <= i < j < |xs| :: xs[i] != xs[j]
  }

  /** `xs` lists every element of `s` exactly once, in some order. */
  predicate Enumerates<T(==)>(xs: seq<T>, s: set<T>) {
    Distinct(xs) && (set x | x in xs) == s
  }

  /** `p` lists every index below `n` exactly once, in some order. */
  predicate IsPermutation(p: seq<nat>, n: nat) {
    && |p| == n && Distinct(p)
    && (forall k | 0 <= k < |p| :: p[k] < n)
    && (forall j | 0 <= j < n :: j in p)
  }

  /** The identity permutation 0, 1, …, n-1. */
  function Range(n: nat): (r: seq<nat>)
    ensures |r| == n && forall k | 0 <= k < n :: r[k] == k
  {
    if n == 0 then [] else Range(n - 1) + [n - 1]
  }

  lemma RangeIsPermutation(n: nat)
    ensures IsPermutation(Range(n), n)
  {
    forall j | 0 <= j < n
      ensures j in Range(n)
    {
      assert Range(n)[j] == j;
    }
  }

  lemma DistinctTail<T>(xs: seq<T>)
    requires |xs| > 0 && Distinct(xs)
    ensures Distinct(xs[1..]) && xs[0] !in xs[1..]
  {
    forall j | 0 <= j < |xs| - 1
      ensures xs[1..][j] != xs[0]
    {
      assert xs[1..][j] == xs[j + 1];
    }
  }

  /** The members of an enumeration are exactly the members of the set. */
  lemma EnumeratesMembers<T>(xs: seq<T>, s: set<T>)
    requires Enumerates(xs, s)
    ensures forall i | 0 <= i < |xs| :: xs[i] in s
    ensures forall x | x in s :: x in xs
    ensures s == {} ==> xs == []
  {
    forall i | 0 <= i < |xs|
      ensures xs[i] in s
    {
      assert xs[i] in (set x | x in xs);
    }
    if |xs| > 0 {
      assert xs[0] in (set x | x in xs);
    }
  }

  /** An enumeration of a set is as long as the set is large. */
  lemma {:induction false} DistinctCardinality<T>(xs: seq<T>, s: set<T>)
    requires Enumerates(xs, s)
    ensures |xs| == |s|
    decreases |xs|
  {
    if |xs| == 0 {
      assert s == {};
    } else {
      DistinctTail(xs);
      var s' := s - {xs[0]};
      assert xs == [xs[0]] + xs[1..];
      assert (set x | x in xs[1..]) == s';
      DistinctCardinality(xs[1..], s');
    }
  }

  /** Removing a subset takes away exactly its size. */
  lemma {:induction false} DifferenceCardinality<T>(s: set<T>, t: set<T>)
    requires s <= t
    ensures |t| == |s| + |t - s|
    decreases |s|
  {
    if s != {} {
      var y :| y in s;
      DifferenceCardinality(s - {y}, t - {y});
      assert (t - {y}) - (s - {y}) == t - s;
    }
  }

  /** A subset as large as the whole set is the whole set. */
  lemma SubsetOfSameSize<T>(s: set<T>, t: set<T>)
    requires s <= t && |s| == |t|
    ensures s == t
  {
    DifferenceCardinality(s, t);
    assert t - s == {};
  }

  /** The indices in [lo, hi) that satisfy `keep`, in increasing order. */
  function Indices(keep: nat -> bool, lo: nat, hi: nat): (ks: seq<nat>)
    ensures forall k | 0 <= k < |ks| :: (lo <= ks[k] < hi && keep(ks[k]))
    ensures forall j | lo <= j < hi && keep(j) :: j in ks
    ensures forall a, b | 0 <= a < b < |ks| :: (ks[a] < ks[b])
    decreases hi - lo
  {
    if lo >= hi then []
    else (if keep(lo) then [lo] else []) + Indices(keep, lo + 1, hi)
  }
}

=== FILE: strs.dfy ===
/**
 * The parts of Go's `strings` package that the modelled code relies on,
 * over `string` = `seq<char>` (one char per Unicode code point).
 */
module Strs {

  predicate HasPrefix(s: string, p: string) {
    |p| <= |s| && s[..|p|] == p
  }

  predicate HasSuffix(s: string, p: string) {
    |p| <= |s| && s[|s| - |p|..] == p
  }

  /** `sub` occurs in `s` starting at index `i`. */
  predicate OccursAt(s: string, sub: string, i: int) {
    0 <= i && i + |sub| <= |s| && s[i..i + |sub|] == sub
  }

  /** strings.Contains */
  predicate Contains(s: string, sub: string) {
    exists i | 0 <= i <= |s| - |sub| :: OccursAt(s, sub, i)
  }

  /** The first occurrence of `sub` in `s` at or after `from`, or -1 (strings.Index from `from`). */
  function IndexFrom(s: string, sub: string, from: nat): (r: int)
    requires |sub| > 0
    ensures r == -1 || (from <= r && OccursAt(s, sub, r))
    ensures forall j | from <= j && (r == -1 || j < r) :: !OccursAt(s, sub, j)
    decreases |s| - from
  {
    if from + |sub| > |s| then -1
    else if s[from..from + |sub|] == sub then from
    else IndexFrom(s, sub, from + 1)
  }

  lemma NoOccurrenceBefore(s: string, sub: string, i: nat)
    requires |sub| > 0 && i <= |s|
    requires forall j | 0 <= j < i :: !OccursAt(s, sub, j)
    ensures !Contains(s[..i], sub)
  {
    if Contains(s[..i], sub) {
      var j :| 0 <= j <= i - |sub| && OccursAt(s[..i], sub, j);
      assert s[..i][j..j + |sub|] == s[j..j + |sub|];
      assert OccursAt(s, sub, j);
    }
  }

  /** strings.Split for a non-empty separator. */
  function Split(s: string, sep: string): (parts: seq<string>)
    requires |sep| > 0
    ensures |parts| >= 1
    decreases |s|
  {
    var i := IndexFrom(s, sep, 0);
    if i < 0 then [s] else [s[..i]] + Split(s[i + |sep|..], sep)
  }

  /** No piece of a split contains the separator. */
  lemma {:induction false} SplitPiecesFree(s: string, sep: string)
    requires |sep| > 0
    ensures forall k | 0 <= k < |Split(s, sep)| :: !Contains(Split(s, sep)[k], sep)
    decreases |s|
  {
    var i := IndexFrom(s, sep, 0);
    if i < 0 {
      assert !Contains(s, sep);
    } else {
      NoOccurrenceBefore(s, sep, i);
      SplitPiecesFree(s[i + |sep|..], sep);
    }
  }

  /** strings.Join */
  function Join(parts: seq<string>, sep: string): string {
    if |parts| == 0 then ""
    else if |parts| == 1 then parts[0]
    else parts[0] + sep + Join(parts[1..], sep)
  }

  /** Joining the pieces of a split gives back the original string. */
  lemma {:induction false} JoinSplit(s: string, sep: string)
    requires |sep| > 0
    ensures Join(Split(s, sep), sep) == s
    decreases |s|
  {
    var i := IndexFrom(s, sep, 0);
    if i >= 0 {
      var head := s[..i];
      var rest := s[i + |sep|..];
      var tail := Split(rest, sep);
      JoinSplit(rest, sep);
      assert Join(Split(s, sep), sep) == head + sep + Join(tail, sep) by {
        assert Split(s, sep) == [head] + tail;
        JoinCons(head, tail, sep);
      }
      assert s == head + sep + rest by {
        assert s[i..i + |sep|] == sep;
        assert s == s[..i] + s[i..i + |sep|] + s[i + |sep|..];
      }
    }
  }

  lemma JoinCons(head: string, tail: seq<string>, sep: string)
    requires |tail| >= 1
    ensures Join([head] + tail, sep) == head + sep + Join(tail, sep)
  {
    assert ([head] + tail)[1..] == tail;
  }

  /** Splitting on a single character that does not occur gives the string alone. */
  lemma SplitNoSep(a: string, c: char)
    requires c !in a
    ensures Split(a, [c]) == [a]
  {
    forall j | 0 <= j < |a|
      ensures !OccursAt(a, [c], j)
    {
      assert a[j..j + 1] == [a[j]];
    }
  }

  /** Splitting on a character peels off the text before its first occurrence. */
  lemma SplitCons(a: string, c: char, b: string)
    requires c !in a
    ensures Split(a + [c] + b, [c]) == [a] + Split(b, [c])
  {
    var s := a + [c] + b;
    var i := IndexFrom(s, [c], 0);
    assert OccursAt(s, [c], |a|);
    forall j | 0 <= j < |a|
      ensures !OccursAt(s, [c], j)
    {
      assert s[j..j + 1] == [a[j]];
    }
    assert i == |a|;
    assert s[..i] == a;
    assert s[i + 1..] == b;
  }

  /** For a one-character separator, splitting inverts joining. */
  lemma {:induction false} SplitJoin(parts: seq<string>, c: char)
    requires |parts| >= 1
    requires forall k | 0 <= k < |parts| :: c !in parts[k]
    ensures Split(Join(parts, [c]), [c]) == parts
    decreases |parts|
  {
    if |parts| == 1 {
      SplitNoSep(parts[0], c);
    } else {
      SplitJoin(parts[1..], c);
      SplitCons(parts[0], c, Join(parts[1..], [c]));
      assert [parts[0]] + parts[1..] == parts;
    }
  }

  /** unicode.IsSpace: the Unicode White_Space characters. */
  predicate IsSpace(c: char) {
    var n := c as int;
    (9 <= n <= 13) || n == 32 || n == 0x85 || n == 0xA0 || n == 0x1680
    || (0x2000 <= n <= 0x200A) || n == 0x2028 || n == 0x2029 || n == 0x202F
    || n == 0x205F || n == 0x3000
  }

  /** Drops the leading characters satisfying `drop`. */
  function TrimLeftBy(s: string, drop: char -> bool): (r: string)
    ensures HasSuffix(s, r)
    ensures |r| > 0 ==> !drop(r[0])
    ensures forall k | 0 <= k < |s| - |r| :: drop(s[k])
  {
    if |s| > 0 && drop(s[0]) then TrimLeftBy(s[1..], drop) else s
  }

  /** Drops the trailing characters satisfying `drop`. */
  function TrimRightBy(s: string, drop: char -> bool): (r: string)
    ensures HasPrefix(s, r)
    ensures |r| > 0 ==> !drop(r[|r| - 1])
    ensures forall k | |r| <= k < |s| :: drop(s[k])
  {
    if |s| > 0 && drop(s[|s| - 1]) then TrimRightBy(s[..|s| - 1], drop) else s
  }

  /** strings.TrimSpace */
  function TrimSpace(s: string): string {
    TrimRightBy(TrimLeftBy(s, IsSpace), IsSpace)
  }

  /** Membership in a cutset, as a predicate on characters. */
  function InCutset(cutset: string): char -> bool {
    c => c in cutset
  }

  /** strings.Trim(s, cutset) */
  function Trim(s: string, cutset: string): string {
    TrimRightBy(TrimLeftBy(s, InCutset(cutset)), InCutset(cutset))
  }

  /** Trimming a string enclosed in one cutset character on each side gives back what it enclosed. */
  lemma TrimEnclosed(open: char, body: string, close: char, cutset: string)
    requires open in cutset && close in cutset
    requires |body| > 0 && body[0] !in cutset && body[|body| - 1] !in cutset
    ensures Trim([open] + body + [close], cutset) == body
  {
    var s := [open] + body + [close];
    var drop := InCutset(cutset);
    var l := body + [close];
    assert s[1..] == l;
    assert TrimLeftBy(s, drop) == l;
    assert l[..|l| - 1] == body;
    assert TrimRightBy(l, drop) == TrimRightBy(body, drop);
  }

  /** strings.TrimPrefix */
  function TrimPrefix(s: string, p: string): string {
    if HasPrefix(s, p) then s[|p|..] else s
  }

  /** strings.TrimSuffix */
  function TrimSuffix(s: string, p: string): string {
    if HasSuffix(s, p) then s[..|s| - |p|] else s
  }

  /** A trimmed string is never longer than the original. */
  lemma TrimSpaceShorter(s: string)
    ensures |TrimSpace(s)| <= |s|
  {
  }

  lemma TrimShorter(s: string, cutset: string)
    ensures |Trim(s, cutset)| <= |s|
    ensures |s| > 0 && s[0] in cutset ==> |Trim(s, cutset)| < |s|
  {
    var l := TrimLeftBy(s, InCutset(cutset));
    assert |s| > 0 && s[0] in cutset ==> |l| < |s|;
  }

  /** The total length of a sequence of strings. */
  function SumLen(xs: seq<string>): nat {
    if |xs| == 0 then 0 else |xs[0]| + SumLen(xs[1..])
  }

  lemma {:induction false} JoinLength(parts: seq<string>, sep: string)
    requires |parts| >= 1
    ensures |Join(parts, sep)| == SumLen(parts) + (|parts| - 1) * |sep|
    decreases |parts|
  {
    if |parts| > 1 {
      JoinLength(parts[1..], sep);
    }
  }

  /** The pieces of a split together are no longer than the string. */
  lemma SplitSumLen(s: string, sep: string)
    requires |sep| > 0
    ensures SumLen(Split(s, sep)) <= |s|
  {
    JoinSplit(s, sep);
    JoinLength(Split(s, sep), sep);
  }

  /** No piece of a split is longer than the string. */
  lemma {:induction false} SplitPieceShorter(s: string, sep: string)
    requires |sep| > 0
    ensures forall k | 0 <= k < |Split(s, sep)| :: |Split(s, sep)[k]| <= |s|
    decreases |s|
  {
    var i := IndexFrom(s, sep, 0);
    if i >= 0 {
      SplitPieceShorter(s[i + |sep|..], sep);
    }
  }

  /** The first piece of a split is the text before the first separator, shorter than the string when there is one. */
  lemma SplitFirst(s: string, sep: string, i: nat)
    requires |sep| > 0 && OccursAt(s, sep, i)
    ensures |Split(s, sep)[0]| <= i
    ensures HasPrefix(s, Split(s, sep)[0])
  {
  }

  /** The last piece of a split is a suffix of the string. */
  lemma {:induction false} SplitLastSuffix(s: string, sep: string)
    requires |sep| > 0
    ensures HasSuffix(s, Split(s, sep)[|Split(s, sep)| - 1])
    decreases |s|
  {
    var i := IndexFrom(s, sep, 0);
    if i >= 0 {
      var rest := s[i + |sep|..];
      var tail := Split(rest, sep);
      SplitLastSuffix(rest, sep);
      var last := tail[|tail| - 1];
      assert Split(s, sep) == [s[..i]] + tail;
      assert Split(s, sep)[|Split(s, sep)| - 1] == last;
      SuffixOfDrop(s, i + |sep|, last);
    }
  }

  /** A suffix of what is left after dropping a prefix is a suffix of the whole. */
  lemma SuffixOfDrop(s: string, k: nat, t: string)
    requires k <= |s| && HasSuffix(s[k..], t)
    ensures HasSuffix(s, t)
  {
    assert s[|s| - |t|..] == s[k..][|s| - k - |t|..];
  }
}

=== FILE: tcp_conn.dfy ===
/**
 * The TCP connection of gnet/tcp_conn.go: length-prefixed frames in both
 * directions and the receive loop that hands each frame to the
 * connection's handler until something stops it.
 *
 * The socket is the sequence of bytes the peer sends before closing its
 * side; a read takes bytes from its front. Failures of the read deadline,
 * the manager's "accept messages" switch and the handler are parameters,
 * indexed by the iteration of the loop. The i-th deadline failing stands
 * both for SetReadDeadline failing and for the ReadTimeout expiring before
 * the i-th frame is in: a peer that goes silent for that long ends the loop
 * with that error, as the loop ends on any receive error.
 */
module TcpConn {
  import opened Wrappers

  newtype byte = x: int | 0 <= x < 256

  /** The size of a frame header. */
  const Packet: nat := 4

  /** math.MaxInt16: the largest body a peer may announce. */
  const MaxIncomingPacket: nat := 32767

  const TwoTo32: nat := 0x1_0000_0000

  /** ReadTimeout: each receive must be done within 60 seconds of its start. */
  const ReadTimeoutSeconds: nat := 60

  datatype ConnError =
    | EOF                // io.EOF: the stream ended before a read began
    | UnexpectedEOF      // io.ErrUnexpectedEOF: the stream ended inside a read
    | TooLarge(size: nat)
    | Deadline           // SetReadDeadline failed, or the read timed out
    | Handler(reason: string)

  /**
   * io.ReadFull: the next n bytes and the stream after them. A stream that
   * ends first gives EOF when nothing could be read and ErrUnexpectedEOF
   * otherwise, and is used up.
   */
  function ReadFull(stream: seq<byte>, n: nat): (r: (Result<seq<byte>, ConnError>, seq<byte>))
    ensures r.0.Ok? <==> n <= |stream|
    ensures r.0.Ok? ==> |r.0.value| == n && stream == r.0.value + r.1
    ensures r.0.Err? ==> r.1 == [] && r.0.error == (if |stream| == 0 then EOF else UnexpectedEOF)
  {
    if n <= |stream| then (Ok(stream[..n]), stream[n..])
    else if |stream| == 0 then (Err(EOF), [])
    else (Err(UnexpectedEOF), [])
  }

  /** binary.BigEndian.Uint32 */
  function DecodeBE32(h: seq<byte>): (v: nat)
    requires |h| == 4
    ensures v < TwoTo32
  {
    ((h[0] as nat * 256 + h[1] as nat) * 256 + h[2] as nat) * 256 + h[3] as nat
  }

  /** The four big-endian bytes of a 32-bit value. */
  function EncodeBE32(v: nat): (h: seq<byte>)
    requires v < TwoTo32
    ensures |h| == 4
  {
    [(v / 0x100_0000) as byte, (v / 0x1_0000 % 256) as byte, (v / 256 % 256) as byte, (v % 256) as byte]
  }

  lemma DecodeEncode(v: nat)
    requires v < TwoTo32
    ensures DecodeBE32(EncodeBE32(v)) == v
  {
    var h := EncodeBE32(v);
    assert (h[0] as nat * 256 + h[1] as nat) == v / 0x1_0000;
    assert (h[0] as nat * 256 + h[1] as nat) * 256 + h[2] as nat == v / 256;
  }

  lemma EncodeDecode(h: seq<byte>)
    requires |h| == 4
    ensures EncodeBE32(DecodeBE32(h)) == h
  {
    var v := DecodeBE32(h);
    var a, b, c, d := h[0] as nat, h[1] as nat, h[2] as nat, h[3] as nat;
    DivDigit(256, (a * 256 + b) * 256 + c, d);
    DivDigit(256, a * 256 + b, c);
    DivDigit(256, a, b);
    DivDigit(0x1_0000, a * 256 + b, c * 256 + d);
    DivDigit(0x100_0000, a, (b * 256 + c) * 256 + d);
    var e := EncodeBE32(v);
    assert e[0] == h[0] && e[1] == h[1] && e[2] == h[2] && e[3] == h[3];
  }

  /** Dividing q * m + r by m, with r below m, gives q and leaves r (for the byte-place divisors). */
  lemma DivDigit(m: nat, q: nat, r: nat)
    requires m == 256 || m == 0x1_0000 || m == 0x100_0000
    requires 0 <= r < m
    ensures (q * m + r) / m == q && (q * m + r) % m == r
  {
    if m == 256 {
      assert (q * 256 + r) / 256 == q;
    } else if m == 0x1_0000 {
      assert (q * 0x1_0000 + r) / 0x1_0000 == q;
    } else {
      assert (q * 0x100_0000 + r) / 0x100_0000 == q;
    }
  }

  /**
   * receive: a header, then the body it announces. The result comes with
   * the stream left after it. A failing deadline (set or expired) is an
   * error whatever was read so far.
   */
  function Receive(stream: seq<byte>, deadlineFails: bool): (r: (Result<seq<byte>, ConnError>, seq<byte>))
    ensures deadlineFails ==> r == (Err(Deadline), stream)
    ensures !deadlineFails && |stream| < Packet ==>
      r == (Err(if |stream| == 0 then EOF else UnexpectedEOF), [])
    ensures !deadlineFails && |stream| >= Packet && DecodeBE32(stream[..Packet]) > MaxIncomingPacket ==>
      r == (Err(TooLarge(DecodeBE32(stream[..Packet]))), stream[Packet..])
    ensures r.0.Ok? <==>
      && !deadlineFails && |stream| >= Packet
      && DecodeBE32(stream[..Packet]) <= MaxIncomingPacket
      && Packet + DecodeBE32(stream[..Packet]) <= |stream|
    ensures r.0.Ok? ==>
      var size := DecodeBE32(stream[..Packet]);
      r.0.value == stream[Packet..Packet + size] && r.1 == stream[Packet + size..]
    ensures r.0.Err? && r.0.error.UnexpectedEOF? ==> r.1 == []
  {
    if deadlineFails then (Err(Deadline), stream)
    else
      var (header, rest) := ReadFull(stream, Packet);
      match header
      case Err(e) => (Err(e), rest)
      case Ok(h) =>
        var size := DecodeBE32(h);
        if size > MaxIncomingPacket then (Err(TooLarge(size)), rest)
        else
          var body := ReadFull(rest, size);
          assert body.0.Ok? ==> stream[Packet..Packet + size] == rest[..size];
          body
  }

  /**
   * SendData: the payload behind its length as an int32 (wrapped to 32
   * bits), written by the packet writer in big-endian order.
   */
  function SendData(data: seq<byte>): (frame: seq<byte>)
    ensures |frame| == Packet + |data| && frame[Packet..] == data
    ensures DecodeBE32(frame[..Packet]) == |data| % TwoTo32
  {
    DecodeEncode(|data| % TwoTo32);
    EncodeBE32(|data| % TwoTo32) + data
  }

  /** A frame sent with SendData is received as its payload, and the stream continues right after it. */
  lemma FrameRoundTrip(data: seq<byte>, more: seq<byte>)
    requires |data| <= MaxIncomingPacket
    ensures Receive(SendData(data) + more, false) == (Ok(data), more)
  {
    var frame := SendData(data);
    var s := frame + more;
    assert DecodeBE32(s[..Packet]) == |data| by {
      assert s[..Packet] == frame[..Packet];
    }
    assert s[Packet..Packet + |data|] == data;
    assert s[Packet + |data|..] == more;
    var r := Receive(s, false);
    assert r.0.Ok?;
  }

  /** A payload longer than the limit is refused by the receiving side. */
  lemma OversizeFrameRefused(data: seq<byte>, more: seq<byte>)
    requires MaxIncomingPacket < |data| < TwoTo32
    ensures Receive(SendData(data) + more, false).0 == Err(TooLarge(|data|))
  {
    var s := SendData(data) + more;
    assert s[..Packet] == SendData(data)[..Packet];
  }

  /** How the receive loop ends: the payloads given to OnData, and the error given to OnClose (None for nil). */
  datatype Closed = Closed(delivered: seq<seq<byte>>, closeErr: Option<ConnError>)

  /**
   * StartReceiveLoop from iteration i: while messages are accepted, receive
   * a frame and hand it to OnData; stop at the first receive or handler
   * error. OnClose then gets the last error, which is nil when the loop
   * stopped because messages are no longer accepted.
   */
  function Run(stream: seq<byte>, i: nat, accepting: nat -> bool, deadlineFails: nat -> bool,
               onData: (nat, seq<byte>) -> Option<string>): (c: Closed)
    ensures c.closeErr.None? ==> !accepting(i + |c.delivered|)
    ensures c.closeErr.Some? && !c.closeErr.value.Handler? ==> accepting(i + |c.delivered|)
    ensures c.closeErr.Some? && c.closeErr.value.Handler? ==>
      |c.delivered| > 0 && onData(i + |c.delivered| - 1, c.delivered[|c.delivered| - 1]) == Some(c.closeErr.value.reason)
    ensures forall j: nat | i <= j < i + |c.delivered| :: accepting(j)
    ensures Packet * |c.delivered| <= |stream|
    decreases |stream|
  {
    if !accepting(i) then Closed([], None)
    else
      var (r, rest) := Receive(stream, deadlineFails(i));
      match r
      case Err(e) => Closed([], Some(e))
      case Ok(data) =>
        match onData(i, data)
        case Some(reason) => Closed([data], Some(Handler(reason)))
        case None =>
          var c := Run(rest, i + 1, accepting, deadlineFails, onData);
          var delivered := [data] + c.delivered;
          assert |delivered| == 1 + |c.delivered| && delivered[1..] == c.delivered;
          Closed(delivered, c.closeErr)
  }

  /** The receive loop as a loop: it ends exactly as Run describes. */
  method ReceiveLoop(stream: seq<byte>, accepting: nat -> bool, deadlineFails: nat -> bool,
                     onData: (nat, seq<byte>) -> Option<string>)
    returns (delivered: seq<seq<byte>>, closeErr: Option<ConnError>)
    ensures Closed(delivered, closeErr) == Run(stream, 0, accepting, deadlineFails, onData)
  {
    ghost var whole := Run(stream, 0, accepting, deadlineFails, onData);
    delivered := [];
    closeErr := None;
    var rest := stream;
    var i: nat := 0;
    while true
      invariant whole.delivered == delivered + Run(rest, i, accepting, deadlineFails, onData).delivered
      invariant whole.closeErr == Run(rest, i, accepting, deadlineFails, onData).closeErr
      decreases |rest|
    {
      if !accepting(i) {
        RunStops(rest, i, accepting, deadlineFails, onData);
        assert delivered + [] == delivered;
        break;
      }
      var (r, next) := Receive(rest, deadlineFails(i));
      if r.Err? {
        RunStops(rest, i, accepting, deadlineFails, onData);
        closeErr := Some(r.error);
        assert delivered + [] == delivered;
        break;
      }
      var failure := onData(i, r.value);
      RunStep(rest, i, accepting, deadlineFails, onData);
      if failure.Some? {
        assert whole.delivered == delivered + [r.value];
        delivered := delivered + [r.value];
        closeErr := Some(Handler(failure.value));
        break;
      }
      RunAdvance(rest, i, accepting, deadlineFails, onData, delivered);
      delivered := delivered + [r.value];
      rest := next;
      i := i + 1;
    }
  }

  /** The turns of the loop that end it before anything is received. */
  lemma RunStops(stream: seq<byte>, i: nat, accepting: nat -> bool, deadlineFails: nat -> bool,
                 onData: (nat, seq<byte>) -> Option<string>)
    ensures !accepting(i) ==> Run(stream, i, accepting, deadlineFails, onData) == Closed([], None)
    ensures accepting(i) && Receive(stream, deadlineFails(i)).0.Err? ==>
      Run(stream, i, accepting, deadlineFails, onData) == Closed([], Some(Receive(stream, deadlineFails(i)).0.error))
  {
  }

  /** One turn of the loop that receives a frame and hands it on. */
  lemma RunStep(stream: seq<byte>, i: nat, accepting: nat -> bool, deadlineFails: nat -> bool,
                onData: (nat, seq<byte>) -> Option<string>)
    requires accepting(i) && Receive(stream, deadlineFails(i)).0.Ok?
    ensures var (r, rest) := Receive(stream, deadlineFails(i));
      var c := Run(stream, i, accepting, deadlineFails, onData);
      && |rest| < |stream|
      && (onData(i, r.value).Some? ==> c == Closed([r.value], Some(Handler(onData(i, r.value).value))))
      && (onData(i, r.value).None? ==>
            c == Closed([r.value] + Run(rest, i + 1, accepting, deadlineFails, onData).delivered,
                        Run(rest, i + 1, accepting, deadlineFails, onData).closeErr))
  {
  }

  /** A turn that delivers a frame and goes on moves that frame from what is left to run onto what was delivered. */
  lemma RunAdvance(stream: seq<byte>, i: nat, accepting: nat -> bool, deadlineFails: nat -> bool,
                   onData: (nat, seq<byte>) -> Option<string>, before: seq<seq<byte>>)
    requires accepting(i) && Receive(stream, deadlineFails(i)).0.Ok?
    requires onData(i, Receive(stream, deadlineFails(i)).0.value).None?
    ensures var (r, rest) := Receive(stream, deadlineFails(i));
      var c := Run(stream, i, accepting, deadlineFails, onData);
      var c' := Run(rest, i + 1, accepting, deadlineFails, onData);
      before + c.delivered == (before + [r.value]) + c'.delivered && c.closeErr == c'.closeErr
  {
    var (r, rest) := Receive(stream, deadlineFails(i));
    RunStep(stream, i, accepting, deadlineFails, onData);
    AppendShift(before, r.value, Run(rest, i + 1, accepting, deadlineFails, onData).delivered);
  }

  /** Appending one element then a tail is appending both at once. */
  lemma AppendShift<T>(before: seq<T>, x: T, after: seq<T>)
    ensures before + ([x] + after) == (before + [x]) + after
  {
  }

  /** The bytes of frames sent one after another. */
  function Frames(payloads: seq<seq<byte>>): (s: seq<byte>)
    decreases |payloads|
  {
    if |payloads| == 0 then [] else SendData(payloads[0]) + Frames(payloads[1..])
  }

  /**
   * While messages are accepted and neither the deadline nor the handler
   * fails, every frame the peer sent is delivered, in order, and the loop
   * ends with EOF when the peer closes.
   */
  lemma {:induction false} FramesDelivered(payloads: seq<seq<byte>>, i: nat, accepting: nat -> bool,
                                           deadlineFails: nat -> bool, onData: (nat, seq<byte>) -> Option<string>)
    requires forall k | 0 <= k < |payloads| :: |payloads[k]| <= MaxIncomingPacket
    requires forall j: nat | i <= j :: accepting(j) && !deadlineFails(j)
    requires forall j: nat, d: seq<byte> | i <= j :: onData(j, d).None?
    ensures Run(Frames(payloads), i, accepting, deadlineFails, onData) == Closed(payloads, Some(EOF))
    decreases |payloads|
  {
    if |payloads| > 0 {
      FrameRoundTrip(payloads[0], Frames(payloads[1..]));
      FramesDelivered(payloads[1..], i + 1, accepting, deadlineFails, onData);
      assert [payloads[0]] + payloads[1..] == payloads;
    }
  }
}

=== FILE: timertask.dfy ===
/**
 * The delayed-task scheduler of timertask/timertask.go.
 *
 * Redis is three maps: the task contents (with their expiry in seconds),
 * and the sorted set of the namespace, from task key to its run time. The
 * current Unix time and whether each Redis request fails are parameters; a
 * request whose result the source ignores is taken to succeed. A task due
 * to run is handed to the worker pool; the model returns the keys handed
 * over, in order.
 */
module TimerTask {
  import opened Wrappers
  import opened Seqs
  import Strs

  /** MfaExpireDelay: contents outlive their run time by an hour. */
  const MfaExpireDelay: nat := 3600
  const KeyPrefix: string := "timer_task:"

  datatype Options = Options(checkInterval: nat, batchLimit: int)

  /** The options used when Start is given none: check every second, at most 100 tasks per check. */
  const DefaultOptions: Options := Options(1, 100)

  datatype Stored = Stored(content: string, ttl: nat)

  datatype Redis = Redis(contents: map<string, Stored>, scores: map<string, int>)

  /** redis.Nil (the key is absent) is told apart from every other failure. */
  datatype RedisError = Nil | Failed

  /** Start takes the first option given, or the defaults. */
  function StartOptions(options: seq<Options>): (o: Options)
    ensures |options| > 0 ==> o == options[0]
    ensures |options| == 0 ==> o.checkInterval == 1 && o.batchLimit == 100
  {
    if |options| > 0 then options[0] else DefaultOptions
  }

  /** mfaKey: where a task's content lives. */
  function MfaKey(key: string): (k: string)
    ensures Strs.HasPrefix(k, KeyPrefix) && k[|KeyPrefix|..] == key
  {
    KeyPrefix + key
  }

  lemma MfaKeyInjective(k1: string, k2: string)
    ensures MfaKey(k1) == MfaKey(k2) <==> k1 == k2
  {
    if MfaKey(k1) == MfaKey(k2) {
      assert k1 == MfaKey(k1)[|KeyPrefix|..];
    }
  }

  /** Add's content: player id and task joined by ':'. */
  function Content(playerId: string, task: string): (c: string)
    ensures |c| == |playerId| + 1 + |task| && c[|playerId|] == ':'
    ensures c[..|playerId|] == playerId && c[|playerId| + 1..] == task
  {
    playerId + ":" + task
  }

  /** The content's lifetime: the time left until the run, never negative, plus an hour. */
  function MfaExpire(runAt: int, now: int): (e: nat)
    ensures e >= MfaExpireDelay
    ensures e >= runAt - now + MfaExpireDelay
    ensures runAt >= now ==> e == runAt - now + MfaExpireDelay
    ensures runAt <= now ==> e == MfaExpireDelay
  {
    (if runAt - now > 0 then runAt - now else 0) + MfaExpireDelay
  }

  /** add: store the content, then schedule the key; a failed store schedules nothing. */
  function DoAdd(r: Redis, key: string, runAt: int, content: string, now: int, setFails: bool, zaddFails: bool)
    : (res: (Redis, Option<RedisError>))
    ensures setFails ==> res == (r, Some(Failed))
    ensures !setFails ==>
      && res.0.contents == r.contents[MfaKey(key) := Stored(content, MfaExpire(runAt, now))]
      && (zaddFails <==> res.1.Some?)
      && (zaddFails ==> res.0.scores == r.scores)
      && (!zaddFails ==> res.0.scores == r.scores[key := runAt])
  {
    if setFails then (r, Some(Failed))
    else
      var r1 := r.(contents := r.contents[MfaKey(key) := Stored(content, MfaExpire(runAt, now))]);
      if zaddFails then (r1, Some(Failed))
      else (r1.(scores := r1.scores[key := runAt]), None)
  }

  /**
   * update: only a scheduled key with a positive run time is moved; an
   * absent key is not an error.
   */
  function DoUpdate(r: Redis, key: string, runAt: int, zscoreFails: bool, zaddFails: bool)
    : (res: (Redis, Option<RedisError>))
    ensures res.0.contents == r.contents
    ensures res.0.scores != r.scores ==> key in r.scores && r.scores[key] > 0 && res.0.scores == r.scores[key := runAt]
    ensures !zscoreFails && key !in r.scores ==> res == (r, None)
    ensures !zscoreFails && key in r.scores && r.scores[key] <= 0 ==> res == (r, None)
    ensures !zscoreFails && !zaddFails && key in r.scores && r.scores[key] > 0 ==>
      res == (r.(scores := r.scores[key := runAt]), None)
    ensures !zscoreFails && zaddFails && key in r.scores && r.scores[key] > 0 ==> res == (r, Some(Failed))
    ensures zscoreFails ==> res == (r, Some(Failed))
  {
    if zscoreFails then (r, Some(Failed))
    else if key !in r.scores then (r, None)
    else if r.scores[key] > 0 then
      if zaddFails then (r, Some(Failed)) else (r.(scores := r.scores[key := runAt]), None)
    else (r, None)
  }

  /** get: the key's run time, or Nil when it is not scheduled. */
  function DoGet(r: Redis, key: string, fails: bool): (res: Result<int, RedisError>)
    ensures res.Ok? <==> !fails && key in r.scores
    ensures res.Ok? ==> res.value == r.scores[key]
    ensures !fails && key !in r.scores ==> res == Err(Nil)
  {
    if fails then Err(Failed) else if key in r.scores then Ok(r.scores[key]) else Err(Nil)
  }

  /** Get: any error, of the call or of Redis, reads as 0. */
  function Get(r: Redis, key: string, callFails: bool, redisFails: bool): (v: int)
    ensures !callFails && !redisFails && key in r.scores ==> v == r.scores[key]
    ensures callFails || redisFails || key !in r.scores ==> v == 0
  {
    if callFails then 0
    else match DoGet(r, key, redisFails)
      case Ok(v) => v
      case Err(_) => 0
  }

  /** del: drop the content, then unschedule; a failed first removal skips the second. */
  function DoDel(r: Redis, key: string, delFails: bool, zremFails: bool): (res: (Redis, Option<RedisError>))
    ensures delFails ==> res == (r, Some(Failed))
    ensures !delFails ==> res.0.contents == r.contents - {MfaKey(key)}
    ensures !delFails && zremFails ==> res.0.scores == r.scores && res.1 == Some(Failed)
    ensures !delFails && !zremFails ==> res.0.scores == r.scores - {key} && res.1 == None
  {
    if delFails then (r, Some(Failed))
    else
      var r1 := r.(contents := r.contents - {MfaKey(key)});
      if zremFails then (r1, Some(Failed)) else (r1.(scores := r1.scores - {key}), None)
  }

  /** Adding and then deleting a key that was not there leaves Redis as it was. */
  lemma AddThenDel(r: Redis, key: string, runAt: int, content: string, now: int)
    requires key !in r.scores && MfaKey(key) !in r.contents
    ensures var r1 := DoAdd(r, key, runAt, content, now, false, false).0;
      DoDel(r1, key, false, false) == (r, None)
  {
    var r1 := DoAdd(r, key, runAt, content, now, false, false).0;
    assert r1.contents - {MfaKey(key)} == r.contents;
    assert r1.scores - {key} == r.scores;
  }

  /**
   * What get reads after update: a successful update makes a scheduled key
   * with a positive run time read back as the new run time, leaves every
   * other read as before, and a failed update changes no read at all.
   */
  lemma UpdateThenGet(r: Redis, key: string, runAt: int, zscoreFails: bool, zaddFails: bool, other: string)
    ensures var (r', err) := DoUpdate(r, key, runAt, zscoreFails, zaddFails);
      && (err.None? && key in r.scores && r.scores[key] > 0 ==> DoGet(r', key, false) == Ok(runAt))
      && (err.None? && (key !in r.scores || r.scores[key] <= 0) ==> DoGet(r', key, false) == DoGet(r, key, false))
      && (err.Some? ==> DoGet(r', key, false) == DoGet(r, key, false))
      && (other != key ==> DoGet(r', other, false) == DoGet(r, other, false))
  {
  }

  /** Updating a freshly added key moves it: get then reads the new run time. */
  lemma AddThenUpdate(r: Redis, key: string, runAt: int, runAt': int, content: string, now: int)
    requires runAt > 0
    ensures var r1 := DoAdd(r, key, runAt, content, now, false, false).0;
      var (r2, err) := DoUpdate(r1, key, runAt', false, false);
      err == None && DoGet(r2, key, false) == Ok(runAt') && r2.contents == r1.contents
  {
  }

  /* ---------------- the check frame ---------------- */

  /** The keys due at `now`: scheduled with a run time between 0 and now. */
  ghost function Due(scores: map<string, int>, now: int): set<string> {
    set k | k in scores && 0 <= scores[k] <= now
  }

  /**
   * How many keys the range query returns: a positive limit caps it; a
   * limit of 0 sends no LIMIT and a negative one is no limit in Redis.
   */
  function BatchSize(limit: int, due: nat): (n: nat)
    ensures n <= due && (limit > 0 ==> n <= limit)
    ensures n == due || n == limit
  {
    if limit > 0 && limit < due then limit else due
  }

  /**
   * ZRangeByScore from 0 to now, limited: due keys, each once, by ascending
   * run time, and none left out that runs earlier than one taken.
   */
  ghost predicate IsDueBatch(scores: map<string, int>, now: int, limit: int, batch: seq<string>) {
    && Distinct(batch)
    && (forall k | 0 <= k < |batch| :: batch[k] in Due(scores, now))
    && |batch| == BatchSize(limit, |Due(scores, now)|)
    && (forall i, j | 0 <= i < j < |batch| :: scores[batch[i]] <= scores[batch[j]])
    && (forall k, i | k in Due(scores, now) && k !in batch && 0 <= i < |batch| :: scores[batch[i]] <= scores[k])
  }

  /**
   * tickerTask: every key of the batch is unscheduled and handed to the
   * pool, in order; a failed range query does nothing.
   */
  function TickerTask(r: Redis, batch: seq<string>, rangeFails: bool): (res: (Redis, seq<string>))
    ensures rangeFails ==> res == (r, [])
    ensures !rangeFails ==> res.1 == batch
    ensures res.0.contents == r.contents
    ensures !rangeFails ==> res.0.scores == map k | k in r.scores && k !in batch :: r.scores[k]
  {
    if rangeFails then (r, [])
    else (r.(scores := map k | k in r.scores && k !in batch :: r.scores[k]), batch)
  }

  /**
   * A check frame hands over at most the limit, only due keys, and leaves
   * every other key scheduled; when everything due fits in the limit
   * nothing due is left.
   */
  lemma TickerTaskSelection(r: Redis, now: int, limit: int, batch: seq<string>)
    requires IsDueBatch(r.scores, now, limit, batch)
    ensures var (r', handed) := TickerTask(r, batch, false);
      && (limit > 0 ==> |handed| <= limit)
      && (forall k | 0 <= k < |handed| :: handed[k] in r.scores && 0 <= r.scores[handed[k]] <= now)
      && (forall k | k in r.scores && k !in Due(r.scores, now) :: k in r'.scores && r'.scores[k] == r.scores[k])
      && ((limit <= 0 || |Due(r.scores, now)| <= limit) ==> Due(r'.scores, now) == {})
  {
    var due := Due(r.scores, now);
    if limit <= 0 || |due| <= limit {
      BatchCoversDue(batch, due);
    }
  }

  /** A duplicate-free list of members of a set, as long as the set, lists all of it. */
  lemma BatchCoversDue(batch: seq<string>, due: set<string>)
    requires Distinct(batch) && |batch| == |due|
    requires forall k | 0 <= k < |batch| :: batch[k] in due
    ensures forall k | k in due :: k in batch
  {
    var s := set x | x in batch;
    DistinctCardinality(batch, s);
    SubsetOfSameSize(s, due);
  }

  /* ---------------- running a handed-over task ---------------- */

  /** What handleTask does with a key. */
  datatype TaskRun =
    | Skipped                               // no content stored: nothing runs
    | ReadFailed                            // the content could not be read
    | Malformed                             // fewer than two ':'-chunks: indexing panics
    | Ran(playerId: string, task: string)   // the handler is called with these

  /**
   * handleTask: with no stored content nothing runs; otherwise the content
   * is deleted and the handler gets its first two ':'-separated chunks.
   */
  function HandleTask(r: Redis, key: string, getFails: bool): (res: (Redis, TaskRun))
    ensures getFails ==> res == (r, ReadFailed)
    ensures !getFails && MfaKey(key) !in r.contents ==> res == (r, Skipped)
    ensures !getFails && MfaKey(key) in r.contents ==>
      && res.0.contents == r.contents - {MfaKey(key)} && res.0.scores == r.scores
      && (res.1.Malformed? <==> ':' !in r.contents[MfaKey(key)].content)
      && (res.1.Ran? ==> var chunks := Strs.Split(r.contents[MfaKey(key)].content, ":");
            |chunks| >= 2 && res.1 == Ran(chunks[0], chunks[1]))
    ensures !getFails && MfaKey(key) in r.contents ==> res.1.Malformed? || res.1.Ran?
  {
    if getFails then (r, ReadFailed)
    else if MfaKey(key) !in r.contents then (r, Skipped)
    else
      var content := r.contents[MfaKey(key)].content;
      var r1 := r.(contents := r.contents - {MfaKey(key)});
      var chunks := Strs.Split(content, ":");
      ColonSplits(content);
      if |chunks| < 2 then (r1, Malformed) else (r1, Ran(chunks[0], chunks[1]))
  }

  /** Splitting on ':' gives at least two chunks exactly when the text has a ':'. */
  lemma ColonSplits(s: string)
    ensures |Strs.Split(s, ":")| >= 2 <==> ':' in s
  {
    if ':' in s {
      var i :| 0 <= i < |s| && s[i] == ':';
      assert Strs.OccursAt(s, ":", i) by { assert s[i..i + 1] == [s[i]]; }
    } else {
      Strs.SplitNoSep(s, ':');
    }
  }

  /**
   * handleTask inverts Add: a task added for a player, neither containing
   * ':', runs the handler with that player and task and clears its content.
   */
  lemma AddThenRun(r: Redis, key: string, runAt: int, now: int, playerId: string, task: string)
    requires ':' !in playerId && ':' !in task
    ensures var r1 := DoAdd(r, key, runAt, Content(playerId, task), now, false, false).0;
      var (r2, run) := HandleTask(r1, key, false);
      run == Ran(playerId, task) && MfaKey(key) !in r2.contents && r2.scores == r1.scores
  {
    Strs.SplitCons(playerId, ':', task);
    Strs.SplitNoSep(task, ':');
    assert playerId + [':'] + task == Content(playerId, task);
  }

  /* ---------------- the server ---------------- */

  datatype Msg =
    | AddParams(key: string, runAt: int, content: string)
    | UpdateParams(key: string, runAt: int)
    | FinishParams(key: string)
    | DelParams(key: string)
    | GetParams(key: string)
    | TickerTaskParams
    | StopTickerParams
    | OtherMsg

  /** The failure of each Redis request one message makes, and the current time. */
  datatype Env = Env(now: int, first: bool, second: bool)

  datatype Timer = Timer(redis: Redis, options: Options, ticking: bool)

  /** Add builds the content on the caller's side and casts it. */
  function AddMsg(key: string, runAt: int, playerId: string, task: string): (m: Msg)
    ensures m.AddParams? && m.key == key && m.runAt == runAt && m.content == Content(playerId, task)
  {
    AddParams(key, runAt, Content(playerId, task))
  }

  /**
   * handleCallAndCast: the result of add, update or del; Finish hands the
   * key to the pool; a tick hands over `batch`; StopTicker stops the ticker.
   * Everything else does nothing.
   */
  function Handle(t: Timer, msg: Msg, env: Env, batch: seq<string>): (res: (Timer, seq<string>, Option<RedisError>))
    ensures res.0.options == t.options
    ensures msg.FinishParams? ==> res == (t, [msg.key], None)
    ensures msg.StopTickerParams? ==> res == (t.(ticking := false), [], None)
    ensures msg.GetParams? || msg.OtherMsg? ==> res == (t, [], None)
    ensures !msg.TickerTaskParams? && !msg.FinishParams? ==> res.1 == []
    ensures msg.TickerTaskParams? && !env.first ==> res.1 == batch
  {
    match msg
    case AddParams(k, runAt, c) =>
      var (r, e) := DoAdd(t.redis, k, runAt, c, env.now, env.first, env.second);
      (t.(redis := r), [], e)
    case UpdateParams(k, runAt) =>
      var (r, e) := DoUpdate(t.redis, k, runAt, env.first, env.second);
      (t.(redis := r), [], e)
    case FinishParams(k) => (t, [k], None)
    case DelParams(k) =>
      var (r, e) := DoDel(t.redis, k, env.first, env.second);
      (t.(redis := r), [], e)
    case TickerTaskParams =>
      var (r, handed) := TickerTask(t.redis, batch, env.first);
      (t.(redis := r), handed, None)
    case StopTickerParams => (t.(ticking := false), [], None)
    case GetParams(_) => (t, [], None)
    case OtherMsg => (t, [], None)
  }

  /** HandleCall: Get answers the run time (as get does); anything else answers nil and Handle's error. */
  function HandleCall(t: Timer, msg: Msg, env: Env, batch: seq<string>)
    : (res: (Timer, Option<int>, Option<RedisError>))
    ensures msg.GetParams? ==> res.0 == t
    ensures msg.GetParams? ==>
      (res.1.Some? <==> !env.first && msg.key in t.redis.scores)
      && (res.1.Some? ==> res.1.value == t.redis.scores[msg.key])
    ensures !msg.GetParams? ==> res.1 == None && res.0 == Handle(t, msg, env, batch).0
  {
    match msg
    case GetParams(k) =>
      (match DoGet(t.redis, k, env.first)
       case Ok(v) => (t, Some(v), None)
       case Err(e) => (t, None, Some(e)))
    case _ =>
      var (t', _, e) := Handle(t, msg, env, batch);
      (t', None, e)
  }

  /** Terminate stops the ticker and succeeds. */
  function Terminate(t: Timer): (res: (Timer, Option<RedisError>))
    ensures !res.0.ticking && res.0.redis == t.redis && res.1 == None
  {
    (t.(ticking := false), None)
  }
}

=== FILE: wrappers.dfy ===
/**
 * Failure-carrying values shared by every component of the model: an
 * optional value (a Go `nil` pointer or a missing map entry) and a result
 * that is either a value or an error (a Go `(value, error)` pair or a panic).
 */
module Wrappers {

  datatype Option<+T> = None | Some(value: T) {

    /** The wrapped value, or `default` when there is none. */
    function GetOr(default: T): T {
      match this
      case Some(v) => v
      case None => default
    }
  }

  datatype Result<+T, +E> = Ok(value: T) | Err(error: E) {

    /** Forgets the error, keeping only whether a value was produced. */
    function ToOption(): Option<T> {
      match this
      case Ok(v) => Some(v)
      case Err(_) => None
    }
  }

  /** A step that either succeeds without a value or fails with an error. */
  datatype Outcome<+E> = Pass | Fail(error: E)
}
